=== FILE: README.md ===
# Admin backend moderation core, modelled in Dafny

This project models the decision logic of the Admin_backend moderation server: the
administrator and moderator authentication, the moderator session ledger and its
kill switch, the role gates and the route table, the sliding-window limiter in
front of the verification actions, and the record transitions of the moderation
handlers (user status, verification, soft delete, report flags and notes,
moderator ban, unban and session revocation, moderator creation, notifications).

Everything is a pure function over immutable values:

- The database is a `Db` value, one sequence per collection. A lookup returns the
  first matching document, the way `findOne` and `findById` do (`Records.IndexOf`).
- JSON Web Tokens are abstract (`Tokens.Token`): the secret that signed them, the
  claims, and `iat`/`exp` in whole seconds. A token is valid when the secret matches
  and the clock in seconds has not reached `exp` (section 4.1.4 of RFC 7519).
  The text a client presents is read through a `Codec` oracle. `Faithful(codec)`
  states that a rendered token parses back to itself and has no spaces, and that
  the empty text is no token (`jwt.verify("")` throws).
- bcrypt's `compare` and `hash`, the database's choice of new ids, and the clock
  are parameters.
- A query number (`Number(req.query.page)`) is a `Listing.JsNumber`: NaN, a finite
  real, or an infinity.
- An error response is a `Wrappers.Failure` that carries its HTTP status code.

The modules follow the source files:

| module | source |
|---|---|
| `Limiter` | src/middleware/adminVerifyLimiter.js |
| `AuthAny` | src/middleware/authAny.js |
| `ModeratorAuth` | src/controllers/moderatorAuth.controller.js |
| `AdminAuth` | src/controllers/adminAuth.controller.js |
| `Gates` | src/middleware/roleAuth.js, src/middleware/adminAuth.js |
| `Routes` | src/routes/admin.routes.js |
| `Listing`, `Moderation` | src/controllers/admin.controller.js |
| `Moderators` | src/controllers/moderator.controller.js |
| `Notifications` | src/controllers/adminNotification.controller.js |
| `KillSwitch` | the session ledger across the login, refresh and logout handlers, the ban, unban and revoke handlers, and `authAny` |

The central theorem is `KillSwitch.KilledTokenNeverAcceptedAgain`. After a ban or a
revocation, a refresh token naming that moderator is never accepted again, whatever
requests follow, unban included. It needs one condition: every later login in the
trace, whichever moderator it is for, happens in a later second than the token was
issued in. Tokens carry `iat` in whole
seconds, so a login of the same moderator in the same second re-issues the
identical token text, and the ledger would accept it again.
`KillSwitch.SameSecondLoginsShareFate` shows the same effect from the logout side.

Where the documented behaviour and the code differ, the model follows the code:

- Logout removes every ledger entry equal to the presented token, not exactly one.
  The filter is at src/controllers/moderatorAuth.controller.js:123-125.
- `verifyModeratorToken` and `verifyAdminToken` take the text up to the next space
  (`split(" ")[1]`), while `authAny` trims the whole remainder.

## Model

| member | source | states |
|---|---|---|
| `Text.TrimEmptyIffBlank` | src/controllers/admin.controller.js:200 | a reason or note trims to the empty string exactly when every character is white space |
| `Text.TrimIsSlice` | src/middleware/authAny.js:8 | `trim` keeps a contiguous slice and drops only white space on either side |
| `Text.TrimIdempotent` | src/controllers/admin.controller.js:622 | trimming an already trimmed note changes nothing |
| `Text.UpToSpaceOfWord` | src/controllers/moderatorAuth.controller.js:143 | `split(" ")[1]` after "Bearer " returns a space-free token unchanged |
| `Tokens.Verify` | src/middleware/authAny.js:20 | `jwt.verify` accepts exactly a token signed with this secret whose `exp` has not been reached, and returns its claims; a foreign signature is reported before expiry |
| `Tokens.Decode` | src/controllers/moderatorAuth.controller.js:118 | `jwt.decode` returns the claims of every well-formed token, expired or not |
| `Tokens.SignVerifyRoundTrip` | src/controllers/moderatorAuth.controller.js:8-22 | a signed token verifies under its own secret to its claims for its whole lifetime, is expired from then on, and never verifies under another secret |
| `Tokens.SameSecondSameToken` | src/controllers/moderatorAuth.controller.js:16-22 | two signings in the same second with the same claims give the same text |
| `Tokens.DifferentSecondDifferentText` | src/controllers/moderatorAuth.controller.js:16-22 | signings in different seconds give different texts |
| `Limiter.Prune` | src/middleware/adminVerifyLimiter.js:12-14 | prune keeps a suffix; everything dropped is more than the window old; the first survivor is within it |
| `Limiter.PruneSortedIsWindow` | src/middleware/adminVerifyLimiter.js:12-14 | on a list in time order, front-only pruning keeps exactly the entries inside the window |
| `Limiter.PruneKeepsBoundary` | src/middleware/adminVerifyLimiter.js:13 | an entry exactly one window old survives: the comparison is strict |
| `Limiter.PruneTargets` | src/middleware/adminVerifyLimiter.js:37-39 | the target map keeps exactly the targets touched within the hour, with their times |
| `Limiter.Step` | src/middleware/adminVerifyLimiter.js:21-50 | a refused call only shortens the lists from the front and only drops targets; an accepted call appends `now` once to both pruned lists and stamps the target |
| `Limiter.Check` | src/middleware/adminVerifyLimiter.js:16-18 | a missing actor is refused as unauthenticated and changes nothing; no other actor's entries change |
| `Limiter.CheckDecision` | src/middleware/adminVerifyLimiter.js:17-42 | the refusals in order: missing actor, then 30 calls in the hour, then 5 in the minute, then (only with a target) a new target past 20 |
| `Limiter.StepDecision` | src/middleware/adminVerifyLimiter.js:21-42 | the three caps as if-and-only-if conditions on the pruned entries |
| `Limiter.RepeatTargetNotCapped` | src/middleware/adminVerifyLimiter.js:40 | a target seen within the hour is never refused by the distinct-target cap |
| `Limiter.RejectedRecordsNothing` | src/middleware/adminVerifyLimiter.js:22-42 | a refused call appends to neither list and adds no target |
| `Limiter.AcceptedWithinCaps` | src/middleware/adminVerifyLimiter.js:43-50 | after an accepted call: at most 30 hourly, 5 per-minute entries, 20 targets |
| `Limiter.DecisionIsPerActor` | src/middleware/adminVerifyLimiter.js:8-10 | the verdict and the new entries of an actor depend only on that actor's entries |
| `Limiter.CheckKeepsBounded` | src/middleware/adminVerifyLimiter.js:20-50 | the three caps hold of every stored entry after every call, accepted or refused |
| `Limiter.StepKeepsChronological` | src/middleware/adminVerifyLimiter.js:47-48 | one actor's lists stay in time order when the clock does not run backwards |
| `Limiter.CheckKeepsChronological` | src/middleware/adminVerifyLimiter.js:20-50 | every stored list stays in time order and holds no future time |
| `Limiter.BurstScenario` | src/middleware/adminVerifyLimiter.js:27-48 | five same-instant calls on one target by a new actor all pass |
| `Limiter.SixthCallThrottled` | src/middleware/adminVerifyLimiter.js:29-30 | the sixth call in that instant is refused by the burst cap |
| `AuthAny.BearerToken` | src/middleware/authAny.js:5-9 | a token exactly when the header starts with the case-sensitive "Bearer " prefix, and then the trimmed remainder |
| `AuthAny.BearerOfPrefixed` | src/middleware/authAny.js:7-8 | the token of "Bearer " + s is the trimmed s |
| `AuthAny.BearerTokenRoundTrip` | src/middleware/authAny.js:5-9 | a token without surrounding white space is recovered exactly from its header |
| `AuthAny.BearerIsCaseSensitive` | src/middleware/authAny.js:7 | "bearer " and "BEARER " are not recognised |
| `AuthAny.Resolve` | src/middleware/authAny.js:16-61 | a present admin cookie alone decides (success iff it verifies and names a stored admin, whose live record is the principal; every failure 401); otherwise no bearer 401, a failing token 401, a non-moderator role 403, a throwing or empty lookup 401, a banned moderator 403, an active one the principal from the live record |
| `AuthAny.CookieShadowsBearer` | src/middleware/authAny.js:18-32 | with an admin cookie present the Authorization header never matters |
| `AuthAny.BadCookieNoFallback` | src/middleware/authAny.js:58-60 | a rejected admin cookie is 401 even beside a valid bearer token |
| `AuthAny.AdminPathUsesLiveRecord` | src/middleware/authAny.js:19-31 | the admin principal is the live record, role defaulting to "admin"; no record is 401 |
| `AuthAny.BearerPathDecision` | src/middleware/authAny.js:34-55 | a rejected token is 401, a non-moderator role 403 before any lookup, and success exactly for an active moderator found by the token's id |
| `AuthAny.BearerPrincipalIsActive` | src/middleware/authAny.js:41-45 | a resolved moderator principal is an existing, non-banned moderator |
| `AuthAny.LedgerNotConsulted` | src/middleware/authAny.js:41-52 | databases that differ only in refresh-token ledgers resolve every request the same |
| `AuthAny.NoCredentials` | src/middleware/authAny.js:57 | neither credential is 401 |
| `AuthAny.BlankBearer` | src/middleware/authAny.js:34-35 | a whitespace-only bearer value counts as absent and ends in 401 |
| `AuthAny.LookupFailureIsUnauthenticated` | src/middleware/authAny.js:58-60 | a lookup that throws is 401, never a fallback to the token alone |
| `ModeratorAuth.AccessToken` | src/controllers/moderatorAuth.controller.js:8-14 | the access token verifies only under the access secret, to `{id, role}`, and at any clock reading exactly while fewer than 15 minutes of whole seconds have passed since issue |
| `ModeratorAuth.RefreshToken` | src/controllers/moderatorAuth.controller.js:16-22 | the refresh token verifies only under the refresh secret, to `{id}` alone, and at any clock reading exactly while fewer than 7 days of whole seconds have passed since issue |
| `ModeratorAuth.Login` | src/controllers/moderatorAuth.controller.js:27-72 | 400 iff a field is missing; a failure leaves the store as it was; success is an active moderator found by email, whose ledger gains exactly the issued refresh token, and the reply carries that moderator's access token, refresh token and profile `{_id, name, email, role}` |
| `ModeratorAuth.LoginFailures` | src/controllers/moderatorAuth.controller.js:30-45 | unknown email 401, banned 403 whatever the password, otherwise success iff the password matches |
| `ModeratorAuth.LoginKeepsOtherSessions` | src/controllers/moderatorAuth.controller.js:48-53 | login appends one token, keeps every earlier one and touches no other moderator |
| `ModeratorAuth.LogoutTarget` | src/controllers/moderatorAuth.controller.js:117-121 | logout edits a ledger exactly when the cookie decodes, without verification, to a truthy `id` that `findById` finds |
| `ModeratorAuth.Named` | src/controllers/moderatorAuth.controller.js:84-88 | the moderator refresh looks up: found exactly when the token verifies under the refresh secret and carries an `id` some moderator has |
| `ModeratorAuth.Refresh` | src/controllers/moderatorAuth.controller.js:77-108 | no cookie 401, a token that does not verify 401, no such moderator 401, a banned moderator 403 before the ledger is consulted, a token missing from the ledger 401, otherwise a new access token for that moderator |
| `ModeratorAuth.RefreshDecision` | src/controllers/moderatorAuth.controller.js:77-108 | success iff the token names an active moderator whose ledger holds it, and then an access token for a stored active moderator holding the token |
| `ModeratorAuth.Without` | src/controllers/moderatorAuth.controller.js:123-125 | the filtered ledger holds exactly the entries different from the token, and is no longer than the ledger |
| `ModeratorAuth.WithoutAppend` | src/controllers/moderatorAuth.controller.js:123-125 | filtering distributes over concatenation, so with the one-entry case the kept entries stay in their order |
| `ModeratorAuth.Logout` | src/controllers/moderatorAuth.controller.js:114-133 | only the ledger of the moderator the decoded cookie names changes, by removing every entry equal to the cookie; every other moderator and every other collection is unchanged |
| `ModeratorAuth.LogoutRemovesOnlyThatToken` | src/controllers/moderatorAuth.controller.js:117-129 | after logout the token is gone from its moderator's ledger, expired or not, and every other entry stays |
| `ModeratorAuth.VerifyModeratorToken` | src/controllers/moderatorAuth.controller.js:138-157 | no "Bearer " prefix 401; the `split(" ")[1]` token failing verification 401; a role other than "moderator" 403; otherwise the verified claims |
| `ModeratorAuth.AccessTokenAccepted` | src/controllers/moderatorAuth.controller.js:138-152 | a freshly issued access token passes with the id and role it was issued with |
| `ModeratorAuth.EmptyBearerRefused` | src/controllers/moderatorAuth.controller.js:143-155 | "Bearer " followed by nothing or by a space yields the empty token, which is refused with 401 |
| `ModeratorAuth.LoginAccessTokenAccepted` | src/controllers/moderatorAuth.controller.js:48-64 | the access token a login returns passes `verifyModeratorToken` with the moderator's id and role for its 15 minutes |
| `AdminAuth.AdminToken` | src/controllers/adminAuth.controller.js:25-34 | the admin token verifies only under JWT_SECRET, to `{_id, role, name, email}` |
| `AdminAuth.Login` | src/controllers/adminAuth.controller.js:9-51 | 400 iff a field is missing; success iff an admin or superadmin with that email has a matching password, and then the token signs that admin's `{_id, role, name, email}` and the profile is that admin's |
| `AdminAuth.LoginDecision` | src/controllers/adminAuth.controller.js:15-23 | success iff an admin-role account with that email has a matching password; every other failure is 401 |
| `AdminAuth.ModeratorRoleCannotLogIn` | src/controllers/adminAuth.controller.js:15-18 | an account without an admin role never logs in |
| `AdminAuth.CookieAuth` | src/controllers/adminAuth.controller.js:57-86 | no cookie 401; a token failing verification 401; a role other than admin or superadmin 403; otherwise the principal read off the claims |
| `AdminAuth.BearerAuth` | src/controllers/adminAuth.controller.js:92-119 | no "Bearer " prefix 401; the `split(" ")[1]` token failing verification 401; a role other than admin or superadmin 403; otherwise the principal read off the claims |
| `AdminAuth.CookieTrustsClaims` | src/controllers/adminAuth.controller.js:66-81 | for a day after login the cookie yields exactly the logged-in profile, with no lookup |
| `AdminAuth.ExpiredCookieRefused` | src/controllers/adminAuth.controller.js:82-85 | after a day the cookie is refused with 401 |
| `AdminAuth.BearerAgreesWithCookie` | src/controllers/adminAuth.controller.js:92-119 | a bearer header with a space-free token gets the cookie middleware's answer for that token; an empty token is 401 |
| `AdminAuth.BearerAcceptsLoginToken` | src/controllers/adminAuth.controller.js:98-115 | for a day after login, "Bearer " + the issued token yields the logged-in profile |
| `Gates.AllowedRoles` | src/middleware/roleAuth.js:2-9 | every refusal is 403 |
| `Gates.AdminGate` | src/middleware/adminAuth.js:1-7 | every refusal is 403 "Admin access required" |
| `Gates.AllowedRolesIsMembership` | src/middleware/roleAuth.js:4-7 | the gate admits exactly a present principal whose role is listed |
| `Gates.EmptyListRefusesAll` | src/middleware/roleAuth.js:2 | the default empty list refuses everyone |
| `Gates.WideningIsMonotone` | src/middleware/roleAuth.js:4 | widening the list never turns an admission into a refusal |
| `Gates.AdminGateIsExactlyAdmin` | src/middleware/adminAuth.js:3 | the admin gate admits exactly role "admin", as the list ["admin"] does; superadmin and moderator are refused |
| `Routes.GatedRoute` | src/routes/admin.routes.js:41-133 | on a protected route without the limiter, the resolved principal is admitted or refused by the route's gate alone |
| `Routes.LimitedRoute` | src/routes/admin.routes.js:111-112 | a verification route applies the admin-or-superadmin gate and then the limiter under the principal's id |
| `Routes.AuthenticateComesFirst` | src/routes/admin.routes.js:20-41 | the five auth routes need no credentials; every other route runs `authAny` first and stops on its failure |
| `Routes.ModeratorReach` | src/routes/admin.routes.js:44-129 | a moderator reaches exactly the moderator routes and gets 403 everywhere else |
| `Routes.SuperadminReach` | src/routes/admin.routes.js:47-133 | a superadmin is refused on every ["admin"] route, the moderator routes and `/me` |
| `Routes.AdminReach` | src/routes/admin.routes.js:44-133 | an admin reaches every protected route except where the limiter stops it |
| `Routes.MeNeedsExactAdmin` | src/routes/admin.routes.js:83-94 | `/me` is reached exactly with role "admin" |
| `Routes.VerificationRoutesShareLimiter` | src/routes/admin.routes.js:111-112 | verify-user and revoke-verification behave identically and draw on one limiter state |
| `Routes.ModeratorNeverVerifies` | src/routes/admin.routes.js:111-112 | a moderator is refused before the limiter runs, so its state is untouched |
| `Listing.Clamp` | src/controllers/admin.controller.js:61 | the clamped value lies in the range and equals the input inside it |
| `Listing.ClampIsNearest` | src/controllers/admin.controller.js:61 | the clamp is the point of the range nearest the input |
| `Listing.DefaultLimit` | src/controllers/admin.controller.js:283 | the default limit is 50 for users, 25 for reports, and 25 paged or 200 unpaged for posts |
| `Listing.Limit` | src/controllers/admin.controller.js:61 | the limit is in [1, 200], the floor of a finite request inside that range, and the default otherwise |
| `Listing.PagingAsWritten` | src/controllers/admin.controller.js:57-62 | paging is on iff page is above zero; the limit is clamped; skip is (page - 1) * limit |
| `Listing.FractionalPageAsWritten` | src/controllers/admin.controller.js:59-62 | as written, `page=0.5` turns paging on with page 0 and skip -50 |
| `Listing.PageNumber` | src/controllers/admin.controller.js:60 | the corrected page is at least 1 and is the floor of any requested page of 1 or more |
| `Listing.Page` | src/controllers/admin.controller.js:57-62 | corrected paging: page at least 1, skip non-negative and an exact multiple (page - 1) of the limit |
| `Listing.PageAgreesAboveOne` | src/controllers/admin.controller.js:279-284 | the corrected and the written paging agree on every page of 1 or more, and when paging is off |
| `Listing.Window` | src/controllers/admin.controller.js:296-301 | a page holds the `min(limit, max(0, total - skip))` documents from `skip` on, in order; unpaged users and reports are whole and posts are cut at the limit |
| `Listing.PageCount` | src/controllers/admin.controller.js:93 | the page count is at least 1, and with documents it is the least number of pages that holds them |
| `Listing.EveryDocumentHasAPage` | src/controllers/admin.controller.js:296-307 | document i is returned on page `i / limit + 1` at position `i % limit`, and that page is one of the reported pages |
| `Listing.PageOfDocument` | src/controllers/admin.controller.js:307 | the page of document i starts at or before it and is no later than the reported page count |
| `Listing.NoDocumentsPastLastPage` | src/controllers/admin.controller.js:579 | a page past the reported count is empty |
| `Moderation.ChangeUserStatus` | src/controllers/admin.controller.js:104-185 | unknown user 404; otherwise only that user's status is overwritten and one audit row is added |
| `Moderation.StatusChangeIsVisible` | src/controllers/admin.controller.js:105-110 | the lookup after a status change finds the same user with the new status |
| `Moderation.LastStatusChangeWins` | src/controllers/admin.controller.js:159-166 | two status changes in a row leave the users the second alone would |
| `Moderation.ParseVerificationType` | src/controllers/admin.controller.js:191-199 | exactly "official", "creator" and "developer" are accepted |
| `Moderation.VerifyUser` | src/controllers/admin.controller.js:193-227 | each 400 in the source's order, 404 iff the user is missing, success iff the user's status is unset or active, and then only that user gains the verification and one log row |
| `Moderation.RevokeVerification` | src/controllers/admin.controller.js:229-256 | 400 cases, 404 "User not found" exactly when the user is missing, success iff the user exists, and then all four verification fields are cleared and nothing else changes |
| `Moderation.RevokeIsIdempotent` | src/controllers/admin.controller.js:240-243 | revoking twice leaves the users revoking once does |
| `Moderation.RevokeUndoesVerify` | src/controllers/admin.controller.js:210-213 | revoke after verify leaves the users revoke alone does |
| `Moderation.VerifyKeepsStatus` | src/controllers/admin.controller.js:206-212 | verification never changes the status, and the verified user was eligible |
| `Moderation.SoftDeletePost` | src/controllers/admin.controller.js:318-347 | unknown post 404; otherwise both deletion flags are set on that post only, and one audit row is added |
| `Moderation.SoftDeleteIsIdempotent` | src/controllers/admin.controller.js:326-327 | soft-deleting again changes no post |
| `Moderation.NextFlag` | src/controllers/admin.controller.js:594 | an explicit boolean wins, otherwise the flag toggles |
| `Moderation.SetReportFlag` | src/controllers/admin.controller.js:590-615 | unknown report 404; the flag metadata always agrees with the flag and names the actor and time when flagged; nothing else changes |
| `Moderation.ToggleTwiceRestoresFlag` | src/controllers/admin.controller.js:594-599 | two toggles restore the flag |
| `Moderation.AddReportNote` | src/controllers/admin.controller.js:618-649 | success iff the report exists and the trimmed note is non-empty and at most 2000 characters, and then exactly one note is appended |
| `Moderation.AddNoteText` | src/controllers/admin.controller.js:622-648 | the same decision on the already trimmed text |
| `Moderation.WithNote` | src/controllers/admin.controller.js:626-646 | only that report gains the note; the audit row keeps its first 500 characters |
| `Moderation.AddReportNoteFailures` | src/controllers/admin.controller.js:619-624 | 404 before a blank note before an over-long one |
| `Moderation.AuditNoteIsPrefix` | src/controllers/admin.controller.js:645 | the audit copy is a prefix of at most 500 characters, and the whole note when shorter |
| `Moderation.StoredNoteIsClean` | src/controllers/admin.controller.js:622-633 | every stored note is non-blank, at most 2000 characters, and trimmed |
| `Moderation.RevokeSessions` | src/controllers/admin.controller.js:689-718 | unknown moderator 404; otherwise the ledger is emptied, the status kept, and the audit role is "admin" |
| `Moderation.BanModerator` | src/controllers/admin.controller.js:721-754 | 404, then 400 when already banned; success iff active, and then banned with an empty ledger |
| `Moderation.UnbanModerator` | src/controllers/admin.controller.js:757-789 | 404, then 400 when not banned; success iff banned, and then active with the ledger untouched |
| `Moderation.BanThenUnban` | src/controllers/admin.controller.js:727-766 | ban then unban gives an active moderator with no sessions |
| `Moderation.BanIsNotRepeated` | src/controllers/admin.controller.js:727-728 | a second ban is refused with 400 |
| `Moderators.NewModerator` | src/controllers/moderator.controller.js:27 | a new moderator is active, has role "moderator" and an empty ledger |
| `Moderators.CreateModerator` | src/controllers/moderator.controller.js:17-34 | 400 iff a field is missing, 409 iff the email exists, and otherwise exactly one hashed moderator is appended and the reply has no password |
| `Moderators.CreateKeepsUniqueness` | src/controllers/moderator.controller.js:22-27 | creation keeps emails unique, and ids unique when the new id is fresh |
| `Moderators.CreatedIsFoundByEmail` | src/controllers/moderator.controller.js:26-27 | the login lookup by the new email finds the new, active record with the hashed password |
| `Moderators.ListModerators` | src/controllers/moderator.controller.js:37-43 | one row per moderator with name, email, status and createdAt |
| `Moderators.ListingHidesSecrets` | src/controllers/moderator.controller.js:38-41 | stores differing only in passwords and ledgers list the same |
| `Moderators.LogModeratorAction` | src/controllers/moderator.controller.js:6-14 | exactly one record is appended with the given fields, `details` defaulting to the empty object, and nothing else changes |
| `Moderators.LoggedActionsStayInOrder` | src/controllers/moderator.controller.js:6-14 | two logged actions are appended in the order they were logged, with empty details, and nothing else changes |
| `Notifications.NonEmpty` | src/controllers/adminNotification.controller.js:7 | the kept ids are exactly the truthy (non-empty) ones |
| `Notifications.NonEmptyAppend` | src/controllers/adminNotification.controller.js:7 | filtering distributes over concatenation, so with the one-element case the kept ids stay in their original order |
| `Notifications.NonEmptyKeepsClean` | src/controllers/adminNotification.controller.js:7 | a list without empty ids is kept as it is, in order |
| `Notifications.NonEmptyIdempotent` | src/controllers/adminNotification.controller.js:7 | filtering twice is filtering once |
| `Notifications.NormalizeIds` | src/controllers/adminNotification.controller.js:5-9 | nothing for a falsy input, the truthy elements of an array in order, a one-element list for a truthy value |
| `Notifications.Targets` | src/controllers/adminNotification.controller.js:19 | targets come from `userIds` when it is non-empty, otherwise from `userId` |
| `Notifications.EmptyIdsIgnoreUserId` | src/controllers/adminNotification.controller.js:19-26 | a list of empty ids overrides `userId` and turns the request into a broadcast |
| `Notifications.Recipients` | src/controllers/adminNotification.controller.js:21-27 | recipients are the stored users among the targets, or the active users when there are none |
| `Notifications.NotificationDocs` | src/controllers/adminNotification.controller.js:34-44 | one unread "admin" record per recipient, in order |
| `Notifications.CollapseId` | src/controllers/adminNotification.controller.js:64 | the collapse id is "admin:", the id, ":" and then exactly the first 32 characters of the title |
| `Notifications.Pushes` | src/controllers/adminNotification.controller.js:48-70 | a push goes to each recipient with a push token, and every push is that of such a recipient, with its title, message, collapse id and thread id |
| `Notifications.SendAdminNotification` | src/controllers/adminNotification.controller.js:11-76 | 400 iff title or message is missing, 404 iff no recipient, success otherwise: one record per recipient, pushes unless `sendPush` is present and falsy (absent means true), `sent` the number of recipients |
| `Notifications.OneRecordPerRecipient` | src/controllers/adminNotification.controller.js:21-44 | the new records are as many as `sent`, unread, of type "admin", each for a stored user, an active one on a broadcast |
| `Notifications.DocsNameRecipients` | src/controllers/adminNotification.controller.js:34-35 | every record is addressed to a stored user, an active one on a broadcast |
| `Notifications.NotificationLimit` | src/controllers/adminNotification.controller.js:81-82 | the limit is in [1, 200], 50 for a missing, non-numeric or zero value |
| `Notifications.NotificationLimitIsNearest` | src/controllers/adminNotification.controller.js:82 | except for zero, the limit is the point of [1, 200] nearest the request |
| `KillSwitch.LoginKeepsInvariant` | src/controllers/moderatorAuth.controller.js:37-53 | login never gives a banned moderator a session |
| `KillSwitch.LogoutKeepsInvariant` | src/controllers/moderatorAuth.controller.js:117-127 | logout never gives a banned moderator a session |
| `KillSwitch.CreateKeepsInvariant` | src/controllers/moderator.controller.js:27 | creation never gives a banned moderator a session |
| `KillSwitch.ApplyKeepsInvariant` | src/controllers/admin.controller.js:727-731 | no request leaves a banned moderator holding a session |
| `KillSwitch.RunKeepsInvariant` | src/controllers/admin.controller.js:730-731 | the invariant holds after every sequence of requests |
| `KillSwitch.BannedIsLockedOut` | src/middleware/authAny.js:41-45 | a banned moderator gets 403 at login whatever the password, fails every refresh (403 when the token verifies), and fails every bearer request |
| `KillSwitch.BanRefusesEveryRefresh` | src/controllers/moderatorAuth.controller.js:97-100 | right after a ban no refresh token of the moderator is accepted |
| `KillSwitch.LoginKeepsAbsent` | src/controllers/moderatorAuth.controller.js:48-52 | a login adds only a token issued now, never an older one |
| `KillSwitch.LogoutKeepsAbsent` | src/controllers/moderatorAuth.controller.js:123-125 | logout never adds a token to a ledger |
| `KillSwitch.CreateKeepsAbsent` | src/controllers/moderator.controller.js:27 | creation never adds a token to an existing ledger |
| `KillSwitch.ApplyKeepsAbsent` | src/controllers/admin.controller.js:766 | no request, unban included, brings back an older token |
| `KillSwitch.RunKeepsAbsent` | src/controllers/admin.controller.js:757-767 | no sequence of requests brings back an older token |
| `KillSwitch.AbsentIsRefused` | src/controllers/moderatorAuth.controller.js:98-100 | a token absent from its moderator's ledger is refused |
| `KillSwitch.KilledTokenNeverAcceptedAgain` | src/controllers/moderatorAuth.controller.js:97-100 | after a ban or revocation the moderator's refresh token is never accepted again, whatever follows, while later logins fall in later seconds |
| `KillSwitch.LoginThenRefresh` | src/controllers/moderatorAuth.controller.js:77-103 | the refresh token a login issues is accepted until it expires and yields an access token for the same moderator |
| `KillSwitch.SameSecondLoginsShareFate` | src/controllers/moderatorAuth.controller.js:123-125 | two logins in one second share one token text, so logging out one device ends the other's session too |

## Left out

- Cryptography: jsonwebtoken signing and verification and bcrypt hashing are foreign libraries. Tokens are abstract values read through a codec oracle. The password check and the hash are function parameters.
- Database and transport plumbing: Mongoose I/O, `populate`, `countDocuments`, sorting by `createdAt`, cookie attributes, the `console` logging, and the Express pipeline beyond the stage order of the route table. A list endpoint's input is taken to be already filtered and sorted.
- Exceptions inside handlers that answer 500 (a failed save, `insertMany` failures that are swallowed) are not modelled. Only `authAny`'s catch-all is modelled, as the `lookupFails` flag.
- The user-supplied regex search filters (`new RegExp(q, 'i')`), because they depend on JavaScript regex semantics.
- src/utils/expoPush.js and the push delivery itself: only the pushes attempted are modelled. The `data` spread into records and pushes is left out.
- src/index.js (server wiring and its global cookie decode) and scripts/createAdmin.js are not part of this model.
- The read-only endpoints (`getStats`, `getUserById`, `getPostById`, `getCommentsForPost`, `getLatestReport`, `getReportById`, `getAuditLogs`, the moderator actions listing) and `deletePost`, `deleteComment` and `resolveReport` are not modelled. Their routes appear only in the route table.
- `getAdminNotifications` is modelled only for its limit clamp. Its query filter and the Mongo `limit` call on a possibly fractional number are left out.
- String lengths count Dafny characters, not UTF-16 code units. `String()` coercion of non-string body fields is not modelled: each field is an optional string (or an optional boolean for `flagged`).
- `Moderators.LogModeratorAction`: `details` is a flat object of string fields; nested values are not modelled.
- `Notifications.SendAdminNotification`: a present `sendPush` is given by its JavaScript truthiness; which values are falsy is not modelled.
- Audit rows omit `targetName` and `targetEmail`, and verification times are an integer `now` instead of a `Date`.
- `verifyModeratorToken` and `verifyAdminToken` are modelled but no route mounts them, so they do not appear in `Routes`.
- The limiter treats an actor with no stored entries like one with empty entries, as the `|| []` defaults do. Concurrency between overlapping requests is not modelled: calls are taken one at a time.
- `KillSwitch.KilledTokenNeverAcceptedAgain`: it assumes every later login in the trace, of any moderator, happens in a later second than the token was issued in. Only a same-second login of the killed moderator could re-issue the identical token text (`KillSwitch.SameSecondLoginsShareFate`), but the condition is stated on the trace alone, without tracking which moderator each login resolves to.
- `Limiter.AcceptedWithinCaps`: the distinct-target bound assumes the stored map was already within 20, which `Limiter.CheckKeepsBounded` establishes for every reachable state.

## Findings

| source | as written | input that shows it | evidently intended | confidence | as-written member | corrected member |
|---|---|---|---|---|---|---|
| src/controllers/admin.controller.js:59-62 | paging is on for any `page > 0`, and `page = Math.floor(pageRaw)` then `skip = (page - 1) * limit`; the same code is at lines 281-284 and 520-523 | `?page=0.5` gives paging on, page 0 and skip -50 (with the default limit 50) | the page is at least 1, so skip is a non-negative multiple of the limit | not executed | `Listing.FractionalPageAsWritten` | `Listing.Page` |

=== FILE: admin_auth.dfy ===
/** Administrator authentication (src/controllers/adminAuth.controller.js): login
    issues one day-long token carrying the admin's id, role, name and email; the
    cookie and bearer middlewares trust those claims without a lookup. */
module AdminAuth {
  import opened Wrappers
  import opened Text
  import opened Tokens
  import opened Records

  const AdminRoles: seq<string> := ["admin", "superadmin"]

  /** The admin token: `{ _id, role, name, email }`, JWT_SECRET, one day. */
  function AdminToken(a: Admin, now: int): (t: Token)
    ensures Verify(t, AdminKey, now) == Valid(Payload(None, Some(a.id), Some(a.role), Some(a.name), Some(a.email)))
    ensures Verify(t, AccessKey, now).Rejected? && Verify(t, RefreshKey, now).Rejected?
  {
    Sign(AdminKey, Payload(None, Some(a.id), Some(a.role), Some(a.name), Some(a.email)), now, AdminLifetime)
  }

  datatype AdminLogin = AdminLogin(token: string, profile: Principal)

  /** `adminLogin`: only accounts whose role is "admin" or "superadmin" are looked up. */
  function Login(db: Db, email: Option<string>, password: Option<string>,
                 matches: (string, string) -> bool, codec: Codec, now: int): (r: Result<AdminLogin>)
    ensures r.IsStatus(400) <==> !Truthy(email) || !Truthy(password)
    ensures r.Ok? <==> Truthy(email) && Truthy(password) && AdminByLogin(db.admins, email.value).Some?
                       && matches(password.value, db.admins[AdminByLogin(db.admins, email.value).value].passwordHash)
    ensures r.Ok? ==> r.value.profile.role in AdminRoles && r.value.profile.email == email.value
    ensures r.Ok? ==> var a := db.admins[AdminByLogin(db.admins, email.value).value];
      && r.value.token == codec.render(AdminToken(a, now))
      && r.value.profile == Principal(a.id, a.name, a.email, a.role)
  {
    if !Truthy(email) || !Truthy(password) then Fail(BadRequest("Email and password required"))
    else match AdminByLogin(db.admins, email.value)
      case None => Fail(Unauthenticated("Admin not found"))
      case Some(i) =>
        var a := db.admins[i];
        if !matches(password.value, a.passwordHash) then Fail(Unauthenticated("Invalid password"))
        else Ok(AdminLogin(codec.render(AdminToken(a, now)), Principal(a.id, a.name, a.email, a.role)))
  }

  /** Login succeeds exactly for an admin-role account with that email whose
      password matches; every other failure past the field check is 401. */
  lemma LoginDecision(db: Db, email: string, password: string, matches: (string, string) -> bool, codec: Codec, now: int)
    requires email != "" && password != ""
    ensures var r := Login(db, Some(email), Some(password), matches, codec, now);
      var found := AdminByLogin(db.admins, email);
      && (r.Ok? <==> found.Some? && matches(password, db.admins[found.value].passwordHash))
      && (r.Fail? ==> r.IsStatus(401))
  {
  }

  /** A moderator account cannot log in as an admin, whatever its password. */
  lemma ModeratorRoleCannotLogIn(db: Db, email: string, password: string, matches: (string, string) -> bool, codec: Codec, now: int)
    requires forall j :: 0 <= j < |db.admins| && db.admins[j].email == email ==> db.admins[j].role !in AdminRoles
    ensures Login(db, Some(email), Some(password), matches, codec, now).Fail?
  {
  }

  /** The principal an admin token describes, read off its claims; an absent claim reads as "". */
  function ClaimsPrincipal(claims: Payload): Principal {
    Principal(OrElse(claims.oid, ""), OrElse(claims.name, ""), OrElse(claims.email, ""), OrElse(claims.role, ""))
  }

  /** What both admin middlewares answer once a token has been checked: 401 when
      `jwt.verify` throws, 403 when the role claim is neither "admin" nor
      "superadmin", and otherwise the principal read off the claims. */
  predicate TokenDecision(r: Result<Principal>, v: Checked) {
    && (v.Rejected? ==> r == Fail(Unauthenticated("Invalid or expired token")))
    && (v.Valid? && (v.claims.role.None? || v.claims.role.value !in AdminRoles) ==> r == Fail(Forbidden("Admin access required")))
    && (v.Valid? && v.claims.role.Some? && v.claims.role.value in AdminRoles ==> r == Ok(ClaimsPrincipal(v.claims)))
  }

  /** The cookie middleware `adminAuth`: 401 without a cookie or when the token does
      not verify, 403 unless the role claim is "admin" or "superadmin". */
  function CookieAuth(cookie: Option<string>, codec: Codec, now: int): (r: Result<Principal>)
    ensures r.Ok? ==> r.value.role in AdminRoles
    ensures !Truthy(cookie) ==> r == Fail(Unauthenticated("Not authenticated"))
    ensures Truthy(cookie) ==> TokenDecision(r, Verify(codec.parse(cookie.value), AdminKey, now))
  {
    if !Truthy(cookie) then Fail(Unauthenticated("Not authenticated"))
    else match Verify(codec.parse(cookie.value), AdminKey, now)
      case Rejected(_) => Fail(Unauthenticated("Invalid or expired token"))
      case Valid(claims) =>
        if claims.role.None? || claims.role.value !in AdminRoles then Fail(Forbidden("Admin access required"))
        else Ok(ClaimsPrincipal(claims))
  }

  /** The bearer middleware `verifyAdminToken`: the token is the text after
      "Bearer " up to the next space; same decisions as the cookie middleware. */
  function BearerAuth(header: Option<string>, codec: Codec, now: int): (r: Result<Principal>)
    ensures r.Ok? ==> r.value.role in AdminRoles
    ensures !Truthy(header) || !StartsWith(header.value, "Bearer ") ==> r == Fail(Unauthenticated("No token provided"))
    ensures Truthy(header) && StartsWith(header.value, "Bearer ") ==>
              TokenDecision(r, Verify(codec.parse(HeaderToken(header.value)), AdminKey, now))
  {
    if !Truthy(header) || !StartsWith(header.value, "Bearer ") then Fail(Unauthenticated("No token provided"))
    else match Verify(codec.parse(HeaderToken(header.value)), AdminKey, now)
      case Rejected(_) => Fail(Unauthenticated("Invalid or expired token"))
      case Valid(claims) =>
        if claims.role.None? || claims.role.value !in AdminRoles then Fail(Forbidden("Admin access required"))
        else Ok(ClaimsPrincipal(claims))
  }

  /** The cookie middleware trusts the token alone: the principal is the one that
      signed in, for the whole day the token lives, whatever happens to the admin
      record in the meantime. */
  lemma CookieTrustsClaims(db: Db, email: string, password: string, matches: (string, string) -> bool,
                           codec: Codec, issued: int, now: int)
    requires Faithful(codec)
    requires Login(db, Some(email), Some(password), matches, codec, issued).Ok?
    requires issued <= now <= issued + (AdminLifetime - 1) * 1000
    ensures var r := Login(db, Some(email), Some(password), matches, codec, issued).value;
      CookieAuth(Some(r.token), codec, now) == Ok(r.profile)
  {
    var i := AdminByLogin(db.admins, email).value;
    var a := db.admins[i];
    var t := AdminToken(a, issued);
    assert codec.parse(codec.render(t)) == t;
    SignVerifyRoundTrip(AdminKey, t.payload, issued, AdminLifetime, now);
  }

  /** An expired admin cookie is refused with 401, never treated as anonymous. */
  lemma ExpiredCookieRefused(db: Db, email: string, password: string, matches: (string, string) -> bool,
                             codec: Codec, issued: int, now: int)
    requires Faithful(codec)
    requires Login(db, Some(email), Some(password), matches, codec, issued).Ok?
    requires now >= issued + AdminLifetime * 1000
    ensures var r := Login(db, Some(email), Some(password), matches, codec, issued).value;
      CookieAuth(Some(r.token), codec, now).IsStatus(401)
  {
    var i := AdminByLogin(db.admins, email).value;
    var t := AdminToken(db.admins[i], issued);
    assert codec.parse(codec.render(t)) == t;
    SignVerifyRoundTrip(AdminKey, t.payload, issued, AdminLifetime, now);
  }

  /** The bearer middleware decides a token exactly as the cookie middleware does:
      a header carrying a non-empty, space-free text gets the cookie's answer for
      that text, and a header with an empty token is refused with 401. */
  lemma BearerAgreesWithCookie(token: string, codec: Codec, now: int)
    requires Faithful(codec)
    requires forall k :: 0 <= k < |token| ==> token[k] != ' '
    ensures token != "" ==> BearerAuth(Some("Bearer " + token), codec, now) == CookieAuth(Some(token), codec, now)
    ensures token == "" ==> BearerAuth(Some("Bearer " + token), codec, now) == Fail(Unauthenticated("Invalid or expired token"))
  {
    var h := "Bearer " + token;
    assert h[..7] == "Bearer ";
    assert h[7..] == token;
    UpToSpaceOfWord(token);
  }

  /** The token a login hands out is accepted by the bearer middleware for a day,
      with the principal the login returned. */
  lemma BearerAcceptsLoginToken(db: Db, email: string, password: string, matches: (string, string) -> bool,
                                codec: Codec, issued: int, now: int)
    requires Faithful(codec)
    requires Login(db, Some(email), Some(password), matches, codec, issued).Ok?
    requires issued <= now <= issued + (AdminLifetime - 1) * 1000
    ensures var r := Login(db, Some(email), Some(password), matches, codec, issued).value;
      BearerAuth(Some("Bearer " + r.token), codec, now) == Ok(r.profile)
  {
    var r := Login(db, Some(email), Some(password), matches, codec, issued).value;
    CookieTrustsClaims(db, email, password, matches, codec, issued, now);
    var i := AdminByLogin(db.admins, email).value;
    var t := AdminToken(db.admins[i], issued);
    assert r.token == codec.render(t);
    assert forall k :: 0 <= k < |r.token| ==> r.token[k] != ' ';
    BearerAgreesWithCookie(r.token, codec, now);
  }
}

=== FILE: auth_any.dfy ===
/** The unified resolver in front of every protected route
    (src/middleware/authAny.js): an admin cookie, when present, decides the
    outcome on its own; otherwise a moderator bearer token is checked against the
    live moderator record. */
module AuthAny {
  import opened Wrappers
  import opened Text
  import opened Tokens
  import opened Records

  const BearerPrefix: string := "Bearer "

  /** `getBearerToken`: the trimmed text after a case-sensitive "Bearer " prefix. */
  function BearerToken(header: Option<string>): (r: Option<string>)
    ensures r.Some? <==> Truthy(header) && StartsWith(header.value, BearerPrefix)
    ensures r.Some? ==> r.value == Trim(header.value[|BearerPrefix|..])
  {
    if !Truthy(header) || !StartsWith(header.value, BearerPrefix) then None
    else Some(Trim(header.value[|BearerPrefix|..]))
  }

  /** The bearer token is what follows the prefix, with white space around it dropped. */
  lemma BearerOfPrefixed(rest: string)
    ensures BearerToken(Some(BearerPrefix + rest)) == Some(Trim(rest))
  {
    assert (BearerPrefix + rest)[..|BearerPrefix|] == BearerPrefix;
    assert (BearerPrefix + rest)[|BearerPrefix|..] == rest;
  }

  /** A token without surrounding white space is recovered exactly from its header. */
  lemma BearerTokenRoundTrip(token: string)
    requires Trim(token) == token
    ensures BearerToken(Some(BearerPrefix + token)) == Some(token)
  {
    BearerOfPrefixed(token);
  }

  /** Any other capitalisation of the scheme is not recognised. */
  lemma BearerIsCaseSensitive(token: string)
    ensures BearerToken(Some("bearer " + token)) == None
    ensures BearerToken(Some("BEARER " + token)) == None
  {
    assert ("bearer " + token)[0] == 'b';
    assert ("BEARER " + token)[1] == 'E';
  }

  /** The credentials a request carries: the `admin_token` cookie and the
      Authorization header. */
  datatype Credentials = Credentials(adminCookie: Option<string>, authorization: Option<string>)

  /** `authAny`. `lookupFails` stands for a database lookup that throws, which the
      handler's catch-all turns into 401. */
  function Resolve(db: Db, req: Credentials, codec: Codec, now: int, lookupFails: bool): (r: Result<Principal>)
    ensures Truthy(req.adminCookie) ==>
      var v := Verify(codec.parse(req.adminCookie.value), AdminKey, now);
      && (r.Ok? <==> v.Valid? && !lookupFails && v.claims.oid.Some? && AdminById(db.admins, v.claims.oid.value).Some?)
      && (r.Ok? ==> var a := db.admins[AdminById(db.admins, v.claims.oid.value).value];
            r.value == Principal(a.id, a.name, a.email, if a.role == "" then "admin" else a.role))
      && (r.Fail? ==> r.IsStatus(401))
    ensures !Truthy(req.adminCookie) && (BearerToken(req.authorization).None? || BearerToken(req.authorization).value == "") ==>
              r == Fail(Unauthenticated("Not authenticated"))
    ensures !Truthy(req.adminCookie) && BearerToken(req.authorization).Some? && BearerToken(req.authorization).value != "" ==>
      var v := Verify(codec.parse(BearerToken(req.authorization).value), AccessKey, now);
      && (v.Rejected? ==> r.IsStatus(401))
      && (v.Valid? && v.claims.role != Some("moderator") ==> r == Fail(Forbidden("Moderator access required")))
      && (v.Valid? && v.claims.role == Some("moderator") && (lookupFails || v.claims.id.None?) ==> r.IsStatus(401))
      && (v.Valid? && v.claims.role == Some("moderator") && !lookupFails && v.claims.id.Some? ==>
            match ModeratorById(db.moderators, v.claims.id.value)
            case None => r.IsStatus(401)
            case Some(i) =>
              var m := db.moderators[i];
              && (m.status == Banned ==> r == Fail(Forbidden("Your moderator account has been banned.")))
              && (m.status == Active ==> r == Ok(Principal(m.id, m.name, m.email, if m.role == "" then "moderator" else m.role))))
  {
    if Truthy(req.adminCookie) then
      match Verify(codec.parse(req.adminCookie.value), AdminKey, now)
      case Rejected(_) => Fail(Unauthenticated("Invalid or expired token"))
      case Valid(claims) =>
        if lookupFails then Fail(Unauthenticated("Invalid or expired token"))
        else if claims.oid.None? then Fail(Unauthenticated("Not authenticated"))
        else match AdminById(db.admins, claims.oid.value)
          case None => Fail(Unauthenticated("Not authenticated"))
          case Some(i) =>
            var a := db.admins[i];
            Ok(Principal(a.id, a.name, a.email, if a.role != "" then a.role else "admin"))
    else
      var bearer := BearerToken(req.authorization);
      if bearer.None? || bearer.value == "" then Fail(Unauthenticated("Not authenticated"))
      else match Verify(codec.parse(bearer.value), AccessKey, now)
        case Rejected(_) => Fail(Unauthenticated("Invalid or expired token"))
        case Valid(claims) =>
          if claims.role != Some("moderator") then Fail(Forbidden("Moderator access required"))
          else if lookupFails then Fail(Unauthenticated("Invalid or expired token"))
          else if claims.id.None? then Fail(Unauthenticated("Not authenticated"))
          else match ModeratorById(db.moderators, claims.id.value)
            case None => Fail(Unauthenticated("Not authenticated"))
            case Some(i) =>
              var m := db.moderators[i];
              if m.status == Banned then Fail(Forbidden("Your moderator account has been banned."))
              else Ok(Principal(m.id, m.name, m.email, if m.role != "" then m.role else "moderator"))
  }

  /** With an admin cookie present the Authorization header is never looked at. */
  lemma CookieShadowsBearer(db: Db, cookie: string, h1: Option<string>, h2: Option<string>, codec: Codec, now: int, lookupFails: bool)
    requires cookie != ""
    ensures Resolve(db, Credentials(Some(cookie), h1), codec, now, lookupFails)
         == Resolve(db, Credentials(Some(cookie), h2), codec, now, lookupFails)
  {
  }

  /** A present admin cookie that is forged, expired or signed with another secret
      yields 401, even when a valid moderator bearer token accompanies it. */
  lemma BadCookieNoFallback(db: Db, cookie: string, header: Option<string>, codec: Codec, now: int, lookupFails: bool)
    requires cookie != "" && Verify(codec.parse(cookie), AdminKey, now).Rejected?
    ensures Resolve(db, Credentials(Some(cookie), header), codec, now, lookupFails).IsStatus(401)
  {
  }

  /** On the admin path the principal is the live admin record, the role falling
      back to "admin"; without a record the answer is 401. */
  lemma AdminPathUsesLiveRecord(db: Db, cookie: string, header: Option<string>, codec: Codec, now: int)
    requires cookie != ""
    requires Verify(codec.parse(cookie), AdminKey, now).Valid?
    ensures var claims := Verify(codec.parse(cookie), AdminKey, now).claims;
      var r := Resolve(db, Credentials(Some(cookie), header), codec, now, false);
      && (r.Ok? <==> claims.oid.Some? && AdminById(db.admins, claims.oid.value).Some?)
      && (r.Ok? ==> var a := db.admins[AdminById(db.admins, claims.oid.value).value];
            r.value == Principal(a.id, a.name, a.email, if a.role == "" then "admin" else a.role))
      && (r.Fail? ==> r.IsStatus(401))
  {
  }

  /** On the bearer path: an access token whose role claim is not "moderator" is
      refused with 403 before any lookup; a missing moderator is 401; a banned one
      is 403 even though the token verifies; otherwise the principal is the live
      moderator record. The refresh-token ledger plays no part. */
  lemma BearerPathDecision(db: Db, header: string, codec: Codec, now: int, lookupFails: bool)
    requires BearerToken(Some(header)).Some? && BearerToken(Some(header)).value != ""
    ensures var t := codec.parse(BearerToken(Some(header)).value);
      var r := Resolve(db, Credentials(None, Some(header)), codec, now, lookupFails);
      && (Verify(t, AccessKey, now).Rejected? ==> r.IsStatus(401))
      && (Verify(t, AccessKey, now).Valid? && Verify(t, AccessKey, now).claims.role != Some("moderator") ==> r.IsStatus(403))
      && (r.Ok? <==> Verify(t, AccessKey, now).Valid? && !lookupFails
                      && Verify(t, AccessKey, now).claims.role == Some("moderator")
                      && Verify(t, AccessKey, now).claims.id.Some?
                      && ModeratorById(db.moderators, Verify(t, AccessKey, now).claims.id.value).Some?
                      && db.moderators[ModeratorById(db.moderators, Verify(t, AccessKey, now).claims.id.value).value].status == Active)
  {
  }

  /** A successful bearer resolution names a moderator whose live record is active. */
  lemma BearerPrincipalIsActive(db: Db, header: Option<string>, codec: Codec, now: int, lookupFails: bool)
    requires Resolve(db, Credentials(None, header), codec, now, lookupFails).Ok?
    ensures var p := Resolve(db, Credentials(None, header), codec, now, lookupFails).value;
      ModeratorById(db.moderators, p.id).Some? && db.moderators[ModeratorById(db.moderators, p.id).value].status == Active
  {
    var claims := Verify(codec.parse(BearerToken(header).value), AccessKey, now).claims;
    var i := ModeratorById(db.moderators, claims.id.value).value;
    assert ModeratorById(db.moderators, db.moderators[i].id) == Some(i);
  }

  /** Two moderator collections that differ at most in the refresh-token ledgers. */
  predicate SameButLedgers(a: seq<Moderator>, b: seq<Moderator>) {
    |a| == |b| && forall i :: 0 <= i < |a| ==> a[i].(refreshTokens := b[i].refreshTokens) == b[i]
  }

  /** The resolver never consults a refresh-token ledger: databases that differ only
      in the ledgers get the same outcome for every request. */
  lemma LedgerNotConsulted(db: Db, other: seq<Moderator>, req: Credentials, codec: Codec, now: int, lookupFails: bool)
    requires SameButLedgers(other, db.moderators)
    ensures Resolve(db.(moderators := other), req, codec, now, lookupFails) == Resolve(db, req, codec, now, lookupFails)
  {
    if !Truthy(req.adminCookie) {
      var bearer := BearerToken(req.authorization);
      if bearer.Some? && bearer.value != "" {
        var v := Verify(codec.parse(bearer.value), AccessKey, now);
        if v.Valid? && v.claims.id.Some? {
          var id := v.claims.id.value;
          SameIdsSameLookup(other, db.moderators, id);
          var found := ModeratorById(db.moderators, id);
          if found.Some? {
            assert other[found.value].(refreshTokens := db.moderators[found.value].refreshTokens) == db.moderators[found.value];
          }
        }
      }
    }
  }

  lemma {:induction false} SameIdsSameLookup(a: seq<Moderator>, b: seq<Moderator>, id: string)
    requires SameButLedgers(a, b)
    ensures ModeratorById(a, id) == ModeratorById(b, id)
  {
    if |a| > 0 {
      assert a[0].id == b[0].id;
      if a[0].id != id {
        SameIdsSameLookup(a[1..], b[1..], id);
      }
    }
  }

  /** With neither credential the answer is 401. */
  lemma NoCredentials(db: Db, codec: Codec, now: int, lookupFails: bool)
    ensures Resolve(db, Credentials(None, None), codec, now, lookupFails).IsStatus(401)
  {
  }

  /** A whitespace-only bearer value counts as absent and ends in 401. */
  lemma BlankBearer(db: Db, blank: string, codec: Codec, now: int, lookupFails: bool)
    requires AllSpace(blank)
    ensures Resolve(db, Credentials(None, Some(BearerPrefix + blank)), codec, now, lookupFails).IsStatus(401)
  {
    BearerOfPrefixed(blank);
    TrimEmptyIffBlank(blank);
  }

  /** A failing lookup never falls back to trusting the token. */
  lemma LookupFailureIsUnauthenticated(db: Db, req: Credentials, codec: Codec, now: int)
    ensures var r := Resolve(db, req, codec, now, true);
      r.Fail? && (r.IsStatus(401) || r.failure == Forbidden("Moderator access required"))
  {
  }
}

=== FILE: gates.dfy ===
/** The two role gates: `allowedRoles(roles)` (src/middleware/roleAuth.js) admits a
    principal whose role is in the list; the admin gate (src/middleware/adminAuth.js)
    admits only the role "admin" itself. */
module Gates {
  import opened Wrappers
  import opened Records

  /** A middleware's verdict: pass the request on, or answer with a failure. */
  datatype Decision = Next | Refuse(failure: Failure)

  /** `allowedRoles(roles)`; `roles` defaults to the empty list. */
  function AllowedRoles(roles: seq<string>, user: Option<Principal>): (r: Decision)
    ensures r.Refuse? ==> r.failure.Status() == 403
  {
    if user.None? || user.value.role !in roles then Refuse(Forbidden("Access denied: insufficient role"))
    else Next
  }

  /** The admin gate of src/middleware/adminAuth.js. */
  function AdminGate(user: Option<Principal>): (r: Decision)
    ensures r.Refuse? ==> r.failure == Forbidden("Admin access required")
  {
    if user.None? || user.value.role != "admin" then Refuse(Forbidden("Admin access required"))
    else Next
  }

  /** The role gate admits exactly the principals whose role is listed. */
  lemma AllowedRolesIsMembership(roles: seq<string>, user: Option<Principal>)
    ensures AllowedRoles(roles, user) == Next <==> user.Some? && user.value.role in roles
    ensures user.None? ==> AllowedRoles(roles, user).Refuse?
  {
  }

  /** The default empty list refuses every principal. */
  lemma EmptyListRefusesAll(user: Option<Principal>)
    ensures AllowedRoles([], user) == Refuse(Forbidden("Access denied: insufficient role"))
  {
  }

  /** Widening the list never turns an admission into a refusal. */
  lemma WideningIsMonotone(roles: seq<string>, wider: seq<string>, user: Option<Principal>)
    requires forall x :: x in roles ==> x in wider
    ensures AllowedRoles(roles, user) == Next ==> AllowedRoles(wider, user) == Next
  {
  }

  /** The admin gate admits the same principals as the role list ["admin"]: a
      superadmin, a moderator and a missing principal are all refused. */
  lemma AdminGateIsExactlyAdmin(user: Option<Principal>)
    ensures AdminGate(user).Next? <==> AllowedRoles(["admin"], user).Next?
    ensures AdminGate(user).Next? <==> user.Some? && user.value.role == "admin"
  {
  }
}

=== FILE: kill_switch.dfy ===
/** The moderator kill switch, across components: the refresh-token ledger that
    login, refresh and logout maintain (src/controllers/moderatorAuth.controller.js),
    the ban, unban and revocation that empty it (src/controllers/admin.controller.js),
    and the live status check of `authAny` (src/middleware/authAny.js). */
module KillSwitch {
  import opened Wrappers
  import opened Tokens
  import opened Records
  import MA = ModeratorAuth
  import AuthAny
  import Moderation
  import Moderators

  /** Every request that touches the moderator store. */
  datatype SessionOp =
    | LoginOp(email: Option<string>, password: Option<string>, now: int)
    | RefreshOp(cookie: Option<string>, now: int)
    | LogoutOp(cookie: Option<string>)
    | BanOp(id: string)
    | UnbanOp(id: string)
    | RevokeOp(id: string)
    | CreateOp(name: Option<string>, email: Option<string>, password: Option<string>, newId: string, now: int)

  /** The oracles the handlers rely on: bcrypt's comparison and hash, the token
      wire form, and the administrator acting. */
  datatype Env = Env(matches: (string, string) -> bool, hash: string -> string, codec: Codec, actor: Principal)

  /** The database after one request; a refused request leaves it as it was. */
  function Apply(db: Db, op: SessionOp, env: Env): Db {
    match op
    case LoginOp(email, password, now) => MA.Login(db, email, password, env.matches, env.codec, now).0
    case RefreshOp(_, _) => db
    case LogoutOp(cookie) => MA.Logout(db, cookie, env.codec)
    case BanOp(id) =>
      var r := Moderation.BanModerator(db, env.actor, id); if r.Ok? then r.value else db
    case UnbanOp(id) =>
      var r := Moderation.UnbanModerator(db, env.actor, id); if r.Ok? then r.value else db
    case RevokeOp(id) =>
      var r := Moderation.RevokeSessions(db, env.actor, id); if r.Ok? then r.value else db
    case CreateOp(name, email, password, newId, now) =>
      var r := Moderators.CreateModerator(db, name, email, password, env.hash, newId, now);
      if r.Ok? then r.value.0 else db
  }

  /** The database after a sequence of requests, in order. */
  function Run(db: Db, trace: seq<SessionOp>, env: Env): Db
    decreases |trace|
  {
    if |trace| == 0 then db else Run(Apply(db, trace[0], env), trace[1..], env)
  }

  // ---------------------------------------------------------------- the invariant

  /** A banned moderator holds no session. */
  predicate BannedHaveNoSessions(mods: seq<Moderator>) {
    forall i :: 0 <= i < |mods| && mods[i].status == Banned ==> mods[i].refreshTokens == []
  }

  lemma LoginKeepsInvariant(db: Db, email: Option<string>, password: Option<string>, env: Env, now: int)
    requires BannedHaveNoSessions(db.moderators)
    ensures BannedHaveNoSessions(MA.Login(db, email, password, env.matches, env.codec, now).0.moderators)
  {
  }

  lemma LogoutKeepsInvariant(db: Db, cookie: Option<string>, env: Env)
    requires BannedHaveNoSessions(db.moderators)
    ensures BannedHaveNoSessions(MA.Logout(db, cookie, env.codec).moderators)
  {
  }

  lemma CreateKeepsInvariant(db: Db, name: Option<string>, email: Option<string>, password: Option<string>,
                             env: Env, newId: string, now: int)
    requires BannedHaveNoSessions(db.moderators)
    ensures var r := Moderators.CreateModerator(db, name, email, password, env.hash, newId, now);
      r.Ok? ==> BannedHaveNoSessions(r.value.0.moderators)
  {
  }

  /** No request lets a banned moderator hold a session. */
  lemma ApplyKeepsInvariant(db: Db, op: SessionOp, env: Env)
    requires BannedHaveNoSessions(db.moderators)
    ensures BannedHaveNoSessions(Apply(db, op, env).moderators)
  {
    match op
    case LoginOp(email, password, now) => LoginKeepsInvariant(db, email, password, env, now);
    case LogoutOp(cookie) => LogoutKeepsInvariant(db, cookie, env);
    case CreateOp(name, email, password, newId, now) => CreateKeepsInvariant(db, name, email, password, env, newId, now);
    case _ =>
  }

  lemma {:induction false} RunKeepsInvariant(db: Db, trace: seq<SessionOp>, env: Env)
    requires BannedHaveNoSessions(db.moderators)
    ensures BannedHaveNoSessions(Run(db, trace, env).moderators)
    decreases |trace|
  {
    if |trace| > 0 {
      ApplyKeepsInvariant(db, trace[0], env);
      RunKeepsInvariant(Apply(db, trace[0], env), trace[1..], env);
    }
  }

  // ---------------------------------------------------------------- lock-out

  /** Under unique emails, the login lookup by a moderator's email finds that moderator. */
  lemma {:induction false} EmailFindsItsOwner(mods: seq<Moderator>, i: nat)
    requires UniqueEmails(mods) && i < |mods|
    ensures ModeratorByEmail(mods, mods[i].email) == Some(i)
  {
  }

  /** A banned moderator is shut out everywhere: login answers 403 whatever the
      password, refresh with a token naming the moderator fails (with 403 when
      the token verifies, before the ledger is looked at), and every request
      through `authAny` carrying such a moderator's access token fails with 403
      (or 401 when the lookup throws), whether or not the token verifies. */
  lemma BannedIsLockedOut(db: Db, i: nat, password: string, matches: (string, string) -> bool, codec: Codec, now: int,
                          cookie: string, header: string, lookupFails: bool)
    requires i < |db.moderators| && db.moderators[i].status == Banned
    requires UniqueEmails(db.moderators) && db.moderators[i].email != "" && password != ""
    requires ModeratorById(db.moderators, db.moderators[i].id) == Some(i)
    ensures MA.Login(db, Some(db.moderators[i].email), Some(password), matches, codec, now).1.IsStatus(403)
    ensures cookie != "" && Decode(codec.parse(cookie)) == Some(Payload(Some(db.moderators[i].id), None, None, None, None)) ==>
              MA.Refresh(db, Some(cookie), codec, now).Fail?
    ensures cookie != "" && Verify(codec.parse(cookie), RefreshKey, now).Valid?
            && Verify(codec.parse(cookie), RefreshKey, now).claims.id == Some(db.moderators[i].id) ==>
              MA.Refresh(db, Some(cookie), codec, now) == Fail(Forbidden("Your moderator account has been banned."))
    ensures AuthAny.BearerToken(Some(header)).Some? && AuthAny.BearerToken(Some(header)).value != ""
            && codec.parse(AuthAny.BearerToken(Some(header)).value).Signed?
            && codec.parse(AuthAny.BearerToken(Some(header)).value).payload.id == Some(db.moderators[i].id) ==>
              AuthAny.Resolve(db, AuthAny.Credentials(None, Some(header)), codec, now, lookupFails).Fail?
  {
    EmailFindsItsOwner(db.moderators, i);
    MA.LoginFailures(db, db.moderators[i].email, password, matches, codec, now);
    if AuthAny.BearerToken(Some(header)).Some? && AuthAny.BearerToken(Some(header)).value != "" {
      AuthAny.BearerPathDecision(db, header, codec, now, lookupFails);
    }
  }

  /** A successful ban empties the ledger at once, so no refresh token of the
      moderator is accepted right after it. */
  lemma BanRefusesEveryRefresh(db: Db, actor: Principal, id: string, cookie: string, codec: Codec, now: int)
    requires Moderation.BanModerator(db, actor, id).Ok?
    requires cookie != "" && Decode(codec.parse(cookie)) == Some(Payload(Some(id), None, None, None, None))
    ensures MA.Refresh(Moderation.BanModerator(db, actor, id).value, Some(cookie), codec, now).Fail?
  {
  }

  // ---------------------------------------------------------------- never again

  /** The token text `token` is not in the ledger of moderator `id`. */
  predicate Absent(db: Db, token: string, id: string) {
    token !in LedgerOf(db.moderators, id)
  }

  /** Every login of the trace happens in a later second than the one `token` was
      issued in (its `iat` claim). */
  predicate LoginsAfter(trace: seq<SessionOp>, token: string, codec: Codec) {
    forall k :: 0 <= k < |trace| && trace[k].LoginOp? && codec.parse(token).Signed? ==>
      Seconds(trace[k].now) > codec.parse(token).iat
  }

  /** A login appends a token issued now; it is not an older token. */
  lemma LoginKeepsAbsent(db: Db, email: Option<string>, password: Option<string>, env: Env, now: int,
                         token: string, id: string)
    requires Faithful(env.codec)
    requires Absent(db, token, id)
    requires env.codec.parse(token).Signed? ==> Seconds(now) > env.codec.parse(token).iat
    ensures Absent(MA.Login(db, email, password, env.matches, env.codec, now).0, token, id)
  {
    var (db', r) := MA.Login(db, email, password, env.matches, env.codec, now);
    if r.Ok? {
      var i := ModeratorByEmail(db.moderators, email.value).value;
      var issued := MA.RefreshToken(db.moderators[i], now);
      assert env.codec.parse(env.codec.render(issued)) == issued;
      assert env.codec.parse(r.value.refreshToken) == issued;
      ModeratorByIdAfterSave(db.moderators, i, db'.moderators[i], id);
    }
  }

  lemma LogoutKeepsAbsent(db: Db, cookie: Option<string>, env: Env, token: string, id: string)
    requires Absent(db, token, id)
    ensures Absent(MA.Logout(db, cookie, env.codec), token, id)
  {
    var db' := MA.Logout(db, cookie, env.codec);
    match ModeratorById(db.moderators, id)
    case None =>
      forall j | 0 <= j < |db.moderators| ensures db'.moderators[j].id != id {
        assert db'.moderators[j].id == db.moderators[j].id;
      }
    case Some(i) =>
      ModeratorByIdAfterSave(db.moderators, i, db'.moderators[i], id);
  }

  lemma CreateKeepsAbsent(db: Db, name: Option<string>, email: Option<string>, password: Option<string>,
                          env: Env, newId: string, now: int, token: string, id: string)
    requires Absent(db, token, id)
    ensures var r := Moderators.CreateModerator(db, name, email, password, env.hash, newId, now);
      r.Ok? ==> Absent(r.value.0, token, id)
  {
    var r := Moderators.CreateModerator(db, name, email, password, env.hash, newId, now);
    if r.Ok? {
      var m := Moderators.NewModerator(newId, name.value, email.value, env.hash(password.value), now);
      IndexOfAppend(db.moderators, m, (x: Moderator) => x.id == id);
    }
  }

  /** One request never brings back a token issued before all logins of the trace. */
  lemma ApplyKeepsAbsent(db: Db, op: SessionOp, env: Env, token: string, id: string)
    requires Faithful(env.codec)
    requires Absent(db, token, id)
    requires LoginsAfter([op], token, env.codec)
    ensures Absent(Apply(db, op, env), token, id)
  {
    match op
    case LoginOp(email, password, now) =>
      assert [op][0] == op;
      LoginKeepsAbsent(db, email, password, env, now, token, id);
    case LogoutOp(cookie) => LogoutKeepsAbsent(db, cookie, env, token, id);
    case CreateOp(name, email, password, newId, now) => CreateKeepsAbsent(db, name, email, password, env, newId, now, token, id);
    case _ =>
  }

  lemma {:induction false} RunKeepsAbsent(db: Db, trace: seq<SessionOp>, env: Env, token: string, id: string)
    requires Faithful(env.codec)
    requires Absent(db, token, id)
    requires LoginsAfter(trace, token, env.codec)
    ensures Absent(Run(db, trace, env), token, id)
    decreases |trace|
  {
    if |trace| > 0 {
      assert LoginsAfter([trace[0]], token, env.codec) by {
        forall k | 0 <= k < 1 && [trace[0]][k].LoginOp? && env.codec.parse(token).Signed?
          ensures Seconds([trace[0]][k].now) > env.codec.parse(token).iat
        {
          assert [trace[0]][k] == trace[0];
        }
      }
      ApplyKeepsAbsent(db, trace[0], env, token, id);
      assert LoginsAfter(trace[1..], token, env.codec) by {
        forall k | 0 <= k < |trace[1..]| && trace[1..][k].LoginOp? && env.codec.parse(token).Signed?
          ensures Seconds(trace[1..][k].now) > env.codec.parse(token).iat
        {
          assert trace[1..][k] == trace[k + 1];
        }
      }
      RunKeepsAbsent(Apply(db, trace[0], env), trace[1..], env, token, id);
    }
  }

  /** Refresh refuses a token that is absent from the ledger of the moderator it names. */
  lemma AbsentIsRefused(db: Db, token: string, codec: Codec, now: int)
    requires token != ""
    requires codec.parse(token).Signed? && codec.parse(token).payload.id.Some?
    requires Absent(db, token, codec.parse(token).payload.id.value)
    ensures MA.Refresh(db, Some(token), codec, now).Fail?
  {
    MA.RefreshDecision(db, Some(token), codec, now);
  }

  /** After a ban or a revocation of moderator `id`, a refresh token naming `id`
      is never accepted again, whatever requests follow (unban included), as long
      as every later login happens in a later second than the token was issued in.
      A login in that same second would re-issue the identical token text. */
  lemma KilledTokenNeverAcceptedAgain(db: Db, kill: SessionOp, trace: seq<SessionOp>, env: Env,
                                      token: string, now: int)
    requires Faithful(env.codec)
    requires BannedHaveNoSessions(db.moderators)
    requires kill.BanOp? || kill.RevokeOp?
    requires token != "" && env.codec.parse(token).Signed? && env.codec.parse(token).payload.id == Some(kill.id)
    requires LoginsAfter(trace, token, env.codec)
    ensures MA.Refresh(Run(Apply(db, kill, env), trace, env), Some(token), env.codec, now).Fail?
  {
    var db1 := Apply(db, kill, env);
    assert LedgerOf(db1.moderators, kill.id) == [] by {
      match ModeratorById(db.moderators, kill.id)
      case None =>
      case Some(i) =>
        if kill.BanOp? && db.moderators[i].status == Banned {
          assert db1 == db;
        }
    }
    RunKeepsAbsent(db1, trace, env, token, kill.id);
    AbsentIsRefused(Run(db1, trace, env), token, env.codec, now);
  }

  // ---------------------------------------------------------------- sessions

  /** Under unique ids, the ledger lookup of a moderator's own id finds that moderator. */
  lemma {:induction false} IdFindsItsOwner(mods: seq<Moderator>, i: nat)
    requires UniqueIds(mods) && i < |mods|
    ensures ModeratorById(mods, mods[i].id) == Some(i)
  {
  }

  /** The refresh token a login hands out is accepted by refresh, until it expires,
      and yields an access token for the same moderator. */
  lemma LoginThenRefresh(db: Db, email: string, password: string, matches: (string, string) -> bool,
                         codec: Codec, now: int, later: int)
    requires Faithful(codec) && UniqueIds(db.moderators)
    requires MA.Login(db, Some(email), Some(password), matches, codec, now).1.Ok?
    requires Seconds(now) <= Seconds(later) < Seconds(now) + RefreshLifetime
    ensures var (db', r) := MA.Login(db, Some(email), Some(password), matches, codec, now);
      var i := ModeratorByEmail(db.moderators, email).value;
      MA.Refresh(db', Some(r.value.refreshToken), codec, later) == Ok(codec.render(MA.AccessToken(db'.moderators[i], later)))
  {
    var (db', r) := MA.Login(db, Some(email), Some(password), matches, codec, now);
    var i := ModeratorByEmail(db.moderators, email).value;
    var issued := MA.RefreshToken(db.moderators[i], now);
    assert codec.parse(codec.render(issued)) == issued;
    assert codec.parse(r.value.refreshToken) == issued;
    assert r.value.refreshToken != "";
    assert UniqueIds(db'.moderators) by {
      assert forall j :: 0 <= j < |db.moderators| ==> db'.moderators[j].id == db.moderators[j].id;
    }
    IdFindsItsOwner(db'.moderators, i);
    assert r.value.refreshToken in db'.moderators[i].refreshTokens;
  }

  /** Every moderator has a non-empty id, as every stored document does. */
  predicate IdsPresent(mods: seq<Moderator>) {
    forall j :: 0 <= j < |mods| ==> mods[j].id != ""
  }

  /** Two logins of one moderator within the same second produce the same refresh
      text, recorded twice; logging out either session removes both entries, so
      the other device's refresh fails afterwards. */
  lemma SameSecondLoginsShareFate(db: Db, email: string, password: string, matches: (string, string) -> bool,
                                  codec: Codec, now1: int, now2: int, later: int)
    requires Faithful(codec) && IdsPresent(db.moderators)
    requires Seconds(now1) == Seconds(now2)
    requires MA.Login(db, Some(email), Some(password), matches, codec, now1).1.Ok?
    ensures var (db1, r1) := MA.Login(db, Some(email), Some(password), matches, codec, now1);
      var (db2, r2) := MA.Login(db1, Some(email), Some(password), matches, codec, now2);
      && r2.Ok? && r1.value.refreshToken == r2.value.refreshToken
      && MA.Refresh(MA.Logout(db2, Some(r1.value.refreshToken), codec), Some(r2.value.refreshToken), codec, later).Fail?
  {
    var (db1, r1) := MA.Login(db, Some(email), Some(password), matches, codec, now1);
    var i := ModeratorByEmail(db.moderators, email).value;
    ModeratorByEmailAfterSave(db.moderators, i, db1.moderators[i], email);
    var (db2, r2) := MA.Login(db1, Some(email), Some(password), matches, codec, now2);
    var issued := MA.RefreshToken(db.moderators[i], now1);
    assert codec.parse(codec.render(issued)) == issued;
    assert MA.RefreshToken(db1.moderators[i], now2) == issued;
    var token := r1.value.refreshToken;
    assert codec.parse(token) == issued;
    MA.LogoutRemovesOnlyThatToken(db2, token, codec, db.moderators[i].id, token);
    AbsentIsRefused(MA.Logout(db2, Some(token), codec), token, codec, later);
  }
}

=== FILE: limiter.dfy ===
/** The sliding-window limiter in front of the verification actions
    (src/middleware/adminVerifyLimiter.js): per actor, an hourly list and a
    one-minute list of call times and a map from target user to the time it was
    last touched. Calls are taken one at a time. */
module Limiter {
  import opened Wrappers

  const ActionWindowMs: int := 60 * 60 * 1000
  const ActionMaxPerHour: int := 30
  const BurstWindowMs: int := 60 * 1000
  const ActionMaxPerMin: int := 5
  const UniqueWindowMs: int := 60 * 60 * 1000
  const UniqueMaxPerHour: int := 20

  /** One actor's entries in the three process-wide maps (`actionMap`,
      `burstMap`, `uniqueMap`); an actor without entries has empty ones. */
  datatype Entry = Entry(actions: seq<int>, bursts: seq<int>, targets: map<string, int>)

  const Fresh: Entry := Entry([], [], map[])

  /** The limiter's memory: the entries of every actor seen so far. */
  type State = map<string, Entry>

  function EntryOf(s: State, actor: string): Entry {
    if actor in s then s[actor] else Fresh
  }

  datatype Verdict = Pass | NotAuthenticated | HourlyCap | BurstCap | TargetCap

  function Status(v: Verdict): int {
    match v
    case Pass => 200
    case NotAuthenticated => 401
    case _ => 429
  }

  /** `prune`: drop entries from the front while they are more than `window` old.
      What is left is a suffix of the list whose first entry is at most `window` old. */
  function Prune(list: seq<int>, window: int, now: int): (r: seq<int>)
    ensures |r| <= |list| && r == list[|list| - |r|..]
    ensures |r| > 0 ==> now - r[0] <= window
    ensures forall i :: 0 <= i < |list| - |r| ==> now - list[i] > window
  {
    if |list| > 0 && now - list[0] > window then Prune(list[1..], window, now) else list
  }

  /** The loop deleting target entries more than `window` old. */
  function PruneTargets(m: map<string, int>, window: int, now: int): (r: map<string, int>)
    ensures forall k :: k in r <==> k in m && now - m[k] <= window
    ensures forall k :: k in r ==> r[k] == m[k]
  {
    map k | k in m && now - m[k] <= window :: m[k]
  }

  /** A list of call times in non-decreasing order. */
  predicate Sorted(list: seq<int>) {
    forall i, j :: 0 <= i < j < |list| ==> list[i] <= list[j]
  }

  /** The entries of `list` at most `window` old at `now`, in order. */
  function InWindow(list: seq<int>, window: int, now: int): seq<int> {
    if |list| == 0 then []
    else (if now - list[0] <= window then [list[0]] else []) + InWindow(list[1..], window, now)
  }

  /** Front-only pruning is exact on a sorted list: what survives is precisely the
      entries inside the window. */
  lemma {:induction false} PruneSortedIsWindow(list: seq<int>, window: int, now: int)
    requires Sorted(list)
    ensures Prune(list, window, now) == InWindow(list, window, now)
  {
    if |list| > 0 {
      if now - list[0] > window {
        PruneSortedIsWindow(list[1..], window, now);
      } else {
        AllInWindow(list, window, now);
      }
    }
  }

  lemma {:induction false} AllInWindow(list: seq<int>, window: int, now: int)
    requires Sorted(list)
    requires |list| > 0 ==> now - list[0] <= window
    ensures InWindow(list, window, now) == list
  {
    if |list| > 0 {
      AllInWindow(list[1..], window, now);
    }
  }

  /** An entry exactly `window` old survives pruning: the comparison is strict. */
  lemma PruneKeepsBoundary(list: seq<int>, window: int, now: int)
    requires |list| > 0 && now - list[0] == window
    ensures Prune(list, window, now) == list
  {
  }

  /** `small` is `big` with zero or more entries dropped from the front. */
  predicate IsSuffix(small: seq<int>, big: seq<int>) {
    |small| <= |big| && small == big[|big| - |small|..]
  }

  /** `small` keeps a subset of the entries of `big`, unchanged. */
  predicate IsSubmap(small: map<string, int>, big: map<string, int>) {
    forall k :: k in small ==> k in big && small[k] == big[k]
  }

  /** One call for an actor whose entries are `e`. Each list is pruned where it
      is stored, so a refused call can still shorten the stored lists; the target
      map is only visited when a target is named. An accepted call appends `now`
      to both lists and stamps the target with `now`. */
  function Step(e: Entry, target: string, now: int): (r: (Entry, Verdict))
    ensures r.1 != NotAuthenticated
    ensures r.1 != Pass ==> IsSuffix(r.0.actions, e.actions) && IsSuffix(r.0.bursts, e.bursts)
                            && IsSubmap(r.0.targets, e.targets)
    ensures r.1 == Pass ==> r.0.actions == Prune(e.actions, ActionWindowMs, now) + [now]
                            && r.0.bursts == Prune(e.bursts, BurstWindowMs, now) + [now]
    ensures r.1 == Pass && target != "" ==>
              r.0.targets == PruneTargets(e.targets, UniqueWindowMs, now)[target := now]
    ensures target == "" ==> r.0.targets == e.targets
  {
    var acts := Prune(e.actions, ActionWindowMs, now);
    if |acts| >= ActionMaxPerHour then (e.(actions := acts), HourlyCap)
    else
      var bursts := Prune(e.bursts, BurstWindowMs, now);
      if |bursts| >= ActionMaxPerMin then (e.(actions := acts, bursts := bursts), BurstCap)
      else if target == "" then (Entry(acts + [now], bursts + [now], e.targets), Pass)
      else
        var seen := PruneTargets(e.targets, UniqueWindowMs, now);
        if target !in seen && |seen| >= UniqueMaxPerHour then (Entry(acts, bursts, seen), TargetCap)
        else (Entry(acts + [now], bursts + [now], seen[target := now]), Pass)
  }

  /** The limiter. `actor` is `String(req.user?._id || '')` and `target` is
      `String(req.body?.userId || '')`, so "" stands for a missing value. */
  function Check(s: State, actor: string, target: string, now: int): (r: (State, Verdict))
    ensures actor == "" <==> r.1 == NotAuthenticated
    ensures actor == "" ==> r.0 == s
    ensures forall other :: other != actor ==> EntryOf(r.0, other) == EntryOf(s, other)
  {
    if actor == "" then (s, NotAuthenticated)
    else
      var (e, v) := Step(EntryOf(s, actor), target, now);
      (s[actor := e], v)
  }

  /** The order of the checks: a missing actor first, then the hourly cap, then the
      burst cap, then (only when a target is named) the distinct-target cap. */
  lemma CheckDecision(s: State, actor: string, target: string, now: int)
    ensures var v := Check(s, actor, target, now).1;
      var e := EntryOf(s, actor);
      var acts := Prune(e.actions, ActionWindowMs, now);
      var bursts := Prune(e.bursts, BurstWindowMs, now);
      var seen := PruneTargets(e.targets, UniqueWindowMs, now);
      && (v == HourlyCap <==> actor != "" && |acts| >= ActionMaxPerHour)
      && (v == BurstCap <==> actor != "" && |acts| < ActionMaxPerHour && |bursts| >= ActionMaxPerMin)
      && (v == TargetCap <==> actor != "" && |acts| < ActionMaxPerHour && |bursts| < ActionMaxPerMin
                              && target != "" && target !in seen && |seen| >= UniqueMaxPerHour)
  {
    if actor != "" {
      StepDecision(EntryOf(s, actor), target, now);
    }
  }

  lemma StepDecision(e: Entry, target: string, now: int)
    ensures var v := Step(e, target, now).1;
      var acts := Prune(e.actions, ActionWindowMs, now);
      var bursts := Prune(e.bursts, BurstWindowMs, now);
      var seen := PruneTargets(e.targets, UniqueWindowMs, now);
      && (v == HourlyCap <==> |acts| >= ActionMaxPerHour)
      && (v == BurstCap <==> |acts| < ActionMaxPerHour && |bursts| >= ActionMaxPerMin)
      && (v == TargetCap <==> |acts| < ActionMaxPerHour && |bursts| < ActionMaxPerMin
                              && target != "" && target !in seen && |seen| >= UniqueMaxPerHour)
  {
  }

  /** A target already seen within the hour is never refused by the distinct-target cap. */
  lemma RepeatTargetNotCapped(s: State, actor: string, target: string, now: int)
    requires target in PruneTargets(EntryOf(s, actor).targets, UniqueWindowMs, now)
    ensures Check(s, actor, target, now).1 != TargetCap
  {
  }

  /** A refused call records nothing: each of the actor's lists only loses entries
      from its front, its target map only loses entries, and other actors keep theirs. */
  lemma RejectedRecordsNothing(s: State, actor: string, target: string, now: int)
    requires Check(s, actor, target, now).1 != Pass
    ensures var e' := EntryOf(Check(s, actor, target, now).0, actor);
      && IsSuffix(e'.actions, EntryOf(s, actor).actions)
      && IsSuffix(e'.bursts, EntryOf(s, actor).bursts)
      && IsSubmap(e'.targets, EntryOf(s, actor).targets)
  {
  }

  lemma SubmapSize(small: map<string, int>, big: map<string, int>)
    requires IsSubmap(small, big)
    ensures |small| <= |big|
  {
    assert small.Keys <= big.Keys;
    SubsetSize(small.Keys, big.Keys);
  }

  lemma {:induction false} SubsetSize(a: set<string>, b: set<string>)
    requires a <= b
    ensures |a| <= |b|
  {
    if a != {} {
      var x :| x in a;
      SubsetSize(a - {x}, b - {x});
    }
  }

  /** An accepted call leaves the actor within every cap: at most 30 calls in the
      trailing hour, at most 5 in the trailing minute, at most 20 distinct targets. */
  lemma AcceptedWithinCaps(s: State, actor: string, target: string, now: int)
    requires Check(s, actor, target, now).1 == Pass
    requires |EntryOf(s, actor).targets| <= UniqueMaxPerHour
    ensures var e' := EntryOf(Check(s, actor, target, now).0, actor);
      && |e'.actions| <= ActionMaxPerHour
      && |e'.bursts| <= ActionMaxPerMin
      && |e'.targets| <= UniqueMaxPerHour
  {
    var e := EntryOf(s, actor);
    var seen := PruneTargets(e.targets, UniqueWindowMs, now);
    SubmapSize(seen, e.targets);
    if target != "" && target in seen {
      assert seen[target := now].Keys == seen.Keys;
    }
  }

  /** The result for one actor depends only on that actor's entries. */
  lemma DecisionIsPerActor(s: State, t: State, actor: string, target: string, now: int)
    requires EntryOf(s, actor) == EntryOf(t, actor)
    ensures Check(s, actor, target, now).1 == Check(t, actor, target, now).1
    ensures EntryOf(Check(s, actor, target, now).0, actor) == EntryOf(Check(t, actor, target, now).0, actor)
  {
  }

  /** Every actor's stored counts are within the caps. */
  predicate Bounded(s: State) {
    forall a :: a in s ==>
      |s[a].actions| <= ActionMaxPerHour && |s[a].bursts| <= ActionMaxPerMin && |s[a].targets| <= UniqueMaxPerHour
  }

  /** The caps are an invariant of the limiter: from any bounded state, every
      call, accepted or refused, leads to a bounded state. */
  lemma CheckKeepsBounded(s: State, actor: string, target: string, now: int)
    requires Bounded(s)
    ensures Bounded(Check(s, actor, target, now).0)
  {
    if actor != "" {
      var e := EntryOf(s, actor);
      var e' := EntryOf(Check(s, actor, target, now).0, actor);
      if Check(s, actor, target, now).1 == Pass {
        AcceptedWithinCaps(s, actor, target, now);
      } else {
        SubmapSize(e'.targets, e.targets);
      }
    }
  }

  predicate NotAfter(list: seq<int>, now: int) {
    forall i :: 0 <= i < |list| ==> list[i] <= now
  }

  /** Every stored list is sorted and holds no time later than `now`. */
  predicate Chronological(s: State, now: int) {
    forall a :: a in s ==>
      Sorted(s[a].actions) && NotAfter(s[a].actions, now) && Sorted(s[a].bursts) && NotAfter(s[a].bursts, now)
  }

  lemma SuffixInOrder(small: seq<int>, big: seq<int>, now: int, later: int)
    requires IsSuffix(small, big) && Sorted(big) && NotAfter(big, now) && now <= later
    ensures Sorted(small) && NotAfter(small, later)
  {
    var d := |big| - |small|;
    forall i, j | 0 <= i < j < |small| ensures small[i] <= small[j] {
      assert small[i] == big[d + i] && small[j] == big[d + j];
    }
    forall i | 0 <= i < |small| ensures small[i] <= later {
      assert small[i] == big[d + i];
    }
  }

  lemma AppendInOrder(list: seq<int>, big: seq<int>, now: int, later: int)
    requires IsSuffix(list, big) && Sorted(big) && NotAfter(big, now) && now <= later
    ensures Sorted(list + [now]) && NotAfter(list + [now], later)
  {
    SuffixInOrder(list, big, now, now);
  }

  /** One entry that is in time order at `now` stays in time order after a call. */
  lemma StepKeepsChronological(e: Entry, target: string, now: int, later: int)
    requires Sorted(e.actions) && NotAfter(e.actions, now) && Sorted(e.bursts) && NotAfter(e.bursts, now)
    requires now <= later
    ensures var e' := Step(e, target, now).0;
      Sorted(e'.actions) && NotAfter(e'.actions, later) && Sorted(e'.bursts) && NotAfter(e'.bursts, later)
  {
    var r := Step(e, target, now);
    if r.1 == Pass {
      AppendInOrder(Prune(e.actions, ActionWindowMs, now), e.actions, now, later);
      AppendInOrder(Prune(e.bursts, BurstWindowMs, now), e.bursts, now, later);
    } else {
      SuffixInOrder(r.0.actions, e.actions, now, later);
      SuffixInOrder(r.0.bursts, e.bursts, now, later);
    }
  }

  /** With a clock that never runs backwards the lists stay in time order, which
      is what makes front-only pruning keep exactly the entries inside each window
      (`PruneSortedIsWindow`). */
  lemma CheckKeepsChronological(s: State, actor: string, target: string, now: int, later: int)
    requires Chronological(s, now) && now <= later
    ensures Chronological(Check(s, actor, target, now).0, later)
  {
    var s' := Check(s, actor, target, now).0;
    forall a | a in s'
      ensures Sorted(s'[a].actions) && NotAfter(s'[a].actions, later)
      ensures Sorted(s'[a].bursts) && NotAfter(s'[a].bursts, later)
    {
      var e := EntryOf(s, a);
      assert Sorted(e.actions) && NotAfter(e.actions, now) && Sorted(e.bursts) && NotAfter(e.bursts, now);
      if a == actor && actor != "" {
        StepKeepsChronological(e, target, now, later);
      } else {
        assert s'[a] == e;
        SuffixInOrder(e.actions, e.actions, now, later);
        SuffixInOrder(e.bursts, e.bursts, now, later);
      }
    }
  }

  /** `n` calls by the same actor on the same target at the same instant. */
  function Repeat(s: State, actor: string, target: string, now: int, n: nat): (State, Verdict)
  {
    if n == 0 then (s, Pass)
    else Check(Repeat(s, actor, target, now, n - 1).0, actor, target, now)
  }

  lemma CheckIsStep(s: State, actor: string, target: string, now: int)
    requires actor != ""
    ensures Check(s, actor, target, now).1 == Step(EntryOf(s, actor), target, now).1
    ensures EntryOf(Check(s, actor, target, now).0, actor) == Step(EntryOf(s, actor), target, now).0
  {
  }

  /** The actor's entries after `k` same-instant calls on one target. */
  function Stamped(target: string, now: int, k: nat): Entry {
    Entry(seq(k, _ => now), seq(k, _ => now), if k == 0 then map[] else map[target := now])
  }

  lemma PruneSameInstant(k: nat, window: int, now: int)
    requires window >= 0
    ensures Prune(seq(k, _ => now), window, now) == seq(k, _ => now)
  {
    if k > 0 {
      assert seq(k, _ => now)[0] == now;
    }
  }

  lemma StepRepeats(target: string, now: int, k: nat)
    requires target != "" && k < 5
    ensures Step(Stamped(target, now, k), target, now) == (Stamped(target, now, k + 1), Pass)
  {
    var e := Stamped(target, now, k);
    PruneSameInstant(k, ActionWindowMs, now);
    PruneSameInstant(k, BurstWindowMs, now);
    var seen := PruneTargets(e.targets, UniqueWindowMs, now);
    assert seen == e.targets;
    assert |seen| <= 1;
    assert seq(k, _ => now) + [now] == seq(k + 1, _ => now);
    assert seen[target := now] == map[target := now];
  }

  /** An actor with no history makes calls for one target in the same instant:
      the first touches the target, the next four repeat it, and all five pass. */
  lemma {:induction false} BurstScenario(s: State, actor: string, target: string, now: int, n: nat)
    requires actor != "" && target != "" && EntryOf(s, actor) == Fresh && n <= 5
    ensures Repeat(s, actor, target, now, n).1 == Pass
    ensures EntryOf(Repeat(s, actor, target, now, n).0, actor) == Stamped(target, now, n)
  {
    if n == 0 {
      assert Stamped(target, now, 0) == Fresh;
    } else {
      BurstScenario(s, actor, target, now, n - 1);
      StepRepeats(target, now, n - 1);
      CheckIsStep(Repeat(s, actor, target, now, n - 1).0, actor, target, now);
    }
  }

  /** A sixth call in that same instant is refused by the burst cap, whatever the target. */
  lemma SixthCallThrottled(s: State, actor: string, target: string, other: string, now: int)
    requires actor != "" && target != "" && EntryOf(s, actor) == Fresh
    ensures Check(Repeat(s, actor, target, now, 5).0, actor, other, now).1 == BurstCap
  {
    BurstScenario(s, actor, target, now, 5);
    var e := Stamped(target, now, 5);
    PruneSameInstant(5, ActionWindowMs, now);
    PruneSameInstant(5, BurstWindowMs, now);
    CheckIsStep(Repeat(s, actor, target, now, 5).0, actor, other, now);
  }
}

=== FILE: listing.dfy ===
/** Query normalisation of the three paged list endpoints (`getAllUsers`,
    `getAllPosts`, `getAllReports`): whether paging is on, the page, the clamped
    limit, the number of documents skipped and the reported page count. */
module Listing {

  /** A JavaScript number as `Number(req.query.x)` yields it; an absent or
      non-numeric parameter is `NaN`. */
  datatype JsNumber = NaN | Finite(val: real) | PosInfinity | NegInfinity

  /** `Math.floor` on a finite number. */
  function Floor(x: real): int {
    x.Floor
  }

  /** `Math.min(Math.max(x, lo), hi)`. */
  function Clamp(x: int, lo: int, hi: int): (r: int)
    requires lo <= hi
    ensures lo <= r <= hi
    ensures lo <= x <= hi ==> r == x
  {
    if x < lo then lo else if x > hi then hi else x
  }

  /** The clamp picks the point of the range nearest to its input. */
  lemma ClampIsNearest(x: int, lo: int, hi: int, k: int)
    requires lo <= hi && lo <= k <= hi
    ensures var r := Clamp(x, lo, hi);
      (if r <= x then x - r else r - x) <= (if k <= x then x - k else k - x)
  {
  }

  const MaxLimit := 200

  datatype Collection = Users | Posts | Reports

  /** The limit used when the `limit` parameter is not a finite number. */
  function DefaultLimit(c: Collection, usePaging: bool): (r: int)
    ensures 1 <= r <= MaxLimit
    ensures c == Users ==> r == 50
    ensures c == Reports ==> r == 25
    ensures c == Posts ==> r == (if usePaging then 25 else 200)
  {
    match c
    case Users => 50
    case Reports => 25
    case Posts => if usePaging then 25 else 200
  }

  /** `Number.isFinite(limitRaw) ? Math.min(Math.max(Math.floor(limitRaw), 1), 200) : default`. */
  function Limit(raw: JsNumber, default: int): (r: int)
    requires 1 <= default <= MaxLimit
    ensures 1 <= r <= MaxLimit
    ensures !raw.Finite? ==> r == default
    ensures raw.Finite? && raw.val < 1.0 ==> r == 1
    ensures raw.Finite? && raw.val >= 200.0 ==> r == MaxLimit
    ensures raw.Finite? && 1.0 <= raw.val < 201.0 ==> r as real <= raw.val < r as real + 1.0
  {
    if raw.Finite? then Clamp(Floor(raw.val), 1, MaxLimit) else default
  }

  /** Paging is on exactly when `page` is a finite number above zero. */
  predicate UsePaging(pageRaw: JsNumber) {
    pageRaw.Finite? && pageRaw.val > 0.0
  }

  /** What a list endpoint derives from its query: `page`, `limit` and `skip`. */
  datatype Paging = Paging(usePaging: bool, page: int, limit: int, skip: int)

  /** The code as written: `page = Math.floor(pageRaw)` once `pageRaw > 0`, so a
      page strictly between 0 and 1 becomes page 0. */
  function PagingAsWritten(c: Collection, pageRaw: JsNumber, limitRaw: JsNumber): (r: Paging)
    ensures r.usePaging <==> UsePaging(pageRaw)
    ensures 1 <= r.limit <= MaxLimit
    ensures r.skip == (r.page - 1) * r.limit
  {
    var usePaging := UsePaging(pageRaw);
    var page := if usePaging then Floor(pageRaw.val) else 1;
    var limit := Limit(limitRaw, DefaultLimit(c, usePaging));
    Paging(usePaging, page, limit, (page - 1) * limit)
  }

  /** `?page=0.5` passes the `pageRaw > 0` test, reports page 0 and skips a
      negative number of documents. */
  lemma FractionalPageAsWritten()
    ensures var r := PagingAsWritten(Users, Finite(0.5), NaN);
      r.usePaging && r.page == 0 && r.limit == 50 && r.skip == -50
  {
  }

  /** The evidently intended paging: the page never drops below 1. */
  function PageNumber(pageRaw: JsNumber): (r: int)
    ensures r >= 1
    ensures UsePaging(pageRaw) && pageRaw.val >= 1.0 ==> r as real <= pageRaw.val < r as real + 1.0
    ensures !UsePaging(pageRaw) || pageRaw.val < 1.0 ==> r == 1
  {
    if UsePaging(pageRaw) && Floor(pageRaw.val) >= 1 then Floor(pageRaw.val) else 1
  }

  function Page(c: Collection, pageRaw: JsNumber, limitRaw: JsNumber): (r: Paging)
    ensures r.usePaging <==> UsePaging(pageRaw)
    ensures r.page >= 1 && 1 <= r.limit <= MaxLimit
    ensures r.skip >= 0 && r.skip % r.limit == 0 && r.skip / r.limit == r.page - 1
  {
    var usePaging := UsePaging(pageRaw);
    var page := PageNumber(pageRaw);
    var limit := Limit(limitRaw, DefaultLimit(c, usePaging));
    SkipIsMultiple(page, limit);
    Paging(usePaging, page, limit, (page - 1) * limit)
  }

  lemma SkipIsMultiple(page: int, limit: int)
    requires page >= 1 && limit >= 1
    ensures (page - 1) * limit >= 0
    ensures ((page - 1) * limit) % limit == 0 && ((page - 1) * limit) / limit == page - 1
  {
    var k := page - 1;
    var s := k * limit;
    var q, m := s / limit, s % limit;
    assert s == q * limit + m && 0 <= m < limit;
    if q > k {
      MulMono(1, q - k, limit);
    } else if q < k {
      MulMono(1, k - q, limit);
    }
  }

  /** On every page the writer clearly meant (`page >= 1`), the corrected paging
      agrees with the code as written. */
  lemma PageAgreesAboveOne(c: Collection, pageRaw: JsNumber, limitRaw: JsNumber)
    requires !UsePaging(pageRaw) || pageRaw.val >= 1.0
    ensures Page(c, pageRaw, limitRaw) == PagingAsWritten(c, pageRaw, limitRaw)
  {
  }

  /** The documents the endpoint returns, out of the full, already sorted result.
      Unpaged, users and reports are returned whole and posts are cut at the limit. */
  function Window<T>(c: Collection, items: seq<T>, p: Paging): (r: seq<T>)
    requires p.skip >= 0 && p.limit >= 1
    ensures |r| <= |items|
    ensures p.usePaging ==> |r| <= p.limit
    ensures p.usePaging ==> |r| == if p.skip >= |items| then 0 else if |items| - p.skip < p.limit then |items| - p.skip else p.limit
    ensures p.usePaging ==> forall i :: 0 <= i < |r| ==> p.skip + i < |items| && r[i] == items[p.skip + i]
    ensures !p.usePaging && c != Posts ==> r == items
    ensures !p.usePaging && c == Posts ==> r == items[..|r|] && |r| == if |items| < p.limit then |items| else p.limit
  {
    if p.usePaging then
      var lo := if p.skip < |items| then p.skip else |items|;
      var hi := if p.skip + p.limit < |items| then p.skip + p.limit else |items|;
      items[lo..hi]
    else if c == Posts then
      items[..if |items| < p.limit then |items| else p.limit]
    else items
  }

  /** `Math.max(1, Math.ceil(total / limit))`. */
  function PageCount(total: nat, limit: int): (r: int)
    requires limit >= 1
    ensures r >= 1
    ensures total == 0 ==> r == 1
    ensures total > 0 ==> (r - 1) * limit < total <= r * limit
  {
    var q := (total + limit - 1) / limit;
    CeilingDivision(total, limit);
    if q < 1 then 1 else q
  }

  lemma CeilingDivision(total: nat, limit: int)
    requires limit >= 1
    ensures var q := (total + limit - 1) / limit;
      q >= 0 && (total > 0 ==> q >= 1 && (q - 1) * limit < total <= q * limit)
  {
    var q := (total + limit - 1) / limit;
    var m := (total + limit - 1) % limit;
    assert total + limit - 1 == q * limit + m;
    assert (q - 1) * limit == q * limit - limit;
  }

  /** Document `i` is returned on page `i / limit + 1`, at position `i % limit`, and
      that page is one of the `PageCount` reported pages. */
  lemma EveryDocumentHasAPage<T>(c: Collection, items: seq<T>, i: nat, limit: int)
    requires limit >= 1 && i < |items|
    ensures var k := i / limit;
      && 1 <= k + 1 <= PageCount(|items|, limit)
      && k * limit >= 0
      && var w := Window(c, items, Paging(true, k + 1, limit, k * limit));
         i % limit < |w| && w[i % limit] == items[i]
  {
    var k, m := i / limit, i % limit;
    PageOfDocument(i, |items|, limit);
    var p := Paging(true, k + 1, limit, k * limit);
    var w := Window(c, items, p);
    assert p.skip + m == i;
    assert m < |w|;
  }

  /** The arithmetic behind it: `i` is `i % limit` places past the start of page
      `i / limit + 1`, which starts before `total` and is a reported page. */
  lemma PageOfDocument(i: nat, total: nat, limit: int)
    requires limit >= 1 && i < total
    ensures var k := i / limit;
      && k >= 0 && k * limit >= 0 && k * limit + i % limit == i && 0 <= i % limit < limit
      && k + 1 <= PageCount(total, limit)
  {
    var k := i / limit;
    var n := PageCount(total, limit);
    assert k * limit >= 0 by { MulMono(0, k, limit); }
    if k >= n {
      MulMono(n, k, limit);
    }
  }

  lemma MulMono(a: int, b: int, c: int)
    requires a <= b && c >= 0
    ensures a * c <= b * c
  {
  }

  /** A page past the last reported one is empty. */
  lemma NoDocumentsPastLastPage<T>(c: Collection, items: seq<T>, pageRaw: JsNumber, limitRaw: JsNumber)
    requires UsePaging(pageRaw)
    requires Page(c, pageRaw, limitRaw).page > PageCount(|items|, Page(c, pageRaw, limitRaw).limit)
    ensures Window(c, items, Page(c, pageRaw, limitRaw)) == []
  {
    var p := Page(c, pageRaw, limitRaw);
    var n := PageCount(|items|, p.limit);
    assert n * p.limit <= (p.page - 1) * p.limit by { MulMono(n, p.page - 1, p.limit); }
  }
}

=== FILE: moderation.dfy ===
/** The record transitions of the moderation handlers (src/controllers/admin.controller.js):
    user status changes, verification, the post soft delete, report flags and
    notes, and the moderator ban, unban and session revocation. Each handler
    is a function from the database to a new database or an error response;
    an error leaves the database as it was. */
module Moderation {
  import opened Wrappers
  import opened Text
  import opened Records

  /** The audit row every handler writes after its change. */
  function Audit(actor: Principal, role: string, action: string, targetType: string, targetId: string,
                 reason: string, notes: string): AuditEntry {
    AuditEntry(actor, role, action, targetType, targetId, reason, notes)
  }

  // ---------------------------------------------------------------- user status

  datatype StatusChange = BanUser | SuspendUser | UnbanUser

  function TargetStatus(c: StatusChange): UserStatus {
    match c
    case BanUser => UserBanned
    case SuspendUser => UserSuspended
    case UnbanUser => UserActive
  }

  function StatusAction(c: StatusChange): string {
    match c
    case BanUser => "ban user"
    case SuspendUser => "suspend user"
    case UnbanUser => "unban user"
  }

  /** `banUser`, `suspendUser` and `unbanUser`: 404 for an unknown user, otherwise
      the status is overwritten, whatever it was, and one audit row is added. */
  function ChangeUserStatus(db: Db, actor: Principal, id: string, c: StatusChange,
                            reason: Option<string>, notes: Option<string>): (r: Result<Db>)
    ensures r.Fail? <==> UserById(db.users, id).None?
    ensures r.Fail? ==> r.failure == NotFound("User not found")
    ensures r.Ok? ==> var i := UserById(db.users, id).value;
      && |r.value.users| == |db.users|
      && r.value.users[i] == db.users[i].(status := Some(TargetStatus(c)))
      && (forall j :: 0 <= j < |db.users| && j != i ==> r.value.users[j] == db.users[j])
      && r.value.auditLog == db.auditLog + [Audit(actor, actor.role, StatusAction(c), "user", id,
                                                  OrElse(reason, ""), OrElse(notes, ""))]
      && r.value.(users := db.users, auditLog := db.auditLog) == db
  {
    match UserById(db.users, id)
    case None => Fail(NotFound("User not found"))
    case Some(i) =>
      var u := db.users[i].(status := Some(TargetStatus(c)));
      Ok(db.(users := db.users[i := u],
             auditLog := db.auditLog + [Audit(actor, actor.role, StatusAction(c), "user", db.users[i].id,
                                              OrElse(reason, ""), OrElse(notes, ""))]))
  }

  /** The user a lookup finds after a status change is the one that was changed,
      and it carries the new status. */
  lemma StatusChangeIsVisible(db: Db, actor: Principal, id: string, c: StatusChange,
                              reason: Option<string>, notes: Option<string>)
    requires ChangeUserStatus(db, actor, id, c, reason, notes).Ok?
    ensures var db' := ChangeUserStatus(db, actor, id, c, reason, notes).value;
      UserById(db'.users, id) == UserById(db.users, id)
      && db'.users[UserById(db'.users, id).value].status == Some(TargetStatus(c))
  {
    var i := UserById(db.users, id).value;
    IndexOfStable(db.users, i, db.users[i].(status := Some(TargetStatus(c))), (u: User) => u.id == id);
  }

  /** Changing the status twice in a row leaves the same users as the second change alone:
      each change overwrites the status and nothing else. */
  lemma LastStatusChangeWins(db: Db, actor: Principal, id: string, c1: StatusChange, c2: StatusChange,
                             reason: Option<string>, notes: Option<string>)
    requires ChangeUserStatus(db, actor, id, c1, reason, notes).Ok?
    ensures var db1 := ChangeUserStatus(db, actor, id, c1, reason, notes).value;
      ChangeUserStatus(db1, actor, id, c2, reason, notes).Ok?
      && ChangeUserStatus(db1, actor, id, c2, reason, notes).value.users
         == ChangeUserStatus(db, actor, id, c2, reason, notes).value.users
  {
    StatusChangeIsVisible(db, actor, id, c1, reason, notes);
  }

  // ---------------------------------------------------------------- verification

  /** `VERIFICATION_TYPES.has(String(verificationType))`. */
  function ParseVerificationType(s: Option<string>): (r: Option<VerificationType>)
    ensures r.Some? ==> Truthy(s)
    ensures r == Some(Official) <==> s == Some("official")
    ensures r == Some(Creator) <==> s == Some("creator")
    ensures r == Some(Developer) <==> s == Some("developer")
  {
    match s
    case Some("official") => Some(Official)
    case Some("creator") => Some(Creator)
    case Some("developer") => Some(Developer)
    case _ => None
  }

  /** `!reason || !String(reason).trim()`. */
  predicate BlankReason(reason: Option<string>) {
    !Truthy(reason) || Trim(reason.value) == ""
  }

  /** A user may be verified when its status is unset or "active". */
  predicate MayBeVerified(u: User) {
    u.status.None? || u.status == Some(UserActive)
  }

  /** `verifyUser`. The checks run in this order: the user id, the type, the reason,
      the lookup (404), the user's status. */
  function VerifyUser(db: Db, actor: Principal, userId: Option<string>, verificationType: Option<string>,
                      reason: Option<string>, now: int): (r: Result<Db>)
    ensures !Truthy(userId) ==> r == Fail(BadRequest("userId is required"))
    ensures Truthy(userId) && ParseVerificationType(verificationType).None? ==> r == Fail(BadRequest("Invalid verificationType"))
    ensures Truthy(userId) && ParseVerificationType(verificationType).Some? && BlankReason(reason) ==>
              r == Fail(BadRequest("Reason is required"))
    ensures r.IsStatus(404) <==> Truthy(userId) && ParseVerificationType(verificationType).Some?
                                 && !BlankReason(reason) && UserById(db.users, userId.value).None?
    ensures r.Ok? <==> Truthy(userId) && ParseVerificationType(verificationType).Some? && !BlankReason(reason)
                       && UserById(db.users, userId.value).Some?
                       && MayBeVerified(db.users[UserById(db.users, userId.value).value])
    ensures Truthy(userId) && ParseVerificationType(verificationType).Some? && !BlankReason(reason)
            && UserById(db.users, userId.value).Some? && !MayBeVerified(db.users[UserById(db.users, userId.value).value]) ==>
              r == Fail(BadRequest("Cannot verify a non-active user"))
    ensures r.Ok? ==> var i := UserById(db.users, userId.value).value;
      && |r.value.users| == |db.users|
      && r.value.users[i] == db.users[i].(isVerified := true,
                                          verificationType := ParseVerificationType(verificationType),
                                          verifiedBy := Some(actor.id), verifiedAt := Some(now))
      && (forall j :: 0 <= j < |db.users| && j != i ==> r.value.users[j] == db.users[j])
      && r.value.verificationLog == db.verificationLog + [VerificationEntry(userId.value, actor.id, ActionVerify, Trim(reason.value))]
      && r.value.(users := db.users, verificationLog := db.verificationLog) == db
  {
    if !Truthy(userId) then Fail(BadRequest("userId is required"))
    else if ParseVerificationType(verificationType).None? then Fail(BadRequest("Invalid verificationType"))
    else if BlankReason(reason) then Fail(BadRequest("Reason is required"))
    else match UserById(db.users, userId.value)
      case None => Fail(NotFound("User not found"))
      case Some(i) =>
        var u := db.users[i];
        if !MayBeVerified(u) then Fail(BadRequest("Cannot verify a non-active user"))
        else
          var u' := u.(isVerified := true, verificationType := ParseVerificationType(verificationType),
                       verifiedBy := Some(actor.id), verifiedAt := Some(now));
          Ok(db.(users := db.users[i := u'],
                 verificationLog := db.verificationLog + [VerificationEntry(u.id, actor.id, ActionVerify, Trim(reason.value))]))
  }

  /** A user is unverified when all four verification fields are cleared. */
  predicate Unverified(u: User) {
    !u.isVerified && u.verificationType.None? && u.verifiedBy.None? && u.verifiedAt.None?
  }

  /** `revokeVerification`: the user id, the reason, the lookup; then the four
      verification fields are cleared whatever they held. */
  function RevokeVerification(db: Db, actor: Principal, userId: Option<string>, reason: Option<string>): (r: Result<Db>)
    ensures !Truthy(userId) ==> r == Fail(BadRequest("userId is required"))
    ensures Truthy(userId) && BlankReason(reason) ==> r == Fail(BadRequest("Reason is required"))
    ensures Truthy(userId) && !BlankReason(reason) && UserById(db.users, userId.value).None? ==>
              r == Fail(NotFound("User not found"))
    ensures r.IsStatus(404) <==> Truthy(userId) && !BlankReason(reason) && UserById(db.users, userId.value).None?
    ensures r.Ok? <==> Truthy(userId) && !BlankReason(reason) && UserById(db.users, userId.value).Some?
    ensures r.Ok? ==> var i := UserById(db.users, userId.value).value;
      && |r.value.users| == |db.users|
      && Unverified(r.value.users[i])
      && r.value.users[i].(isVerified := true) == db.users[i].(isVerified := true, verificationType := None,
                                                              verifiedBy := None, verifiedAt := None)
      && (forall j :: 0 <= j < |db.users| && j != i ==> r.value.users[j] == db.users[j])
      && r.value.verificationLog == db.verificationLog + [VerificationEntry(userId.value, actor.id, ActionRevoke, Trim(reason.value))]
      && r.value.(users := db.users, verificationLog := db.verificationLog) == db
  {
    if !Truthy(userId) then Fail(BadRequest("userId is required"))
    else if BlankReason(reason) then Fail(BadRequest("Reason is required"))
    else match UserById(db.users, userId.value)
      case None => Fail(NotFound("User not found"))
      case Some(i) =>
        var u := db.users[i];
        var u' := u.(isVerified := false, verificationType := None, verifiedBy := None, verifiedAt := None);
        Ok(db.(users := db.users[i := u'],
               verificationLog := db.verificationLog + [VerificationEntry(u.id, actor.id, ActionRevoke, Trim(reason.value))]))
  }

  /** Revoking twice leaves the same users as revoking once. */
  lemma RevokeIsIdempotent(db: Db, actor: Principal, userId: Option<string>, reason: Option<string>)
    requires RevokeVerification(db, actor, userId, reason).Ok?
    ensures var db1 := RevokeVerification(db, actor, userId, reason).value;
      RevokeVerification(db1, actor, userId, reason).Ok?
      && RevokeVerification(db1, actor, userId, reason).value.users == db1.users
  {
    var i := UserById(db.users, userId.value).value;
    var db1 := RevokeVerification(db, actor, userId, reason).value;
    IndexOfStable(db.users, i, db1.users[i], (u: User) => u.id == userId.value);
    assert db1.users == db.users[i := db1.users[i]];
  }

  /** Revoking after a verification leaves the same users as revoking alone:
      nothing of the verification survives. */
  lemma RevokeUndoesVerify(db: Db, actor: Principal, userId: Option<string>, verificationType: Option<string>,
                           reason: Option<string>, now: int, other: Principal, reason2: Option<string>)
    requires VerifyUser(db, actor, userId, verificationType, reason, now).Ok?
    requires !BlankReason(reason2)
    ensures var db1 := VerifyUser(db, actor, userId, verificationType, reason, now).value;
      RevokeVerification(db1, other, userId, reason2).Ok?
      && RevokeVerification(db1, other, userId, reason2).value.users
         == RevokeVerification(db, other, userId, reason2).value.users
  {
    var i := UserById(db.users, userId.value).value;
    var db1 := VerifyUser(db, actor, userId, verificationType, reason, now).value;
    IndexOfStable(db.users, i, db1.users[i], (u: User) => u.id == userId.value);
    assert db1.users == db.users[i := db1.users[i]];
  }

  /** Verification never changes a user's status, and the verified user was eligible. */
  lemma VerifyKeepsStatus(db: Db, actor: Principal, userId: Option<string>, verificationType: Option<string>,
                          reason: Option<string>, now: int)
    requires VerifyUser(db, actor, userId, verificationType, reason, now).Ok?
    ensures var db1 := VerifyUser(db, actor, userId, verificationType, reason, now).value;
      var i := UserById(db.users, userId.value).value;
      db1.users[i].status == db.users[i].status && MayBeVerified(db1.users[i])
      && db1.users[i].isVerified && db1.users[i].verifiedBy == Some(actor.id)
  {
  }

  // ---------------------------------------------------------------- posts

  /** How the main backend reads a post's deletion: `Boolean(isDelete || isDeleted)`. */
  predicate Deleted(p: Post) {
    p.isDelete || p.isDeleted
  }

  /** `softDeletePost`: both deletion flags are set, so both backends see the post as
      deleted; the author and the id are untouched. */
  function SoftDeletePost(db: Db, actor: Principal, id: string, reason: Option<string>, notes: Option<string>): (r: Result<Db>)
    ensures r.Fail? <==> PostById(db.posts, id).None?
    ensures r.Fail? ==> r.failure == NotFound("Post not found")
    ensures r.Ok? ==> var i := PostById(db.posts, id).value;
      && |r.value.posts| == |db.posts|
      && r.value.posts[i].isDeleted && r.value.posts[i].isDelete && Deleted(r.value.posts[i])
      && r.value.posts[i].id == db.posts[i].id && r.value.posts[i].authorId == db.posts[i].authorId
      && (forall j :: 0 <= j < |db.posts| && j != i ==> r.value.posts[j] == db.posts[j])
      && |r.value.auditLog| == |db.auditLog| + 1 && r.value.auditLog[..|db.auditLog|] == db.auditLog
      && r.value.(posts := db.posts, auditLog := db.auditLog) == db
  {
    match PostById(db.posts, id)
    case None => Fail(NotFound("Post not found"))
    case Some(i) =>
      var p := db.posts[i].(isDeleted := true, isDelete := true);
      Ok(db.(posts := db.posts[i := p],
             auditLog := db.auditLog + [Audit(actor, actor.role, "soft delete post", "post", p.id,
                                              OrElse(reason, ""), OrElse(notes, ""))]))
  }

  /** Soft-deleting an already soft-deleted post changes no post. */
  lemma SoftDeleteIsIdempotent(db: Db, actor: Principal, id: string, reason: Option<string>, notes: Option<string>)
    requires SoftDeletePost(db, actor, id, reason, notes).Ok?
    ensures var db1 := SoftDeletePost(db, actor, id, reason, notes).value;
      SoftDeletePost(db1, actor, id, reason, notes).Ok?
      && SoftDeletePost(db1, actor, id, reason, notes).value.posts == db1.posts
  {
    var i := PostById(db.posts, id).value;
    var db1 := SoftDeletePost(db, actor, id, reason, notes).value;
    IndexOfStable(db.posts, i, db1.posts[i], (p: Post) => p.id == id);
    assert db1.posts == db.posts[i := db1.posts[i]];
  }

  // ---------------------------------------------------------------- reports

  /** A report's flag and its flag metadata agree: a flagged report records when and
      by whom, an unflagged one records nothing. */
  predicate FlagConsistent(r: Report) {
    if r.flagged then r.flaggedAt.Some? && r.flaggedById.Some? && r.flaggedByName.Some? && r.flaggedByEmail.Some?
    else r.flaggedAt.None? && r.flaggedById.None? && r.flaggedByName.None? && r.flaggedByEmail.None?
  }

  /** The new flag: an explicit boolean wins, otherwise the flag toggles. */
  function NextFlag(requested: Option<bool>, current: bool): (r: bool)
    ensures requested.Some? ==> r == requested.value
    ensures requested.None? ==> r != current
  {
    if requested.Some? then requested.value else !current
  }

  /** `setReportFlag`. */
  function SetReportFlag(db: Db, actor: Principal, id: string, requested: Option<bool>, notes: Option<string>, now: int): (r: Result<Db>)
    ensures r.Fail? <==> ReportById(db.reports, id).None?
    ensures r.Fail? ==> r.failure == NotFound("Report not found")
    ensures r.Ok? ==> var i := ReportById(db.reports, id).value;
      |r.value.reports| == |db.reports| &&
      var rep := r.value.reports[i];
      && rep.flagged == NextFlag(requested, db.reports[i].flagged)
      && FlagConsistent(rep)
      && (rep.flagged ==> rep.flaggedAt == Some(now) && rep.flaggedById == Some(actor.id)
                          && rep.flaggedByName == Some(actor.name) && rep.flaggedByEmail == Some(actor.email))
      && rep.(flagged := false, flaggedAt := None, flaggedById := None, flaggedByName := None, flaggedByEmail := None)
         == db.reports[i].(flagged := false, flaggedAt := None, flaggedById := None, flaggedByName := None, flaggedByEmail := None)
      && (forall j :: 0 <= j < |db.reports| && j != i ==> r.value.reports[j] == db.reports[j])
      && r.value.auditLog == db.auditLog + [Audit(actor, actor.role, if rep.flagged then "flag report" else "unflag report",
                                                  "report", id, "", OrElse(notes, ""))]
      && r.value.(reports := db.reports, auditLog := db.auditLog) == db
  {
    match ReportById(db.reports, id)
    case None => Fail(NotFound("Report not found"))
    case Some(i) =>
      var rep := db.reports[i];
      var next := NextFlag(requested, rep.flagged);
      var rep' := rep.(flagged := next,
                       flaggedAt := if next then Some(now) else None,
                       flaggedById := if next then Some(actor.id) else None,
                       flaggedByName := if next then Some(actor.name) else None,
                       flaggedByEmail := if next then Some(actor.email) else None);
      Ok(db.(reports := db.reports[i := rep'],
             auditLog := db.auditLog + [Audit(actor, actor.role, if next then "flag report" else "unflag report",
                                              "report", rep.id, "", OrElse(notes, ""))]))
  }

  /** Two toggles in a row bring the flag back to where it was. */
  lemma ToggleTwiceRestoresFlag(db: Db, actor: Principal, id: string, notes: Option<string>, now: int, now2: int)
    requires SetReportFlag(db, actor, id, None, notes, now).Ok?
    ensures var db1 := SetReportFlag(db, actor, id, None, notes, now).value;
      var i := ReportById(db.reports, id).value;
      SetReportFlag(db1, actor, id, None, notes, now2).Ok?
      && SetReportFlag(db1, actor, id, None, notes, now2).value.reports[i].flagged == db.reports[i].flagged
  {
    var i := ReportById(db.reports, id).value;
    var db1 := SetReportFlag(db, actor, id, None, notes, now).value;
    IndexOfStable(db.reports, i, db1.reports[i], (x: Report) => x.id == id);
    assert db1.reports == db.reports[i := db1.reports[i]];
  }

  const NoteMaxLength := 2000
  const AuditNoteLength := 500

  /** `String(req.body.note || '').trim()`. */
  function NoteText(note: Option<string>): string {
    Trim(OrElse(note, ""))
  }

  /** `addReportNote`: the lookup (404) comes before the note checks. The stored note
      is the trimmed text; the audit row keeps its first 500 characters. The reply
      carries the new number of notes. */
  function AddReportNote(db: Db, actor: Principal, id: string, note: Option<string>, now: int): (r: Result<(Db, nat)>)
    ensures r.Ok? <==> ReportById(db.reports, id).Some? && NoteText(note) != "" && |NoteText(note)| <= NoteMaxLength
    ensures r.Ok? ==> var i := ReportById(db.reports, id).value;
      r.value == (WithNote(db, i, actor, NoteText(note), now), |db.reports[i].adminNotes| + 1)
  {
    AddNoteText(db, actor, id, NoteText(note), now)
  }

  /** The handler once the note has been read and trimmed to `text`. */
  function AddNoteText(db: Db, actor: Principal, id: string, text: string, now: int): (r: Result<(Db, nat)>)
    ensures r.Ok? <==> ReportById(db.reports, id).Some? && text != "" && |text| <= NoteMaxLength
    ensures r.Ok? ==> var i := ReportById(db.reports, id).value;
      r.value == (WithNote(db, i, actor, text, now), |db.reports[i].adminNotes| + 1)
  {
    match ReportById(db.reports, id)
    case None => Fail(NotFound("Report not found"))
    case Some(i) =>
      if text == "" then Fail(BadRequest("Note is required"))
      else if |text| > NoteMaxLength then Fail(BadRequest("Note too long"))
      else Ok((WithNote(db, i, actor, text, now), |db.reports[i].adminNotes| + 1))
  }

  /** Report `i` with one more note, and the audit row for it. */
  function WithNote(db: Db, i: nat, actor: Principal, text: string, now: int): (r: Db)
    requires i < |db.reports|
    ensures r.reports == db.reports[i := db.reports[i].(adminNotes := db.reports[i].adminNotes + [ReportNote(actor.id, actor.name, actor.email, actor.role, text, now)])]
    ensures r.auditLog == db.auditLog + [Audit(actor, actor.role, "add report note", "report", db.reports[i].id, "", Take(text, AuditNoteLength))]
    ensures r.(reports := db.reports, auditLog := db.auditLog) == db
  {
    var rep := db.reports[i];
    var rep' := rep.(adminNotes := rep.adminNotes + [ReportNote(actor.id, actor.name, actor.email, actor.role, text, now)]);
    db.(reports := db.reports[i := rep'],
        auditLog := db.auditLog + [Audit(actor, actor.role, "add report note", "report", rep.id, "", Take(text, AuditNoteLength))])
  }

  /** The three refusals, in the order the handler checks them: an unknown report
      (404) before a blank note before an over-long one (400). */
  lemma AddReportNoteFailures(db: Db, actor: Principal, id: string, note: Option<string>, now: int)
    ensures ReportById(db.reports, id).None? ==> AddReportNote(db, actor, id, note, now) == Fail(NotFound("Report not found"))
    ensures ReportById(db.reports, id).Some? && AllSpace(OrElse(note, "")) ==>
              AddReportNote(db, actor, id, note, now) == Fail(BadRequest("Note is required"))
    ensures ReportById(db.reports, id).Some? && |NoteText(note)| > NoteMaxLength ==>
              AddReportNote(db, actor, id, note, now) == Fail(BadRequest("Note too long"))
  {
    TrimEmptyIffBlank(OrElse(note, ""));
  }

  /** The audit copy of a note is its first 500 characters, and the whole note when it is shorter. */
  lemma AuditNoteIsPrefix(db: Db, actor: Principal, id: string, note: Option<string>, now: int)
    requires AddReportNote(db, actor, id, note, now).Ok?
    ensures var log := AddReportNote(db, actor, id, note, now).value.0.auditLog;
      var notes := log[|log| - 1].notes;
      var text := NoteText(note);
      |notes| <= AuditNoteLength && notes == text[..|notes|] && (|text| <= AuditNoteLength ==> notes == text)
  {
  }

  /** Every stored note is non-blank, at most 2000 characters and without surrounding
      white space, whatever the request sent. */
  lemma StoredNoteIsClean(db: Db, actor: Principal, id: string, note: Option<string>, now: int)
    requires AddReportNote(db, actor, id, note, now).Ok?
    ensures var i := ReportById(db.reports, id).value;
      var reps := AddReportNote(db, actor, id, note, now).value.0.reports;
      i < |reps| &&
      var notes := reps[i].adminNotes;
      var text := notes[|notes| - 1].note;
      text != "" && |text| <= NoteMaxLength && !IsSpace(text[0]) && !IsSpace(text[|text| - 1])
      && Trim(text) == text
  {
    TrimIdempotent(OrElse(note, ""));
  }

  // ---------------------------------------------------------------- moderators

  /** Saves moderator `i` with a new status and ledger. */
  function SaveModerator(mods: seq<Moderator>, i: nat, status: ModeratorStatus, ledger: seq<string>): (r: seq<Moderator>)
    requires i < |mods|
    ensures |r| == |mods| && r[i].status == status && r[i].refreshTokens == ledger
    ensures r[i].(status := mods[i].status, refreshTokens := mods[i].refreshTokens) == mods[i]
    ensures forall j :: 0 <= j < |mods| && j != i ==> r[j] == mods[j]
    ensures forall id :: ModeratorById(r, id) == ModeratorById(mods, id)
    ensures forall email :: ModeratorByEmail(r, email) == ModeratorByEmail(mods, email)
  {
    var m := mods[i].(status := status, refreshTokens := ledger);
    forall id ensures ModeratorById(mods[i := m], id) == ModeratorById(mods, id) {
      ModeratorByIdAfterSave(mods, i, m, id);
    }
    forall email ensures ModeratorByEmail(mods[i := m], email) == ModeratorByEmail(mods, email) {
      ModeratorByEmailAfterSave(mods, i, m, email);
    }
    mods[i := m]
  }

  function ModeratorAudit(actor: Principal, action: string, m: Moderator, notes: string): AuditEntry {
    Audit(actor, "admin", action, "moderator", m.id, "", notes)
  }

  /** `revokeModeratorSessions`: the ledger is emptied; the status is kept. */
  function RevokeSessions(db: Db, actor: Principal, id: string): (r: Result<Db>)
    ensures r.Fail? <==> ModeratorById(db.moderators, id).None?
    ensures r.Fail? ==> r.failure == NotFound("Moderator not found")
    ensures r.Ok? ==> var i := ModeratorById(db.moderators, id).value;
      && r.value.moderators == SaveModerator(db.moderators, i, db.moderators[i].status, [])
      && LedgerOf(r.value.moderators, id) == []
      && |r.value.auditLog| == |db.auditLog| + 1 && r.value.auditLog[|db.auditLog|].role == "admin"
      && r.value.(moderators := db.moderators, auditLog := db.auditLog) == db
  {
    match ModeratorById(db.moderators, id)
    case None => Fail(NotFound("Moderator not found"))
    case Some(i) =>
      var m := db.moderators[i];
      Ok(db.(moderators := SaveModerator(db.moderators, i, m.status, []),
             auditLog := db.auditLog + [ModeratorAudit(actor, "revoke sessions", m, "All sessions cleared")]))
  }

  /** `banModerator`: 404, then 400 for a moderator already banned; otherwise the
      status becomes banned and the ledger is emptied. */
  function BanModerator(db: Db, actor: Principal, id: string): (r: Result<Db>)
    ensures ModeratorById(db.moderators, id).None? ==> r == Fail(NotFound("Moderator not found"))
    ensures r.Ok? <==> ModeratorById(db.moderators, id).Some?
                       && db.moderators[ModeratorById(db.moderators, id).value].status == Active
    ensures ModeratorById(db.moderators, id).Some? && db.moderators[ModeratorById(db.moderators, id).value].status == Banned ==>
              r == Fail(BadRequest("Moderator already banned"))
    ensures r.Ok? ==> var i := ModeratorById(db.moderators, id).value;
      && r.value.moderators == SaveModerator(db.moderators, i, Banned, [])
      && LedgerOf(r.value.moderators, id) == []
      && |r.value.auditLog| == |db.auditLog| + 1 && r.value.auditLog[|db.auditLog|].role == "admin"
      && r.value.(moderators := db.moderators, auditLog := db.auditLog) == db
  {
    match ModeratorById(db.moderators, id)
    case None => Fail(NotFound("Moderator not found"))
    case Some(i) =>
      var m := db.moderators[i];
      if m.status == Banned then Fail(BadRequest("Moderator already banned"))
      else Ok(db.(moderators := SaveModerator(db.moderators, i, Banned, []),
                  auditLog := db.auditLog + [ModeratorAudit(actor, "ban moderator", m, "Moderator banned")]))
  }

  /** `unbanModerator`: 404, then 400 for a moderator that is not banned; otherwise
      the status becomes active and the (empty) ledger is not restored. */
  function UnbanModerator(db: Db, actor: Principal, id: string): (r: Result<Db>)
    ensures ModeratorById(db.moderators, id).None? ==> r == Fail(NotFound("Moderator not found"))
    ensures r.Ok? <==> ModeratorById(db.moderators, id).Some?
                       && db.moderators[ModeratorById(db.moderators, id).value].status == Banned
    ensures ModeratorById(db.moderators, id).Some? && db.moderators[ModeratorById(db.moderators, id).value].status == Active ==>
              r == Fail(BadRequest("Moderator is not banned"))
    ensures r.Ok? ==> var i := ModeratorById(db.moderators, id).value;
      && r.value.moderators == SaveModerator(db.moderators, i, Active, db.moderators[i].refreshTokens)
      && LedgerOf(r.value.moderators, id) == LedgerOf(db.moderators, id)
      && |r.value.auditLog| == |db.auditLog| + 1 && r.value.auditLog[|db.auditLog|].role == "admin"
      && r.value.(moderators := db.moderators, auditLog := db.auditLog) == db
  {
    match ModeratorById(db.moderators, id)
    case None => Fail(NotFound("Moderator not found"))
    case Some(i) =>
      var m := db.moderators[i];
      if m.status != Banned then Fail(BadRequest("Moderator is not banned"))
      else Ok(db.(moderators := SaveModerator(db.moderators, i, Active, m.refreshTokens),
                  auditLog := db.auditLog + [ModeratorAudit(actor, "unban moderator", m, "Moderator unbanned")]))
  }

  /** Ban then unban gives back an active moderator with no sessions: the ban's
      revocation outlives the unban. */
  lemma BanThenUnban(db: Db, actor: Principal, id: string)
    requires BanModerator(db, actor, id).Ok?
    ensures var db1 := BanModerator(db, actor, id).value;
      var i := ModeratorById(db.moderators, id).value;
      UnbanModerator(db1, actor, id).Ok?
      && UnbanModerator(db1, actor, id).value.moderators == SaveModerator(db.moderators, i, Active, [])
  {
    var i := ModeratorById(db.moderators, id).value;
    var db1 := BanModerator(db, actor, id).value;
    var m1 := SaveModerator(db.moderators, i, Banned, []);
    assert SaveModerator(m1, i, Active, []) == SaveModerator(db.moderators, i, Active, []);
  }

  /** A second ban is refused and changes nothing. */
  lemma BanIsNotRepeated(db: Db, actor: Principal, id: string)
    requires BanModerator(db, actor, id).Ok?
    ensures BanModerator(BanModerator(db, actor, id).value, actor, id) == Fail(BadRequest("Moderator already banned"))
  {
  }
}

=== FILE: moderator_auth.dfy ===
/** Moderator sessions (src/controllers/moderatorAuth.controller.js): login issues
    a short-lived access token and a long-lived refresh token and records the
    refresh token in the moderator's ledger; refresh mints a new access token only
    while the refresh token is still in the ledger; logout drops it. */
module ModeratorAuth {
  import opened Wrappers
  import opened Text
  import opened Tokens
  import opened Records

  /** `generateAccessToken`: claims `{ id, role }`, access secret, 15 minutes. */
  function AccessToken(m: Moderator, now: int): (t: Token)
    ensures Verify(t, AccessKey, now) == Valid(Payload(Some(m.id), None, Some(m.role), None, None))
    ensures forall later :: Verify(t, AccessKey, later).Valid? <==> Seconds(later) < Seconds(now) + AccessLifetime
    ensures Verify(t, RefreshKey, now).Rejected? && Verify(t, AdminKey, now).Rejected?
  {
    Sign(AccessKey, Payload(Some(m.id), None, Some(m.role), None, None), now, AccessLifetime)
  }

  /** `generateRefreshToken`: claims `{ id }` only, refresh secret, 7 days. */
  function RefreshToken(m: Moderator, now: int): (t: Token)
    ensures Verify(t, RefreshKey, now) == Valid(Payload(Some(m.id), None, None, None, None))
    ensures forall later :: Verify(t, RefreshKey, later).Valid? <==> Seconds(later) < Seconds(now) + RefreshLifetime
    ensures Verify(t, AccessKey, now).Rejected? && Verify(t, AdminKey, now).Rejected?
  {
    Sign(RefreshKey, Payload(Some(m.id), None, None, None, None), now, RefreshLifetime)
  }

  /** What a successful login returns: the access token, the refresh token set as
      the `moderator_refresh` cookie, and the moderator's profile. */
  datatype Session = Session(accessToken: string, refreshToken: string, profile: Principal)

  /** `moderatorLogin`. `matches(plain, hash)` is bcrypt's comparison. */
  function Login(db: Db, email: Option<string>, password: Option<string>,
                 matches: (string, string) -> bool, codec: Codec, now: int): (r: (Db, Result<Session>))
    ensures r.1.Fail? ==> r.0 == db
    ensures r.1.IsStatus(400) <==> !Truthy(email) || !Truthy(password)
    ensures r.1.Ok? ==> Truthy(email) && ModeratorByEmail(db.moderators, email.value).Some?
    ensures r.1.Ok? ==> var i := ModeratorByEmail(db.moderators, email.value).value;
      && db.moderators[i].status == Active
      && r.0 == db.(moderators := db.moderators[i := db.moderators[i].(refreshTokens := db.moderators[i].refreshTokens + [r.1.value.refreshToken])])
      && codec.parse(r.1.value.refreshToken) == codec.parse(codec.render(RefreshToken(db.moderators[i], now)))
      && r.1.value.refreshToken == codec.render(RefreshToken(db.moderators[i], now))
      && r.1.value.accessToken == codec.render(AccessToken(db.moderators[i], now))
      && r.1.value.profile == Principal(db.moderators[i].id, db.moderators[i].name, db.moderators[i].email, db.moderators[i].role)
  {
    if !Truthy(email) || !Truthy(password) then (db, Fail(BadRequest("Email and password required")))
    else match ModeratorByEmail(db.moderators, email.value)
      case None => (db, Fail(Unauthenticated("Moderator not found")))
      case Some(i) =>
        var m := db.moderators[i];
        if m.status == Banned then (db, Fail(Forbidden("Your moderator account has been banned. Contact admin.")))
        else if !matches(password.value, m.passwordHash) then (db, Fail(Unauthenticated("Invalid password")))
        else
          var access := codec.render(AccessToken(m, now));
          var refresh := codec.render(RefreshToken(m, now));
          var saved := m.(refreshTokens := m.refreshTokens + [refresh]);
          (db.(moderators := db.moderators[i := saved]),
           Ok(Session(access, refresh, Principal(m.id, m.name, m.email, m.role))))
  }

  /** The error responses of login, in the order the handler checks them: missing
      fields, unknown email, banned account (before the password is compared),
      wrong password. */
  lemma LoginFailures(db: Db, email: string, password: string, matches: (string, string) -> bool, codec: Codec, now: int)
    requires email != "" && password != ""
    ensures var r := Login(db, Some(email), Some(password), matches, codec, now).1;
      var found := ModeratorByEmail(db.moderators, email);
      && (found.None? ==> r == Fail(Unauthenticated("Moderator not found")))
      && (found.Some? && db.moderators[found.value].status == Banned ==> r.IsStatus(403))
      && (found.Some? && db.moderators[found.value].status == Active ==>
            (r.Ok? <==> matches(password, db.moderators[found.value].passwordHash)))
  {
  }

  /** A successful login appends exactly one token and keeps every earlier one, so
      sessions on other devices survive. */
  lemma LoginKeepsOtherSessions(db: Db, email: string, password: string, matches: (string, string) -> bool, codec: Codec, now: int)
    requires Login(db, Some(email), Some(password), matches, codec, now).1.Ok?
    ensures var (db', r) := Login(db, Some(email), Some(password), matches, codec, now);
      var i := ModeratorByEmail(db.moderators, email).value;
      && |db'.moderators| == |db.moderators|
      && db'.moderators[i].refreshTokens == db.moderators[i].refreshTokens + [r.value.refreshToken]
      && forall j :: 0 <= j < |db.moderators| && j != i ==> db'.moderators[j] == db.moderators[j]
  {
  }

  /** The moderator `findById` returns for the `id` claim of a refresh token that verifies. */
  function Named(db: Db, token: string, codec: Codec, now: int): (r: Option<nat>)
    ensures r.Some? <==> Verify(codec.parse(token), RefreshKey, now).Valid?
                         && Verify(codec.parse(token), RefreshKey, now).claims.id.Some?
                         && ModeratorById(db.moderators, Verify(codec.parse(token), RefreshKey, now).claims.id.value).Some?
    ensures r.Some? ==> r.value < |db.moderators|
                        && Verify(codec.parse(token), RefreshKey, now).claims.id == Some(db.moderators[r.value].id)
  {
    var v := Verify(codec.parse(token), RefreshKey, now);
    if v.Valid? && v.claims.id.Some? then ModeratorById(db.moderators, v.claims.id.value) else None
  }

  /** `refreshAccessToken`: a new access token for the moderator the refresh token
      names, provided the token verifies, the moderator exists and is not banned,
      and the token is still in the ledger. A banned moderator is refused with 403
      before the ledger is consulted. The ledger is left as it is. */
  function Refresh(db: Db, cookie: Option<string>, codec: Codec, now: int): (r: Result<string>)
    ensures !Truthy(cookie) ==> r == Fail(Unauthenticated("No refresh token"))
    ensures Truthy(cookie) && Verify(codec.parse(cookie.value), RefreshKey, now).Rejected? ==>
              r == Fail(Unauthenticated("Invalid refresh token"))
    ensures Truthy(cookie) && Verify(codec.parse(cookie.value), RefreshKey, now).Valid? && Named(db, cookie.value, codec, now).None? ==>
              r == Fail(Unauthenticated("Moderator not found"))
    ensures Truthy(cookie) && Named(db, cookie.value, codec, now).Some? ==>
      var m := db.moderators[Named(db, cookie.value, codec, now).value];
      && (m.status == Banned ==> r == Fail(Forbidden("Your moderator account has been banned.")))
      && (m.status == Active && cookie.value !in m.refreshTokens ==> r == Fail(Unauthenticated("Session expired \U{1F62D}")))
      && (m.status == Active && cookie.value in m.refreshTokens ==> r == Ok(codec.render(AccessToken(m, now))))
  {
    if !Truthy(cookie) then Fail(Unauthenticated("No refresh token"))
    else match Verify(codec.parse(cookie.value), RefreshKey, now)
      case Rejected(_) => Fail(Unauthenticated("Invalid refresh token"))
      case Valid(claims) =>
        if claims.id.None? then Fail(Unauthenticated("Moderator not found"))
        else match ModeratorById(db.moderators, claims.id.value)
          case None => Fail(Unauthenticated("Moderator not found"))
          case Some(i) =>
            var m := db.moderators[i];
            if m.status == Banned then Fail(Forbidden("Your moderator account has been banned."))
            else if cookie.value !in m.refreshTokens then Fail(Unauthenticated("Session expired \U{1F62D}"))
            else Ok(codec.render(AccessToken(m, now)))
  }

  /** The decision of refresh, check by check: no cookie or a token that does not
      verify is 401; a banned moderator is 403 before the ledger is consulted; a
      token missing from the ledger is 401; otherwise a fresh access token for
      that moderator. */
  lemma RefreshDecision(db: Db, cookie: Option<string>, codec: Codec, now: int)
    ensures var r := Refresh(db, cookie, codec, now);
      && (!Truthy(cookie) ==> r.IsStatus(401))
      && (Truthy(cookie) && Verify(codec.parse(cookie.value), RefreshKey, now).Rejected? ==> r.IsStatus(401))
      && (r.Ok? <==> Truthy(cookie) && RefreshAccepted(db, cookie.value, codec, now))
      && (r.Ok? ==> exists i :: 0 <= i < |db.moderators| && db.moderators[i].status == Active
                      && cookie.value in db.moderators[i].refreshTokens
                      && r.value == codec.render(AccessToken(db.moderators[i], now)))
  {
    if Truthy(cookie) {
      var v := Verify(codec.parse(cookie.value), RefreshKey, now);
      if v.Valid? && v.claims.id.Some? {
        var found := ModeratorById(db.moderators, v.claims.id.value);
        if found.Some? {
          var i := found.value;
          assert 0 <= i < |db.moderators|;
        }
      }
    }
  }

  /** When refresh accepts a token: it verifies under the refresh secret, names a
      moderator who is not banned, and is in that moderator's ledger. */
  predicate RefreshAccepted(db: Db, token: string, codec: Codec, now: int) {
    var v := Verify(codec.parse(token), RefreshKey, now);
    && v.Valid? && v.claims.id.Some?
    && ModeratorById(db.moderators, v.claims.id.value).Some?
    && db.moderators[ModeratorById(db.moderators, v.claims.id.value).value].status == Active
    && token in LedgerOf(db.moderators, v.claims.id.value)
  }

  /** Every entry except those equal to `token`, in order. */
  function Without(ledger: seq<string>, token: string): (r: seq<string>)
    ensures forall x :: x in r <==> x in ledger && x != token
    ensures |r| <= |ledger|
  {
    if |ledger| == 0 then []
    else (if ledger[0] == token then [] else [ledger[0]]) + Without(ledger[1..], token)
  }

  /** Filtering a ledger is filtering its parts: together with the membership
      contract on one-entry ledgers, the kept entries stay in their order. */
  lemma {:induction false} WithoutAppend(a: seq<string>, b: seq<string>, token: string)
    ensures Without(a + b, token) == Without(a, token) + Without(b, token)
  {
    if |a| > 0 {
      assert (a + b)[0] == a[0];
      assert (a + b)[1..] == a[1..] + b;
      WithoutAppend(a[1..], b, token);
    } else {
      assert a + b == b;
    }
  }

  /** Removing a token that is not in the ledger changes nothing. */
  lemma {:induction false} WithoutAbsent(ledger: seq<string>, token: string)
    requires token !in ledger
    ensures Without(ledger, token) == ledger
  {
    if |ledger| > 0 {
      WithoutAbsent(ledger[1..], token);
    }
  }

  /** The moderator whose ledger logout edits: the one `findById` returns for the
      `id` claim of the cookie, decoded without verification. */
  function LogoutTarget(db: Db, cookie: Option<string>, codec: Codec): (r: Option<nat>)
    ensures r.Some? <==> Truthy(cookie) && Decode(codec.parse(cookie.value)).Some?
                         && Truthy(Decode(codec.parse(cookie.value)).value.id)
                         && ModeratorById(db.moderators, Decode(codec.parse(cookie.value)).value.id.value).Some?
    ensures r.Some? ==> r == ModeratorById(db.moderators, Decode(codec.parse(cookie.value)).value.id.value)
  {
    if !Truthy(cookie) then None
    else match Decode(codec.parse(cookie.value))
      case None => None
      case Some(claims) =>
        if !Truthy(claims.id) then None else ModeratorById(db.moderators, claims.id.value)
  }

  /** `moderatorLogout`: the token is decoded without verification, so an expired
      token is still removed from the ledger of the moderator it names; every other
      entry, every other moderator and every other collection is kept. The cookie
      is cleared in every case, so the reply is always a success. */
  function Logout(db: Db, cookie: Option<string>, codec: Codec): (r: Db)
    ensures r.(moderators := db.moderators) == db && |r.moderators| == |db.moderators|
    ensures forall j :: 0 <= j < |db.moderators| && LogoutTarget(db, cookie, codec) != Some(j) ==>
              r.moderators[j] == db.moderators[j]
    ensures LogoutTarget(db, cookie, codec).Some? ==> var i := LogoutTarget(db, cookie, codec).value;
      r.moderators[i] == db.moderators[i].(refreshTokens := Without(db.moderators[i].refreshTokens, cookie.value))
  {
    if !Truthy(cookie) then db
    else match Decode(codec.parse(cookie.value))
      case None => db
      case Some(claims) =>
        if !Truthy(claims.id) then db
        else match ModeratorById(db.moderators, claims.id.value)
          case None => db
          case Some(i) =>
            var m := db.moderators[i];
            db.(moderators := db.moderators[i := m.(refreshTokens := Without(m.refreshTokens, cookie.value))])
  }

  /** After logout the presented token is gone from the ledger of the moderator it
      names, whether or not it has expired, and every other entry is still there. */
  lemma LogoutRemovesOnlyThatToken(db: Db, token: string, codec: Codec, id: string, other: string)
    requires token != "" && codec.parse(token).Signed? && codec.parse(token).payload.id == Some(id) && id != ""
    ensures token !in LedgerOf(Logout(db, Some(token), codec).moderators, id)
    ensures other != token && other in LedgerOf(db.moderators, id) ==> other in LedgerOf(Logout(db, Some(token), codec).moderators, id)
  {
    var db' := Logout(db, Some(token), codec);
    match ModeratorById(db.moderators, id)
    case None =>
    case Some(i) =>
      ModeratorByIdAfterSave(db.moderators, i, db'.moderators[i], id);
  }

  /** `verifyModeratorToken`: the token is the text after "Bearer " up to the next
      space; 401 without the prefix or when the token does not verify under the
      access secret, 403 when the role claim is not "moderator"; the verified
      claims become `req.user`. */
  function VerifyModeratorToken(header: Option<string>, codec: Codec, now: int): (r: Result<Payload>)
    ensures r.Ok? ==> r.value.role == Some("moderator")
    ensures !Truthy(header) || !StartsWith(header.value, "Bearer ") ==> r == Fail(Unauthenticated("No access token provided"))
    ensures Truthy(header) && StartsWith(header.value, "Bearer ") ==>
      var v := Verify(codec.parse(HeaderToken(header.value)), AccessKey, now);
      && (v.Rejected? ==> r == Fail(Unauthenticated("Access token expired")))
      && (v.Valid? && v.claims.role != Some("moderator") ==> r == Fail(Forbidden("Moderator access required")))
      && (v.Valid? && v.claims.role == Some("moderator") ==> r == Ok(v.claims))
  {
    if !Truthy(header) || !StartsWith(header.value, "Bearer ") then Fail(Unauthenticated("No access token provided"))
    else
      var token := HeaderToken(header.value);
      match Verify(codec.parse(token), AccessKey, now)
      case Rejected(_) => Fail(Unauthenticated("Access token expired"))
      case Valid(claims) =>
        if claims.role != Some("moderator") then Fail(Forbidden("Moderator access required"))
        else Ok(claims)
  }

  /** A freshly issued access token passes `verifyModeratorToken` with the id and
      role it was issued with. */
  lemma AccessTokenAccepted(m: Moderator, codec: Codec, now: int)
    requires Faithful(codec) && m.role == "moderator"
    ensures VerifyModeratorToken(Some("Bearer " + codec.render(AccessToken(m, now))), codec, now)
         == Ok(Payload(Some(m.id), None, Some("moderator"), None, None))
  {
    var text := codec.render(AccessToken(m, now));
    var h := "Bearer " + text;
    assert h[..7] == "Bearer ";
    assert h[7..] == text;
    assert UpToSpace(text) == text;
  }

  /** A header with nothing between "Bearer " and the next space carries the empty
      token, which never verifies: the answer is 401. */
  lemma EmptyBearerRefused(rest: string, codec: Codec, now: int)
    requires Faithful(codec)
    requires rest == "" || rest[0] == ' '
    ensures VerifyModeratorToken(Some("Bearer " + rest), codec, now) == Fail(Unauthenticated("Access token expired"))
  {
    var h := "Bearer " + rest;
    assert h[..7] == "Bearer ";
    assert h[7..] == rest;
  }

  /** The access token a login hands back passes `verifyModeratorToken`, with the
      moderator's id and role, for the 15 minutes it lives. */
  lemma LoginAccessTokenAccepted(db: Db, email: string, password: string, matches: (string, string) -> bool,
                                 codec: Codec, now: int, later: int)
    requires Faithful(codec)
    requires Login(db, Some(email), Some(password), matches, codec, now).1.Ok?
    requires db.moderators[ModeratorByEmail(db.moderators, email).value].role == "moderator"
    requires now <= later <= now + (AccessLifetime - 1) * 1000
    ensures var m := db.moderators[ModeratorByEmail(db.moderators, email).value];
      var session := Login(db, Some(email), Some(password), matches, codec, now).1.value;
      VerifyModeratorToken(Some("Bearer " + session.accessToken), codec, later)
        == Ok(Payload(Some(m.id), None, Some("moderator"), None, None))
  {
    var m := db.moderators[ModeratorByEmail(db.moderators, email).value];
    var t := AccessToken(m, now);
    var text := codec.render(t);
    assert codec.parse(text) == t;
    SignVerifyRoundTrip(AccessKey, t.payload, now, AccessLifetime, later);
    var h := "Bearer " + text;
    assert h[..7] == "Bearer ";
    assert h[7..] == text;
    UpToSpaceOfWord(text);
  }
}

=== FILE: moderators.dfy ===
/** Moderator accounts as administrators manage them (src/controllers/moderator.controller.js):
    creation with a unique email, the public listing, and the moderator action log. */
module Moderators {
  import opened Wrappers
  import opened Records

  /** What `createModerator` answers with: no password, no ledger. */
  datatype Created = Created(id: string, name: string, email: string, createdAt: int)

  /** A new moderator record as the schema defaults fill it in. */
  function NewModerator(id: string, name: string, email: string, passwordHash: string, now: int): (m: Moderator)
    ensures m.role == "moderator" && m.status == Active && m.refreshTokens == []
  {
    Moderator(id, name, email, passwordHash, "moderator", Active, [], now)
  }

  /** `createModerator`. `hash` stands for `bcrypt.hash(password, 10)` and `newId`
      for the id the database assigns. */
  function CreateModerator(db: Db, name: Option<string>, email: Option<string>, password: Option<string>,
                           hash: string -> string, newId: string, now: int): (r: Result<(Db, Created)>)
    ensures r == Fail(BadRequest("All fields are required")) <==> !Truthy(name) || !Truthy(email) || !Truthy(password)
    ensures r.IsStatus(409) <==> Truthy(name) && Truthy(email) && Truthy(password)
                                 && ModeratorByEmail(db.moderators, email.value).Some?
    ensures r.Ok? <==> Truthy(name) && Truthy(email) && Truthy(password)
                       && ModeratorByEmail(db.moderators, email.value).None?
    ensures r.Ok? ==>
      var (db', c) := r.value;
      && db'.moderators == db.moderators + [NewModerator(newId, name.value, email.value, hash(password.value), now)]
      && db'.(moderators := db.moderators) == db
      && c == Created(newId, name.value, email.value, now)
  {
    if !Truthy(name) || !Truthy(email) || !Truthy(password) then Fail(BadRequest("All fields are required"))
    else if ModeratorByEmail(db.moderators, email.value).Some? then
      Fail(Conflict("Moderator with this email already exists"))
    else
      var m := NewModerator(newId, name.value, email.value, hash(password.value), now);
      Ok((db.(moderators := db.moderators + [m]), Created(m.id, m.name, m.email, m.createdAt)))
  }

  /** Creation keeps emails unique, and keeps ids unique when the new id is fresh. */
  lemma CreateKeepsUniqueness(db: Db, name: Option<string>, email: Option<string>, password: Option<string>,
                              hash: string -> string, newId: string, now: int)
    requires UniqueEmails(db.moderators)
    requires CreateModerator(db, name, email, password, hash, newId, now).Ok?
    ensures UniqueEmails(CreateModerator(db, name, email, password, hash, newId, now).value.0.moderators)
    ensures UniqueIds(db.moderators) && ModeratorById(db.moderators, newId).None? ==>
              UniqueIds(CreateModerator(db, name, email, password, hash, newId, now).value.0.moderators)
  {
  }

  /** After creation, a login lookup by the new email finds the new record, and its
      stored password is the hash, never the plain text (unless the hash is the identity). */
  lemma CreatedIsFoundByEmail(db: Db, name: Option<string>, email: Option<string>, password: Option<string>,
                              hash: string -> string, newId: string, now: int)
    requires CreateModerator(db, name, email, password, hash, newId, now).Ok?
    ensures var mods := CreateModerator(db, name, email, password, hash, newId, now).value.0.moderators;
      ModeratorByEmail(mods, email.value) == Some(|db.moderators|)
      && mods[|db.moderators|].passwordHash == hash(password.value)
      && mods[|db.moderators|].status == Active
  {
    var m := NewModerator(newId, name.value, email.value, hash(password.value), now);
    IndexOfAppend(db.moderators, m, (x: Moderator) => x.email == email.value);
  }

  /** One row of `getAllModerators`: the projection "name email status createdAt". */
  datatype Listed = Listed(id: string, name: string, email: string, status: ModeratorStatus, createdAt: int)

  function ListModerators(mods: seq<Moderator>): (r: seq<Listed>)
    ensures |r| == |mods|
    ensures forall i :: 0 <= i < |mods| ==>
      r[i] == Listed(mods[i].id, mods[i].name, mods[i].email, mods[i].status, mods[i].createdAt)
  {
    if |mods| == 0 then [] else ListModerators(mods[..|mods| - 1]) + [Listed(mods[|mods| - 1].id, mods[|mods| - 1].name,
                                                                              mods[|mods| - 1].email, mods[|mods| - 1].status,
                                                                              mods[|mods| - 1].createdAt)]
  }

  /** Two stores that differ only in passwords and ledgers list the same: the listing
      reveals neither. */
  predicate SameButSecrets(a: seq<Moderator>, b: seq<Moderator>) {
    |a| == |b| &&
    forall i :: 0 <= i < |a| ==>
      a[i].(passwordHash := "", refreshTokens := []) == b[i].(passwordHash := "", refreshTokens := [])
  }

  lemma ListingHidesSecrets(a: seq<Moderator>, b: seq<Moderator>)
    requires SameButSecrets(a, b)
    ensures ListModerators(a) == ListModerators(b)
  {
    var la, lb := ListModerators(a), ListModerators(b);
    forall i | 0 <= i < |a| ensures la[i] == lb[i] {
      assert a[i].(passwordHash := "", refreshTokens := []).name == b[i].(passwordHash := "", refreshTokens := []).name;
    }
  }

  /** `logModeratorAction`: exactly one record is appended; earlier records stay as
      they were. An omitted `details` argument is recorded as the empty object. */
  function LogModeratorAction(db: Db, moderatorId: string, action: string, targetType: string, targetId: string,
                              details: Option<map<string, string>>): (r: Db)
    ensures |r.moderatorActions| == |db.moderatorActions| + 1
    ensures r.moderatorActions[..|db.moderatorActions|] == db.moderatorActions
    ensures var e := r.moderatorActions[|db.moderatorActions|];
      && e.(details := map[]) == ModeratorAction(moderatorId, action, targetType, targetId, map[])
      && (details.None? ==> e.details == map[])
      && (details.Some? ==> e.details == details.value)
    ensures r.(moderatorActions := db.moderatorActions) == db
  {
    var recorded := match details case None => map[] case Some(d) => d;
    db.(moderatorActions := db.moderatorActions + [ModeratorAction(moderatorId, action, targetType, targetId, recorded)])
  }

  /** Logged actions accumulate in the order they were logged; nothing else changes. */
  lemma LoggedActionsStayInOrder(db: Db, m1: string, action1: string, type1: string, target1: string,
                                 m2: string, action2: string, type2: string, target2: string)
    ensures var db2 := LogModeratorAction(LogModeratorAction(db, m1, action1, type1, target1, None),
                                          m2, action2, type2, target2, None);
      var n := |db.moderatorActions|;
      && db2.moderatorActions == db.moderatorActions + [ModeratorAction(m1, action1, type1, target1, map[]),
                                                        ModeratorAction(m2, action2, type2, target2, map[])]
      && db2.(moderatorActions := db.moderatorActions) == db
  {
  }
}

=== FILE: notifications.dfy ===
/** Administrator notifications (src/controllers/adminNotification.controller.js):
    which users a notification goes to, the records created for them, the pushes
    attempted, and the limit of the notification listing. */
module Notifications {
  import opened Wrappers
  import opened Text
  import opened Records
  import opened Listing

  /** A `userId` or `userIds` body field: absent, a single value, or an array.
      An empty or null element of an array is the empty string. */
  datatype IdsInput = NoIds | One(id: string) | Many(ids: seq<string>)

  /** The truthy elements of `xs`, that is the non-empty ones, in order (`xs.filter(Boolean)`). */
  function NonEmpty(xs: seq<string>): (r: seq<string>)
    ensures |r| <= |xs|
    ensures forall i :: 0 <= i < |r| ==> r[i] != ""
    ensures forall x :: x in r <==> x in xs && x != ""
  {
    if |xs| == 0 then []
    else if xs[|xs| - 1] == "" then NonEmpty(xs[..|xs| - 1])
    else NonEmpty(xs[..|xs| - 1]) + [xs[|xs| - 1]]
  }

  /** Filtering a list is filtering its parts: together with the membership contract
      on one-element lists, the kept ids stay in their original order. */
  lemma {:induction false} NonEmptyAppend(a: seq<string>, b: seq<string>)
    ensures NonEmpty(a + b) == NonEmpty(a) + NonEmpty(b)
    decreases |b|
  {
    if |b| == 0 {
      assert a + b == a;
    } else {
      assert (a + b)[..|a + b| - 1] == a + b[..|b| - 1];
      assert (a + b)[|a + b| - 1] == b[|b| - 1];
      NonEmptyAppend(a, b[..|b| - 1]);
    }
  }

  /** Filtering keeps a list with no empty element as it is. */
  lemma {:induction false} NonEmptyKeepsClean(xs: seq<string>)
    requires forall i :: 0 <= i < |xs| ==> xs[i] != ""
    ensures NonEmpty(xs) == xs
  {
    if |xs| > 0 {
      NonEmptyKeepsClean(xs[..|xs| - 1]);
    }
  }

  /** Filtering twice is filtering once. */
  lemma NonEmptyIdempotent(xs: seq<string>)
    ensures NonEmpty(NonEmpty(xs)) == NonEmpty(xs)
  {
    NonEmptyKeepsClean(NonEmpty(xs));
  }

  /** `normalizeIds`: nothing for a falsy input, the truthy elements of an array in
      their order, and a one-element list for a truthy single value. */
  function NormalizeIds(input: IdsInput): (r: seq<string>)
    ensures forall i :: 0 <= i < |r| ==> r[i] != ""
    ensures input.NoIds? ==> r == []
    ensures input.One? ==> r == (if input.id == "" then [] else [input.id])
    ensures input.Many? ==> r == NonEmpty(input.ids)
  {
    match input
    case NoIds => []
    case One(id) => if id == "" then [] else [id]
    case Many(ids) => NonEmpty(ids)
  }

  /** `.length` of the field: a string's length for a single value, 0 when absent. */
  function Length(input: IdsInput): nat {
    match input
    case NoIds => 0
    case One(id) => |id|
    case Many(ids) => |ids|
  }

  /** `normalizeIds(userIds?.length ? userIds : userId)`. */
  function Targets(userId: IdsInput, userIds: IdsInput): (r: seq<string>)
    ensures Length(userIds) > 0 ==> r == NormalizeIds(userIds)
    ensures Length(userIds) == 0 ==> r == NormalizeIds(userId)
  {
    if Length(userIds) > 0 then NormalizeIds(userIds) else NormalizeIds(userId)
  }

  /** An array of empty ids is non-empty, so `userId` is ignored, yet it normalises
      to no targets at all: the request becomes a broadcast. */
  lemma EmptyIdsIgnoreUserId(userId: IdsInput, n: nat)
    requires n > 0
    ensures Targets(userId, Many(seq(n, _ => ""))) == []
  {
    EmptyOnlyFiltersToNothing(seq(n, _ => ""));
  }

  lemma {:induction false} EmptyOnlyFiltersToNothing(xs: seq<string>)
    requires forall i :: 0 <= i < |xs| ==> xs[i] == ""
    ensures NonEmpty(xs) == []
  {
    if |xs| > 0 {
      EmptyOnlyFiltersToNothing(xs[..|xs| - 1]);
    }
  }

  /** The users satisfying `p`, in store order. */
  function Select(users: seq<User>, p: User -> bool): (r: seq<User>)
    ensures |r| <= |users|
    ensures forall i :: 0 <= i < |r| ==> p(r[i]) && r[i] in users
    ensures forall j :: 0 <= j < |users| && p(users[j]) ==> users[j] in r
  {
    if |users| == 0 then []
    else if p(users[|users| - 1]) then Select(users[..|users| - 1], p) + [users[|users| - 1]]
    else Select(users[..|users| - 1], p)
  }

  /** `User.find({ _id: { $in: targets } })`, or `User.find({ status: 'active' })`
      when there are no targets. */
  function Recipients(users: seq<User>, targets: seq<string>): (r: seq<User>)
    ensures targets != [] ==> forall u :: u in r <==> u in users && u.id in targets
    ensures targets == [] ==> forall u :: u in r <==> u in users && u.status == Some(UserActive)
  {
    if |targets| > 0 then Select(users, (u: User) => u.id in targets)
    else Select(users, (u: User) => u.status == Some(UserActive))
  }

  /** The notification record created for each recipient, in order. */
  function NotificationDocs(recipients: seq<User>, title: string, message: string): (r: seq<Notification>)
    ensures |r| == |recipients|
    ensures forall i :: 0 <= i < |r| ==> r[i] == Notification(recipients[i].id, "admin", title, message, None)
  {
    if |recipients| == 0 then []
    else NotificationDocs(recipients[..|recipients| - 1], title, message)
         + [Notification(recipients[|recipients| - 1].id, "admin", title, message, None)]
  }

  /** A push attempt: the device token and the collapse and thread ids. */
  datatype Push = Push(token: string, title: string, message: string, collapseId: string, threadId: string)

  /** `admin:<id>:` followed by the first 32 characters of the title. */
  function CollapseId(id: string, title: string): (r: string)
    ensures StartsWith(r, "admin:" + id + ":")
    ensures |r| == 7 + |id| + (if |title| < 32 then |title| else 32)
    ensures forall k :: 0 <= k < |r| - (7 + |id|) ==> r[7 + |id| + k] == title[k]
  {
    "admin:" + id + ":" + Take(title, 32)
  }

  /** Pushes for the recipients that have a push token, in order. */
  function Pushes(recipients: seq<User>, title: string, message: string): (r: seq<Push>)
    ensures |r| <= |recipients|
    ensures forall i :: 0 <= i < |r| ==> r[i].token != ""
    ensures forall u :: u in recipients && Truthy(u.pushToken) ==>
              Push(u.pushToken.value, title, message, CollapseId(u.id, title), "admin:" + u.id) in r
    ensures forall p :: p in r ==>
              exists u :: u in recipients && Truthy(u.pushToken)
                          && p == Push(u.pushToken.value, title, message, CollapseId(u.id, title), "admin:" + u.id)
  {
    if |recipients| == 0 then []
    else
      var init := Pushes(recipients[..|recipients| - 1], title, message);
      var u := recipients[|recipients| - 1];
      assert forall v :: v in recipients ==> v in recipients[..|recipients| - 1] || v == u;
      if Truthy(u.pushToken) then init + [Push(u.pushToken.value, title, message, CollapseId(u.id, title), "admin:" + u.id)]
      else init
  }

  /** What `sendAdminNotification` did: the new database, the pushes attempted and
      the `sent` count. */
  datatype Sent = Sent(db: Db, pushes: seq<Push>, sent: nat)

  /** `if (sendPush)` after `sendPush = true`: an absent field sends pushes; a present
      one (given here by its truthiness, so null, false and 0 are `Some(false)`) decides. */
  function PushesWanted(sendPush: Option<bool>): bool {
    match sendPush
    case None => true
    case Some(b) => b
  }

  function SendAdminNotification(db: Db, userId: IdsInput, userIds: IdsInput, title: Option<string>,
                                 message: Option<string>, sendPush: Option<bool>): (r: Result<Sent>)
    ensures r == Fail(BadRequest("title and message are required")) <==> !Truthy(title) || !Truthy(message)
    ensures r.IsStatus(404) <==> Truthy(title) && Truthy(message)
                                 && Recipients(db.users, Targets(userId, userIds)) == []
    ensures r.Ok? <==> Truthy(title) && Truthy(message) && Recipients(db.users, Targets(userId, userIds)) != []
    ensures r.Ok? ==>
      var recipients := Recipients(db.users, Targets(userId, userIds));
      && r.value.sent == |recipients| > 0
      && r.value.db == db.(notifications := db.notifications + NotificationDocs(recipients, title.value, message.value))
      && r.value.pushes == (if sendPush != Some(false) then Pushes(recipients, title.value, message.value) else [])
  {
    if !Truthy(title) || !Truthy(message) then Fail(BadRequest("title and message are required"))
    else
      var recipients := Recipients(db.users, Targets(userId, userIds));
      if |recipients| == 0 then Fail(NotFound("No recipients found"))
      else Ok(Sent(db.(notifications := db.notifications + NotificationDocs(recipients, title.value, message.value)),
                   if PushesWanted(sendPush) then Pushes(recipients, title.value, message.value) else [],
                   |recipients|))
  }

  /** Record `n` is addressed to a stored user, an active one when `activeOnly`. */
  predicate NamesUser(users: seq<User>, n: Notification, activeOnly: bool) {
    exists u :: u in users && u.id == n.userId && (activeOnly ==> u.status == Some(UserActive))
  }

  /** Each recipient gets exactly one new unread record of type "admin", and a
      broadcast reaches active users only. */
  lemma OneRecordPerRecipient(db: Db, userId: IdsInput, userIds: IdsInput, title: Option<string>,
                              message: Option<string>, sendPush: Option<bool>)
    requires SendAdminNotification(db, userId, userIds, title, message, sendPush).Ok?
    ensures var s := SendAdminNotification(db, userId, userIds, title, message, sendPush).value;
      var added := s.db.notifications[|db.notifications|..];
      && |added| == s.sent
      && forall i :: 0 <= i < |added| ==>
           added[i].kind == "admin" && added[i].readAt.None?
           && NamesUser(db.users, added[i], Targets(userId, userIds) == [])
  {
    var s := SendAdminNotification(db, userId, userIds, title, message, sendPush).value;
    var targets := Targets(userId, userIds);
    var docs := NotificationDocs(Recipients(db.users, targets), title.value, message.value);
    assert s.db.notifications == db.notifications + docs;
    assert s.db.notifications[|db.notifications|..] == docs;
    DocsNameRecipients(db.users, targets, title.value, message.value);
  }

  /** The records made for the recipients of `targets` each name a stored user, an
      active one when `targets` is empty. */
  lemma DocsNameRecipients(users: seq<User>, targets: seq<string>, title: string, message: string)
    ensures var docs := NotificationDocs(Recipients(users, targets), title, message);
      forall i :: 0 <= i < |docs| ==> NamesUser(users, docs[i], targets == [])
  {
    var recipients := Recipients(users, targets);
    var docs := NotificationDocs(recipients, title, message);
    forall i | 0 <= i < |docs| ensures NamesUser(users, docs[i], targets == []) {
      assert recipients[i] in recipients;
    }
  }

  /** `Math.min(200, Math.max(1, Number(limitRaw) || 50))`: NaN and zero fall back to 50. */
  function NotificationLimit(raw: JsNumber): (r: real)
    ensures 1.0 <= r <= 200.0
    ensures raw == NaN || raw == Finite(0.0) ==> r == 50.0
    ensures raw == PosInfinity ==> r == 200.0
    ensures raw == NegInfinity ==> r == 1.0
    ensures raw.Finite? && raw.val != 0.0 && 1.0 <= raw.val <= 200.0 ==> r == raw.val
  {
    match raw
    case NaN => 50.0
    case PosInfinity => 200.0
    case NegInfinity => 1.0
    case Finite(v) =>
      var n := if v == 0.0 then 50.0 else v;
      var lo := if n < 1.0 then 1.0 else n;
      if lo > 200.0 then 200.0 else lo
  }

  /** Apart from the zero fallback, the limit is the point of [1, 200] nearest the
      requested number. */
  lemma NotificationLimitIsNearest(v: real, k: real)
    requires v != 0.0 && 1.0 <= k <= 200.0
    ensures var r := NotificationLimit(Finite(v));
      (if r <= v then v - r else r - v) <= (if k <= v then v - k else k - v)
  {
  }
}

=== FILE: records.dfy ===
/** The documents the moderation backend reads and writes, and the database as a
    value: one sequence per collection, in natural order, so that a lookup returns
    the first matching document as `findOne`/`findById` do. */
module Records {
  import opened Wrappers

  /** The identity attached to a request (`req.user`). */
  datatype Principal = Principal(id: string, name: string, email: string, role: string)

  /** An administrator account; `role` is "admin" or "superadmin", "" when unset. */
  datatype Admin = Admin(id: string, name: string, email: string, passwordHash: string, role: string)

  datatype ModeratorStatus = Active | Banned

  /** A moderator account with its ledger of accepted refresh-token texts. */
  datatype Moderator = Moderator(
    id: string,
    name: string,
    email: string,
    passwordHash: string,
    role: string,
    status: ModeratorStatus,
    refreshTokens: seq<string>,
    createdAt: int)

  datatype UserStatus = UserActive | UserBanned | UserSuspended

  datatype VerificationType = Official | Creator | Developer

  /** A member of the public platform, as far as moderation touches it. */
  datatype User = User(
    id: string,
    name: string,
    email: string,
    status: Option<UserStatus>,
    isVerified: bool,
    verificationType: Option<VerificationType>,
    verifiedBy: Option<string>,
    verifiedAt: Option<int>,
    pushToken: Option<string>)

  /** A post, with the two soft-delete flags of the two backends that share it. */
  datatype Post = Post(id: string, authorId: Option<string>, isDeleted: bool, isDelete: bool)

  datatype ReportStatus = Open | Resolved

  datatype ReportNote = ReportNote(byId: string, byName: string, byEmail: string, role: string, note: string, createdAt: int)

  datatype Report = Report(
    id: string,
    status: ReportStatus,
    flagged: bool,
    flaggedAt: Option<int>,
    flaggedById: Option<string>,
    flaggedByName: Option<string>,
    flaggedByEmail: Option<string>,
    adminNotes: seq<ReportNote>)

  /** One row of the audit trail. */
  datatype AuditEntry = AuditEntry(
    actor: Principal,
    role: string,
    action: string,
    targetType: string,
    targetId: string,
    reason: string,
    notes: string)

  datatype VerificationAction = ActionVerify | ActionRevoke

  datatype VerificationEntry = VerificationEntry(userId: string, adminId: string, action: VerificationAction, reason: string)

  /** One row of the moderator action log; `details` is a flat object of string fields. */
  datatype ModeratorAction = ModeratorAction(moderatorId: string, action: string, targetType: string, targetId: string,
                                             details: map<string, string>)

  /** An in-app notification created by an administrator (type "admin"). */
  datatype Notification = Notification(userId: string, kind: string, title: string, message: string, readAt: Option<int>)

  /** The database as a value. */
  datatype Db = Db(
    admins: seq<Admin>,
    moderators: seq<Moderator>,
    users: seq<User>,
    posts: seq<Post>,
    reports: seq<Report>,
    auditLog: seq<AuditEntry>,
    verificationLog: seq<VerificationEntry>,
    moderatorActions: seq<ModeratorAction>,
    notifications: seq<Notification>)

  /** The position of the first element satisfying `p`. */
  function IndexOf<T>(s: seq<T>, p: T -> bool): (r: Option<nat>)
    ensures r.Some? ==> r.value < |s| && p(s[r.value])
    ensures r.Some? ==> forall j :: 0 <= j < r.value ==> !p(s[j])
    ensures r.None? ==> forall j :: 0 <= j < |s| ==> !p(s[j])
  {
    if |s| == 0 then None
    else if p(s[0]) then Some(0)
    else match IndexOf(s[1..], p)
      case None => None
      case Some(k) => Some(k + 1)
  }

  /** Replacing an element by one that `p` judges alike does not move the first match. */
  lemma {:induction false} IndexOfStable<T>(s: seq<T>, i: nat, e: T, p: T -> bool)
    requires i < |s| && p(e) == p(s[i])
    ensures IndexOf(s[i := e], p) == IndexOf(s, p)
  {
    if i > 0 {
      assert s[i := e][1..] == s[1..][i - 1 := e];
      IndexOfStable(s[1..], i - 1, e, p);
    }
  }

  /** Appending never moves an existing first match. */
  lemma {:induction false} IndexOfAppend<T>(s: seq<T>, e: T, p: T -> bool)
    ensures IndexOf(s, p).Some? ==> IndexOf(s + [e], p) == IndexOf(s, p)
    ensures IndexOf(s, p).None? && p(e) ==> IndexOf(s + [e], p) == Some(|s|)
    ensures IndexOf(s, p).None? && !p(e) ==> IndexOf(s + [e], p).None?
  {
    if |s| > 0 {
      assert (s + [e])[1..] == s[1..] + [e];
      IndexOfAppend(s[1..], e, p);
    }
  }

  function ModeratorById(mods: seq<Moderator>, id: string): (r: Option<nat>)
    ensures r.Some? ==> r.value < |mods| && mods[r.value].id == id
    ensures r.None? ==> forall j :: 0 <= j < |mods| ==> mods[j].id != id
  {
    IndexOf(mods, (m: Moderator) => m.id == id)
  }

  function ModeratorByEmail(mods: seq<Moderator>, email: string): (r: Option<nat>)
    ensures r.Some? ==> r.value < |mods| && mods[r.value].email == email
    ensures r.None? ==> forall j :: 0 <= j < |mods| ==> mods[j].email != email
  {
    IndexOf(mods, (m: Moderator) => m.email == email)
  }

  /** `Admin.findOne({ email, role: { $in: ["admin", "superadmin"] } })`. */
  function AdminByLogin(admins: seq<Admin>, email: string): (r: Option<nat>)
    ensures r.Some? ==> r.value < |admins| && admins[r.value].email == email
                        && admins[r.value].role in ["admin", "superadmin"]
    ensures r.None? ==> forall j :: 0 <= j < |admins| ==>
                          !(admins[j].email == email && admins[j].role in ["admin", "superadmin"])
  {
    IndexOf(admins, (a: Admin) => a.email == email && a.role in ["admin", "superadmin"])
  }

  function AdminById(admins: seq<Admin>, id: string): (r: Option<nat>)
    ensures r.Some? ==> r.value < |admins| && admins[r.value].id == id
    ensures r.None? ==> forall j :: 0 <= j < |admins| ==> admins[j].id != id
  {
    IndexOf(admins, (a: Admin) => a.id == id)
  }

  function UserById(users: seq<User>, id: string): (r: Option<nat>)
    ensures r.Some? ==> r.value < |users| && users[r.value].id == id
    ensures r.None? ==> forall j :: 0 <= j < |users| ==> users[j].id != id
  {
    IndexOf(users, (u: User) => u.id == id)
  }

  function PostById(posts: seq<Post>, id: string): (r: Option<nat>)
    ensures r.Some? ==> r.value < |posts| && posts[r.value].id == id
    ensures r.None? ==> forall j :: 0 <= j < |posts| ==> posts[j].id != id
  {
    IndexOf(posts, (p: Post) => p.id == id)
  }

  function ReportById(reports: seq<Report>, id: string): (r: Option<nat>)
    ensures r.Some? ==> r.value < |reports| && reports[r.value].id == id
    ensures r.None? ==> forall j :: 0 <= j < |reports| ==> reports[j].id != id
  {
    IndexOf(reports, (x: Report) => x.id == id)
  }

  /** The refresh-token ledger of the moderator `findById(id)` returns; none when there is no such moderator. */
  function LedgerOf(mods: seq<Moderator>, id: string): seq<string> {
    match ModeratorById(mods, id)
    case Some(i) => mods[i].refreshTokens
    case None => []
  }

  /** Saving a moderator whose id is unchanged leaves every lookup by id where it was. */
  lemma ModeratorByIdAfterSave(mods: seq<Moderator>, i: nat, m: Moderator, id: string)
    requires i < |mods| && m.id == mods[i].id
    ensures ModeratorById(mods[i := m], id) == ModeratorById(mods, id)
  {
    IndexOfStable(mods, i, m, (x: Moderator) => x.id == id);
  }

  /** Saving a moderator whose email is unchanged leaves every lookup by email where it was. */
  lemma ModeratorByEmailAfterSave(mods: seq<Moderator>, i: nat, m: Moderator, email: string)
    requires i < |mods| && m.email == mods[i].email
    ensures ModeratorByEmail(mods[i := m], email) == ModeratorByEmail(mods, email)
  {
    IndexOfStable(mods, i, m, (x: Moderator) => x.email == email);
  }

  /** No two moderators share an email (the schema's unique index). */
  predicate UniqueEmails(mods: seq<Moderator>) {
    forall i, j :: 0 <= i < j < |mods| ==> mods[i].email != mods[j].email
  }

  /** No two moderators share an id. */
  predicate UniqueIds(mods: seq<Moderator>) {
    forall i, j :: 0 <= i < j < |mods| ==> mods[i].id != mods[j].id
  }
}

=== FILE: routes.dfy ===
/** The route table of the admin router (src/routes/admin.routes.js): five public
    authentication routes, then `authAny` in front of every other route, then each
    route's role gate and, for the two verification routes, the limiter. */
module Routes {
  import opened Wrappers
  import opened Records
  import opened Gates
  import Limiter

  datatype Route =
    // public
    | AdminLogin | AdminLogout | ModeratorLogin | ModeratorRefresh | ModeratorLogout
    // protected
    | Stats | AuditLogs | RevokeSessions | ModeratorActions | CreateModerator | ListModerators
    | BanModerator | UnbanModerator | PostComments | DeleteComment | Me
    | ListUsers | GetUser | BanUser | SuspendUser | UnbanUser | VerifyUser | RevokeVerification
    | ListPosts | GetPost | SoftDeletePost | DeletePost
    | ListReports | LatestReport | GetReport | FlagReport | NoteReport | ResolveReport
    | ListNotifications | SendNotification

  /** The middlewares a request passes through before the handler, in order. */
  datatype Stage = Authenticate | RoleGate(roles: seq<string>) | ExactAdminGate | VerifyLimiter

  const AdminOrModerator: seq<string> := ["admin", "moderator"]
  const AdminOnly: seq<string> := ["admin"]
  const AdminOrSuperadmin: seq<string> := ["admin", "superadmin"]

  function Pipeline(r: Route): seq<Stage> {
    match r
    case AdminLogin | AdminLogout | ModeratorLogin | ModeratorRefresh | ModeratorLogout => []
    case Me => [Authenticate, ExactAdminGate]
    case VerifyUser | RevokeVerification => [Authenticate, RoleGate(AdminOrSuperadmin), VerifyLimiter]
    case Stats | PostComments | DeleteComment | ListUsers | GetUser | SuspendUser
       | ListPosts | GetPost | SoftDeletePost
       | ListReports | LatestReport | GetReport | FlagReport | NoteReport | ResolveReport
      => [Authenticate, RoleGate(AdminOrModerator)]
    case AuditLogs | RevokeSessions | ModeratorActions | CreateModerator | ListModerators
       | BanModerator | UnbanModerator | BanUser | UnbanUser | DeletePost
       | ListNotifications | SendNotification
      => [Authenticate, RoleGate(AdminOnly)]
  }

  /** Where a request ends: at the handler (with `req.user`, if set) or refused. */
  datatype Outcome = Reached(user: Option<Principal>) | Stopped(failure: Failure)

  function LimiterFailure(v: Limiter.Verdict): Failure {
    match v
    case NotAuthenticated => Unauthenticated("Not authenticated")
    case HourlyCap => TooManyRequests("Rate limit exceeded. Try again later.")
    case BurstCap => TooManyRequests("Too many verification actions. Slow down.")
    case _ => TooManyRequests("Verification limit reached. Try again later.")
  }

  /** The verdict of a gate stage. */
  function GateOf(stage: Stage, user: Option<Principal>): Decision
    requires stage.RoleGate? || stage.ExactAdminGate?
  {
    if stage.RoleGate? then AllowedRoles(stage.roles, user) else AdminGate(user)
  }

  /** Runs the stages in order. `auth` is what `authAny` resolves the request to,
      `target` the body's `userId` ("" when absent). */
  function Run(stages: seq<Stage>, user: Option<Principal>, auth: Result<Principal>,
               lim: Limiter.State, target: string, now: int): (Limiter.State, Outcome)
  {
    if |stages| == 0 then (lim, Reached(user))
    else match stages[0]
      case Authenticate =>
        if auth.Fail? then (lim, Stopped(auth.failure))
        else Run(stages[1..], Some(auth.value), auth, lim, target, now)
      case VerifyLimiter =>
        var actor := if user.Some? then user.value.id else "";
        var c := Limiter.Check(lim, actor, target, now);
        if c.1 != Limiter.Pass then (c.0, Stopped(LimiterFailure(c.1)))
        else Run(stages[1..], user, auth, c.0, target, now)
      case _ =>
        if GateOf(stages[0], user).Refuse? then (lim, Stopped(GateOf(stages[0], user).failure))
        else Run(stages[1..], user, auth, lim, target, now)
  }

  lemma RunAuthenticate(stages: seq<Stage>, p: Principal, lim: Limiter.State, target: string, now: int)
    requires |stages| > 0 && stages[0] == Authenticate
    ensures Run(stages, None, Ok(p), lim, target, now) == Run(stages[1..], Some(p), Ok(p), lim, target, now)
  {
  }

  lemma RunGate(stages: seq<Stage>, p: Principal, lim: Limiter.State, target: string, now: int)
    requires |stages| > 0 && (stages[0].RoleGate? || stages[0].ExactAdminGate?)
    ensures var g := GateOf(stages[0], Some(p));
      Run(stages, Some(p), Ok(p), lim, target, now)
        == if g.Refuse? then (lim, Stopped(g.failure)) else Run(stages[1..], Some(p), Ok(p), lim, target, now)
  {
  }

  lemma RunLimiter(stages: seq<Stage>, p: Principal, lim: Limiter.State, target: string, now: int)
    requires |stages| == 1 && stages[0] == VerifyLimiter
    ensures var c := Limiter.Check(lim, p.id, target, now);
      Run(stages, Some(p), Ok(p), lim, target, now)
        == (c.0, if c.1 == Limiter.Pass then Reached(Some(p)) else Stopped(LimiterFailure(c.1)))
  {
    assert stages[1..] == [];
  }

  /** A protected route without the limiter: the principal `authAny` resolved is
      admitted or refused by the route's gate alone. */
  lemma GatedRoute(r: Route, p: Principal, lim: Limiter.State, target: string, now: int)
    requires !IsPublic(r) && r != VerifyUser && r != RevokeVerification
    ensures |Pipeline(r)| == 2 && (Pipeline(r)[1].RoleGate? || Pipeline(r)[1].ExactAdminGate?)
    ensures var g := GateOf(Pipeline(r)[1], Some(p));
      Dispatch(r, Ok(p), lim, target, now) == (lim, if g.Next? then Reached(Some(p)) else Stopped(g.failure))
  {
    var P := Pipeline(r);
    assert |P| == 2 && P[0] == Authenticate && (P[1].RoleGate? || P[1].ExactAdminGate?);
    RunAuthenticate(P, p, lim, target, now);
    RunGate(P[1..], p, lim, target, now);
    assert P[1..][1..] == [];
  }

  /** A verification route: the gate, then the limiter under the principal's id. */
  lemma LimitedRoute(r: Route, p: Principal, lim: Limiter.State, target: string, now: int)
    requires r == VerifyUser || r == RevokeVerification
    ensures var g := AllowedRoles(AdminOrSuperadmin, Some(p));
      g.Refuse? ==> Dispatch(r, Ok(p), lim, target, now) == (lim, Stopped(g.failure))
    ensures var g := AllowedRoles(AdminOrSuperadmin, Some(p));
      var c := Limiter.Check(lim, p.id, target, now);
      g.Next? ==> Dispatch(r, Ok(p), lim, target, now)
                    == (c.0, if c.1 == Limiter.Pass then Reached(Some(p)) else Stopped(LimiterFailure(c.1)))
  {
    var P := Pipeline(r);
    assert P == [Authenticate, RoleGate(AdminOrSuperadmin), VerifyLimiter];
    RunAuthenticate(P, p, lim, target, now);
    RunGate(P[1..], p, lim, target, now);
    assert P[1..][1..] == [VerifyLimiter];
    RunLimiter(P[1..][1..], p, lim, target, now);
  }

  function Dispatch(r: Route, auth: Result<Principal>, lim: Limiter.State, target: string, now: int): (Limiter.State, Outcome) {
    Run(Pipeline(r), None, auth, lim, target, now)
  }

  predicate IsPublic(r: Route) {
    r in {AdminLogin, AdminLogout, ModeratorLogin, ModeratorRefresh, ModeratorLogout}
  }

  /** The routes a moderator can reach. */
  predicate ModeratorCanReach(r: Route) {
    r in {Stats, PostComments, DeleteComment, ListUsers, GetUser, SuspendUser,
          ListPosts, GetPost, SoftDeletePost,
          ListReports, LatestReport, GetReport, FlagReport, NoteReport, ResolveReport}
  }

  /** The routes whose gate is exactly ["admin"]. */
  predicate AdminListOnly(r: Route) {
    r in {AuditLogs, RevokeSessions, ModeratorActions, CreateModerator, ListModerators,
          BanModerator, UnbanModerator, BanUser, UnbanUser, DeletePost,
          ListNotifications, SendNotification}
  }

  /** The five authentication routes need no credentials; every other route
      passes through `authAny` first, and its failure is the answer. */
  lemma AuthenticateComesFirst(r: Route, auth: Result<Principal>, lim: Limiter.State, target: string, now: int)
    ensures IsPublic(r) ==> Dispatch(r, auth, lim, target, now) == (lim, Reached(None))
    ensures !IsPublic(r) ==> Pipeline(r)[0] == Authenticate
    ensures !IsPublic(r) && auth.Fail? ==> Dispatch(r, auth, lim, target, now) == (lim, Stopped(auth.failure))
  {
  }

  /** A moderator reaches exactly the moderator routes, and is refused with 403
      everywhere else. */
  lemma ModeratorReach(r: Route, p: Principal, lim: Limiter.State, target: string, now: int)
    requires p.role == "moderator" && !IsPublic(r)
    ensures Dispatch(r, Ok(p), lim, target, now).1 == Reached(Some(p)) <==> ModeratorCanReach(r)
    ensures !ModeratorCanReach(r) ==> Dispatch(r, Ok(p), lim, target, now).1.Stopped?
                                      && Dispatch(r, Ok(p), lim, target, now).1.failure.Status() == 403
  {
    if r == VerifyUser || r == RevokeVerification { LimitedRoute(r, p, lim, target, now); }
    else { GatedRoute(r, p, lim, target, now); }
  }

  /** A superadmin is refused on every route that lists only "admin", on the
      moderator routes and on `/me`; the verification routes are the only
      protected routes it can reach. */
  lemma SuperadminReach(r: Route, p: Principal, lim: Limiter.State, target: string, now: int)
    requires p.role == "superadmin" && !IsPublic(r)
    ensures r != VerifyUser && r != RevokeVerification ==>
              Dispatch(r, Ok(p), lim, target, now) == (lim, Stopped(Forbidden(if r == Me then "Admin access required" else "Access denied: insufficient role")))
    ensures AdminListOnly(r) ==> Dispatch(r, Ok(p), lim, target, now).1.Stopped?
  {
    if r != VerifyUser && r != RevokeVerification { GatedRoute(r, p, lim, target, now); }
  }

  /** An admin passes every gate; only the limiter on the verification routes can stop it. */
  lemma AdminReach(r: Route, p: Principal, lim: Limiter.State, target: string, now: int)
    requires p.role == "admin" && !IsPublic(r)
    ensures r != VerifyUser && r != RevokeVerification ==> Dispatch(r, Ok(p), lim, target, now) == (lim, Reached(Some(p)))
  {
    if r != VerifyUser && r != RevokeVerification { GatedRoute(r, p, lim, target, now); }
  }

  /** `/me` is reached exactly by a principal whose role is "admin". */
  lemma MeNeedsExactAdmin(p: Principal, lim: Limiter.State, target: string, now: int)
    ensures Dispatch(Me, Ok(p), lim, target, now).1.Reached? <==> p.role == "admin"
  {
    GatedRoute(Me, p, lim, target, now);
  }

  /** The verification routes admit admins and superadmins and then consult the
      limiter, under the principal's id; both routes draw on the same limiter
      state, so calls to either count against the same caps. */
  lemma VerificationRoutesShareLimiter(p: Principal, lim: Limiter.State, target: string, now: int)
    requires p.role in AdminOrSuperadmin
    ensures Dispatch(VerifyUser, Ok(p), lim, target, now) == Dispatch(RevokeVerification, Ok(p), lim, target, now)
    ensures var c := Limiter.Check(lim, p.id, target, now);
      Dispatch(VerifyUser, Ok(p), lim, target, now)
        == (c.0, if c.1 == Limiter.Pass then Reached(Some(p)) else Stopped(LimiterFailure(c.1)))
  {
    LimitedRoute(VerifyUser, p, lim, target, now);
    LimitedRoute(RevokeVerification, p, lim, target, now);
  }

  /** A moderator never touches the limiter: it is refused before the limiter runs. */
  lemma ModeratorNeverVerifies(p: Principal, lim: Limiter.State, target: string, now: int)
    requires p.role == "moderator"
    ensures Dispatch(VerifyUser, Ok(p), lim, target, now) == (lim, Stopped(Forbidden("Access denied: insufficient role")))
    ensures Dispatch(RevokeVerification, Ok(p), lim, target, now) == (lim, Stopped(Forbidden("Access denied: insufficient role")))
  {
    assert AllowedRoles(AdminOrSuperadmin, Some(p)) == Refuse(Forbidden("Access denied: insufficient role"));
    LimitedRoute(VerifyUser, p, lim, target, now);
    LimitedRoute(RevokeVerification, p, lim, target, now);
  }
}

=== FILE: text.dfy ===
/** The string primitives of ECMAScript that the handlers rely on:
    `trim`, `startsWith`, `slice(0, n)` and `split(" ")[1]`. */
module Text {

  /** ECMAScript WhiteSpace and LineTerminator code points, which `String.prototype.trim` strips. */
  predicate IsSpace(c: char) {
    || c == '\t' || c == '\n' || c == '\U{B}' || c == '\U{C}' || c == '\r' || c == ' '
    || c == '\U{A0}' || c == '\U{1680}' || ('\U{2000}' <= c <= '\U{200A}')
    || c == '\U{2028}' || c == '\U{2029}' || c == '\U{202F}' || c == '\U{205F}'
    || c == '\U{3000}' || c == '\U{FEFF}'
  }

  predicate AllSpace(s: string) {
    forall i :: 0 <= i < |s| ==> IsSpace(s[i])
  }

  /** `s.trimStart()`: the longest suffix that does not begin with white space. */
  function TrimStart(s: string): (r: string)
    ensures |r| <= |s| && r == s[|s| - |r|..]
    ensures AllSpace(s[..|s| - |r|])
    ensures |r| > 0 ==> !IsSpace(r[0])
  {
    if |s| > 0 && IsSpace(s[0]) then
      var r := TrimStart(s[1..]);
      assert s[1..][..|s[1..]| - |r|] == s[1..|s| - |r|];
      r
    else s
  }

  /** `s.trimEnd()`: the longest prefix that does not end with white space. */
  function TrimEnd(s: string): (r: string)
    ensures |r| <= |s| && r == s[..|r|]
    ensures AllSpace(s[|r|..])
    ensures |r| > 0 ==> !IsSpace(r[|r| - 1])
  {
    if |s| > 0 && IsSpace(s[|s| - 1]) then
      var r := TrimEnd(s[..|s| - 1]);
      assert s[..|s| - 1][|r|..] == s[|r|..|s| - 1];
      r
    else s
  }

  /** `s.trim()`: a string no longer than `s` that neither starts nor ends with white space. */
  function Trim(s: string): (r: string)
    ensures |r| <= |s|
    ensures |r| > 0 ==> !IsSpace(r[0]) && !IsSpace(r[|r| - 1])
  {
    TrimStart(TrimEnd(s))
  }

  /** What `trim` keeps is a contiguous slice of `s`, and what it drops on either
      side is white space. */
  lemma TrimIsSlice(s: string)
    ensures exists i, j :: 0 <= i <= j <= |s| && Trim(s) == s[i..j] && AllSpace(s[..i]) && AllSpace(s[j..])
  {
    var e := TrimEnd(s);
    var r := TrimStart(e);
    assert r == s[|e| - |r|..|e|];
    assert s[..|e| - |r|] == e[..|e| - |r|];
  }

  /** A string is blank (`!s.trim()`) exactly when every character is white space. */
  lemma TrimEmptyIffBlank(s: string)
    ensures Trim(s) == "" <==> AllSpace(s)
  {
    var e := TrimEnd(s);
    if !AllSpace(s) {
      var k :| 0 <= k < |s| && !IsSpace(s[k]);
      assert e[k] == s[k];
    }
  }

  /** Trimming twice is the same as trimming once. */
  lemma TrimIdempotent(s: string)
    ensures Trim(Trim(s)) == Trim(s)
  {
    var r := Trim(s);
    if |r| > 0 {
      assert TrimEnd(r) == r;
      assert TrimStart(r) == r;
    }
  }

  predicate StartsWith(s: string, prefix: string) {
    |prefix| <= |s| && s[..|prefix|] == prefix
  }

  /** `s.slice(0, n)` for `n >= 0`. */
  function Take(s: string, n: nat): (r: string)
    ensures |r| == if n < |s| then n else |s|
    ensures r == s[..|r|]
  {
    if n < |s| then s[..n] else s
  }

  /** `header.split(" ")[1]` for a header that starts with "Bearer ": the text after
      the scheme, up to the next space. */
  function HeaderToken(header: string): (r: string)
    requires StartsWith(header, "Bearer ")
  {
    UpToSpace(header[7..])
  }

  /** The text before the first space: `("x " + s).split(" ")[1]`. */
  function UpToSpace(s: string): (r: string)
    ensures |r| <= |s| && r == s[..|r|]
    ensures forall i :: 0 <= i < |r| ==> r[i] != ' '
    ensures |r| < |s| ==> s[|r|] == ' '
  {
    if |s| == 0 || s[0] == ' ' then "" else [s[0]] + UpToSpace(s[1..])
  }

  /** A text without spaces is its own first word. */
  lemma {:induction false} UpToSpaceOfWord(s: string)
    requires forall k :: 0 <= k < |s| ==> s[k] != ' '
    ensures UpToSpace(s) == s
  {
    if |s| > 0 {
      UpToSpaceOfWord(s[1..]);
    }
  }
}

=== FILE: tokens.dfy ===
/** JSON Web Tokens as the handlers use them (jsonwebtoken `sign`, `verify`, `decode`),
    with the cryptography abstracted: a token records which secret signed it, its
    claim set, and its `iat`/`exp` claims in whole seconds. */
module Tokens {
  import opened Wrappers

  /** The three secrets of the deployment (JWT_SECRET, ACCESS_TOKEN_SECRET,
      REFRESH_TOKEN_SECRET) and any key the server does not hold. */
  datatype Key = AdminKey | AccessKey | RefreshKey | ForeignKey

  /** The claims the handlers read. `id` is the moderator token's `id` claim and
      `oid` the admin token's `_id` claim; a claim left out of a token is `None`. */
  datatype Payload = Payload(
    id: Option<string>,
    oid: Option<string>,
    role: Option<string>,
    name: Option<string>,
    email: Option<string>)

  /** A compact JWT: either a signed claim set or text that does not decode at all. */
  datatype Token = Signed(key: Key, payload: Payload, iat: int, exp: int) | Malformed

  /** The two ways `jwt.verify` throws. */
  datatype TokenError = Invalid | Expired

  /** The outcome of `jwt.verify`: the claims, or the reason it throws. */
  datatype Checked = Valid(claims: Payload) | Rejected(error: TokenError)

  /** The wire form of tokens: `parse` reads the text a client presents and
      `render` produces the text of a freshly signed token. */
  datatype Codec = Codec(parse: string -> Token, render: Token -> string)

  /** Signing is deterministic, the compact form is decoded back unchanged, and
      it is a non-empty text without spaces (base64url segments joined by dots).
      The empty text is no token at all: `jwt.verify("")` throws "jwt must be
      provided". */
  ghost predicate Faithful(codec: Codec) {
    && codec.parse("") == Malformed
    && forall t: Token {:trigger codec.render(t)} ::
      && codec.parse(codec.render(t)) == t
      && codec.render(t) != ""
      && forall k :: 0 <= k < |codec.render(t)| ==> codec.render(t)[k] != ' '
  }

  /** Lifetimes in seconds: `expiresIn` of "15m", "7d" and "1d". */
  const AccessLifetime: int := 15 * 60
  const RefreshLifetime: int := 7 * 24 * 60 * 60
  const AdminLifetime: int := 24 * 60 * 60

  /** The JWT `iat` claim for a clock reading in milliseconds: whole seconds, rounded down. */
  function Seconds(nowMs: int): int {
    nowMs / 1000
  }

  /** `jwt.sign(payload, secret, { expiresIn })` at clock reading `nowMs`. */
  function Sign(key: Key, payload: Payload, nowMs: int, lifetime: int): (t: Token)
    ensures t.Signed? && t.key == key && t.payload == payload
    ensures t.exp - t.iat == lifetime && t.iat * 1000 <= nowMs < t.iat * 1000 + 1000
  {
    Signed(key, payload, Seconds(nowMs), Seconds(nowMs) + lifetime)
  }

  /** `jwt.verify(token, secret)`: the claims when the token was signed with this
      secret and the clock (in whole seconds) has not reached `exp` (section 4.1.4
      of RFC 7519). A wrong signature is reported before expiry. */
  function Verify(t: Token, key: Key, nowMs: int): (r: Checked)
    ensures r.Valid? <==> t.Signed? && t.key == key && Seconds(nowMs) < t.exp
    ensures r.Valid? ==> r.claims == t.payload
    ensures r == Rejected(Expired) <==> t.Signed? && t.key == key && Seconds(nowMs) >= t.exp
  {
    if t.Malformed? || t.key != key then Rejected(Invalid)
    else if Seconds(nowMs) >= t.exp then Rejected(Expired)
    else Valid(t.payload)
  }

  /** `jwt.decode(token)`: the claims of any well-formed token, with neither the
      signature nor the expiry checked. */
  function Decode(t: Token): (r: Option<Payload>)
    ensures r.Some? <==> t.Signed?
    ensures r.Some? ==> r.value == t.payload
  {
    match t
    case Signed(_, p, _, _) => Some(p)
    case Malformed => None
  }

  /** A freshly signed token verifies under its own secret to the claims it was
      signed with, for every clock reading up to one second before its lifetime
      ends, and is expired from the end of its lifetime on; under any other
      secret it never verifies. */
  lemma SignVerifyRoundTrip(key: Key, payload: Payload, issuedMs: int, lifetime: int, nowMs: int)
    requires lifetime >= 1
    ensures issuedMs <= nowMs <= issuedMs + (lifetime - 1) * 1000 ==>
      Verify(Sign(key, payload, issuedMs, lifetime), key, nowMs) == Valid(payload)
    ensures nowMs >= issuedMs + lifetime * 1000 ==>
      Verify(Sign(key, payload, issuedMs, lifetime), key, nowMs) == Rejected(Expired)
    ensures forall other: Key :: other != key ==>
      Verify(Sign(key, payload, issuedMs, lifetime), other, nowMs) == Rejected(Invalid)
  {
    var t := Sign(key, payload, issuedMs, lifetime);
    if issuedMs <= nowMs <= issuedMs + (lifetime - 1) * 1000 {
      assert Seconds(nowMs) <= Seconds(issuedMs + (lifetime - 1) * 1000);
      assert Seconds(issuedMs + (lifetime - 1) * 1000) == Seconds(issuedMs) + lifetime - 1;
    }
    if nowMs >= issuedMs + lifetime * 1000 {
      assert Seconds(nowMs) >= Seconds(issuedMs + lifetime * 1000);
      assert Seconds(issuedMs + lifetime * 1000) == Seconds(issuedMs) + lifetime;
    }
  }

  /** Tokens signed within the same second with the same secret, claims and
      lifetime are the same token, so they have the same text. */
  lemma SameSecondSameToken(key: Key, payload: Payload, t1: int, t2: int, lifetime: int, codec: Codec)
    requires Seconds(t1) == Seconds(t2)
    ensures codec.render(Sign(key, payload, t1, lifetime)) == codec.render(Sign(key, payload, t2, lifetime))
  {
  }

  /** Tokens signed in different seconds have different texts, provided the text decodes back. */
  lemma DifferentSecondDifferentText(key: Key, payload: Payload, t1: int, t2: int, lifetime: int, codec: Codec)
    requires Faithful(codec)
    requires Seconds(t1) != Seconds(t2)
    ensures codec.render(Sign(key, payload, t1, lifetime)) != codec.render(Sign(key, payload, t2, lifetime))
  {
    var a := Sign(key, payload, t1, lifetime);
    var b := Sign(key, payload, t2, lifetime);
    assert codec.parse(codec.render(a)) == a;
    assert codec.parse(codec.render(b)) == b;
  }
}

=== FILE: wrappers.dfy ===
/** Option and HTTP-style failure wrappers shared by every module. */
module Wrappers {

  datatype Option<+T> = None | Some(value: T)

  /** The error responses the controllers send, with the status code of each. */
  datatype Failure =
    | BadRequest(msg: string)        // 400
    | Unauthenticated(msg: string)   // 401
    | Forbidden(msg: string)         // 403
    | NotFound(msg: string)          // 404
    | Conflict(msg: string)          // 409
    | TooManyRequests(msg: string)   // 429
  {
    function Status(): int {
      match this
      case BadRequest(_) => 400
      case Unauthenticated(_) => 401
      case Forbidden(_) => 403
      case NotFound(_) => 404
      case Conflict(_) => 409
      case TooManyRequests(_) => 429
    }
  }

  /** A handler's reply: a success value or an error response. */
  datatype Result<+T> = Ok(value: T) | Fail(failure: Failure) {
    predicate IsStatus(code: int) {
      Fail? && failure.Status() == code
    }
  }

  /** JavaScript truthiness of an optional string field: absent and "" are falsy. */
  predicate Truthy(s: Option<string>) {
    s.Some? && s.value != ""
  }

  /** `x || fallback` for an optional string. */
  function OrElse(s: Option<string>, fallback: string): (r: string)
    ensures Truthy(s) ==> r == s.value
    ensures !Truthy(s) ==> r == fallback
  {
    if Truthy(s) then s.value else fallback
  }
}
